=== FILE: README.md ===
# Eigensolvers and the GCR solver: a Dafny model

This project models two parts of a lattice-QCD linear-algebra library.

The first part is the eigensolver core in `lib/eigensolve_quda.cpp`. It covers:
- the checks of the `EigenSolver` and `TRLM` constructors;
- the mapping from the requested spectrum to the searched one, and the `reverse` flag;
- the solver factory;
- the Chebyshev polynomial filter `chebyOp`;
- Gram-Schmidt `orthogonalize` and `blockOrthogonalize`, and `deflate`;
- one thick-restart Lanczos step with its restart window;
- the arrow matrix of `eigensolveFromArrowMat`;
- the rotation of the basis in `computeKeptRitz`;
- the sort of the converged Ritz pairs in `reorder`;
- the locking and convergence bookkeeping of the TRLM restart loop;
- the counters of the Jacobi-Davidson (JD) outer loop.

The second part is the GCR solver in `lib/inv_gcr_quda.cpp`. It covers:
- back-substitution and the blocked solution update;
- the fused modified Gram-Schmidt step `orthoDir`;
- the inner-solver parameter block and the choice of inner solver;
- the rule deciding on which cycles a node applies the preconditioner;
- the Krylov-index, pass and restart bookkeeping of the main loop, with its breakdown check.

Vectors are `seq<real>`. The library's doubles and complex numbers are idealised as exact reals. Operators, norms, the dense eigensolver and the vector numerics of a pass are function-typed parameters. A fatal `errorQuda` becomes a `Failure` value.

Modules, one per file: `Outcomes`, `Vectors`, `Precisions`, `EigParams`, `Chebyshev`, `Orthogonalize`, `Deflation`, `Lanczos`, `Arrow`, `KeptRitz`, `Reorder`, `Restart`, `JacobiDavidson`, `GcrParams`, `GcrKernels`, `GcrLoop`.

Two behaviours of the code are worth noting because they are easy to misread:
- In `lanczosStep`, while j <= num_keep the code subtracts beta_i v_i for EVERY i < j, not just the one before j (lib/eigensolve_quda.cpp:759-764).
- `num_converged` is recomputed from the current locked count on every pass, so it is not monotone (lib/eigensolve_quda.cpp:626). `Restart.ConvergedCountCanFall` shows it falling.

## Model

| member | source | states |
|---|---|---|
| EigParams.BaseConstruct | lib/eigensolve_quda.cpp:61-71 | Construction succeeds exactly when nKr > nEv >= nConv and none of nEv, nKr, nConv is zero (negative sizes fail on allocation). The checks run in source order, and the result carries the internal spectrum and `reverse` |
| EigParams.TrlmConstruct | lib/eigensolve_quda.cpp:499-504 | TRLM additionally fails if nKr < nEv + 6, or if a Lanczos solver is asked for anything but LR or SR; base failures pass through unchanged |
| EigParams.Create | lib/eigensolve_quda.cpp:135-146 | Lanczos builds TRLM and JD builds JD, each succeeding exactly when its constructor does; Arnoldi and any other type fail |
| EigParams.CreateRejectsNoLargerKrylov | lib/eigensolve_quda.cpp:61 | With nKr <= nEv the factory fails on the first check for both solver types |
| EigParams.NegativeConvAccepted | lib/eigensolve_quda.cpp:62-65 | A negative nConv passes every check (only zero and nConv > nEv are refused) |
| EigParams.InternalSpectrum | lib/eigensolve_quda.cpp:74-102 | Without acceleration the searched spectrum is the requested one; with acceleration S and L swap and the part (R, M, I) is kept; an unrecognised request stays SR |
| EigParams.Reverse | lib/eigensolve_quda.cpp:104-113 | Without acceleration `reverse` holds iff the spectrum starts with L; with acceleration `reverse` is true for every spectrum |
| EigParams.InitResiduaAsWritten | lib/eigensolve_quda.cpp:67-68 | Every pass of the loop writes index nKr, outside the array, and the array keeps its initial contents |
| EigParams.InitResiduaAsWrittenLeavesGarbage | lib/eigensolve_quda.cpp:68 | For nKr = 1 and an initial value 7.0 the loop writes only index 1 and leaves 7.0 in place |
| EigParams.InitResidua | lib/eigensolve_quda.cpp:67-68 | The corrected loop writes indices 0 .. nKr-1 in order and leaves every residuum 0 |
| Chebyshev.ChebyOp | lib/eigensolve_quda.cpp:159-248 | Without acceleration: one application and out = A in. Degree 0: an error before any application. Otherwise: 1 + max(0, deg - 2) applications, the result is the (deg-1)-th recurrence term (C_1 for degree 1 or 2), C_1 = in + (sigma_1/delta) A in, and with 0 <= a_min < a_max it always succeeds |
| Chebyshev.SigmaBounded | lib/eigensolve_quda.cpp:184-220 | With 0 <= a_min < a_max every sigma_m lies in [-1, 0), so no denominator of the recurrence vanishes |
| Chebyshev.ChebOnEigenvector | lib/eigensolve_quda.cpp:186-243 | On an eigenvector v with eigenvalue lambda the filter returns p_m(lambda) v, where p_m is the same recurrence on scalars |
| Orthogonalize.BlockOrthogonalize | lib/eigensolve_quda.cpp:267-289 | Returns the sum of the inner products <v_i, r> over v_0 .. v_j (j + 1 vectors). What it subtracts from r is a combination of v_0 .. v_j. Against orthonormal v_0 .. v_j the new vector is orthogonal to each of them; a vector already orthogonal to all of them is returned unchanged |
| Orthogonalize.Orthogonalize | lib/eigensolve_quda.cpp:251-264 | Sequential Gram-Schmidt over v_0 .. v_{j-1}: coefficient i is the inner product of v_i with the vector left after the first i subtractions, the result is r minus the combination with those coefficients, and the returned sum is their sum. Against an orthonormal family the coefficients equal the block inner products and the result is orthogonal to every v_k |
| Deflation.Deflate | lib/eigensolve_quda.cpp:301-318 | Against an orthonormal eigenbasis the component of the result along V_k is <V_k, x> / lambda_k, so deflation inverts the operator on that span. The result lies in the span of the eigenvectors: it is orthogonal to every vector orthogonal to all of them. A vector with no component along any eigenvector deflates to zero |
| Deflation.DeflateHomogeneous | lib/eigensolve_quda.cpp:301-318 | deflate(a x) = a deflate(x) |
| Lanczos.LanczosStep | lib/eigensolve_quda.cpp:743-777 | Writes alpha[j] = <v_j, A v_j>, beta[j] = norm of the residual and v_{j+1} with beta[j] v_{j+1} = residual, and nothing else. A zero norm is a breakdown |
| Lanczos.ResidualOrthogonal | lib/eigensolve_quda.cpp:766-768 | Against orthonormal v_0 .. v_j the residual after the block re-orthogonalisation is orthogonal to all of them |
| Lanczos.LanczosStepKeepsOrthonormal | lib/eigensolve_quda.cpp:770-776 | A successful step extends an orthonormal v_0 .. v_j to an orthonormal v_0 .. v_{j+1} |
| Lanczos.Extend | lib/eigensolve_quda.cpp:576-583 | Running steps from .. to-1 rewrites only those alphas and betas and v_{from+1} .. v_to, fails at a step inside the range, and keeps an orthonormal basis orthonormal up to v_to |
| Arrow.ArrowMatrix | lib/eigensolve_quda.cpp:816-853 | The matrix is dim x dim with dim = nKr - num_locked, diagonal alpha[num_locked + i], the arrow column/row arrow_pos - 1, and the band past it |
| Arrow.ArrowShape | lib/eigensolve_quda.cpp:835-853 | The arrow matrix is symmetric; among the first arrow_pos - 1 rows only the diagonal and column arrow_pos - 1 are nonzero; past them it is tridiagonal |
| Arrow.BuildArrow | lib/eigensolve_quda.cpp:820-853 | The three filling loops produce exactly the arrow matrix |
| Arrow.StoreRitz | lib/eigensolve_quda.cpp:863-867 | For every unlocked position i, alpha[i] becomes the (i - num_locked)-th eigenvalue and residua[i] = abs(beta[nKr-1] times the last entry of that eigenvector). Locked positions keep their values |
| Arrow.ReversedArrowIsNegated | lib/eigensolve_quda.cpp:825-832 | Under `reverse`, negating alpha on [num_locked, nKr) and beta on [num_locked, nKr-1) negates the whole arrow matrix |
| Arrow.EigensolveFromArrowMat | lib/eigensolve_quda.cpp:813-876 | Unlocked alphas become the Ritz values, negated back under `reverse` and so sorted by the searched order. The residuum is abs(beta[nKr-1] times the last eigenvector entry). Locked entries are kept, and beta is LEFT NEGATED under `reverse` |
| KeptRitz.ComputeKeptRitz | lib/eigensolve_quda.cpp:878-903 | The basis grows to nKr + 1 + iter_keep vectors. v_{nl+i} becomes the Ritz vector from eigenvector column i, v_nKr moves to position nl + iter_keep, beta[nl+i] = beta[nKr-1] times the column's last entry. The scratch slots nKr + 1 .. nKr + iter_keep keep the Ritz vectors built there, and every other slot and beta entry is unchanged |
| KeptRitz.CombinationsInnerProduct | lib/eigensolve_quda.cpp:891-897 | Over an orthonormal basis the inner product of two Ritz vectors is that of their coefficient columns, so orthonormal eigenvectors give orthonormal kept vectors |
| KeptRitz.ResidualVectorOrthogonalToKept | lib/eigensolve_quda.cpp:899-900 | The last Lanczos vector, moved behind the kept block, is orthogonal to every kept Ritz vector |
| Reorder.Reorder | lib/eigensolve_quda.cpp:779-811 | The corrected gnome sort ends with alpha descending under `reverse` (ascending otherwise). The (value, vector) pairs are a permutation of the input, and vectors past nKr are untouched |
| Reorder.ReorderAll | lib/eigensolve_quda.cpp:782-810 | `reorder` from i = 0: sorted, and a permutation of the pairs |
| Reorder.ReorderAsWritten | lib/eigensolve_quda.cpp:784-810 | The sort as written still sorts alpha; its only failure is the read of kSpace[-1] |
| Reorder.ReorderAsWrittenReadsBeforeStart | lib/eigensolve_quda.cpp:791-794 | Under `reverse`, alpha = [1, 2] makes the first swap read kSpace[-1] |
| Reorder.ReorderAsWrittenBreaksPairing | lib/eigensolve_quda.cpp:791-794 | Under `reverse`, [3, 1, 2] with vectors [v0, v1, v2] ends with values [3, 2, 1] and vectors [v1, v0, v2]: 3 has lost its vector |
| Reorder.ReorderKeepsPairing | lib/eigensolve_quda.cpp:784-795 | The corrected sort on the same input gives [3, 2, 1] with [v0, v2, v1] |
| Restart.Epsilon | lib/eigensolve_quda.cpp:547-565 | The locking threshold per precision is positive and below 0.06 |
| Restart.EpsilonOrdered | lib/eigensolve_quda.cpp:548-565 | double < single < half (2e-3) < quarter (5e-2); any other precision keeps DBL_EPSILON |
| Restart.RunningMax | lib/eigensolve_quda.cpp:592-593 | mat_norm never decreases, bounds every abs(alpha[i]) in the range, and is one of them or the old value |
| Restart.Scan | lib/eigensolve_quda.cpp:596-620 | The scan result passes every residuum after its start up to itself and stops at the first failure |
| Restart.ScanIsLongestRun | lib/eigensolve_quda.cpp:597-619 | Any position with those two properties is the scan result: it is the longest run |
| Restart.KeepAsWritten | lib/eigensolve_quda.cpp:622 | iter_keep = min(iter_converged + (nKr - num_converged)/2, nKr - num_locked - 12), with C's truncating division |
| Restart.KeepAsWrittenNegative | lib/eigensolve_quda.cpp:622 | nEv = nConv = 1, nKr = 7 passes the TRLM checks (line 499), yet the first restart computes iter_keep = -5 |
| Restart.Keep | lib/eigensolve_quda.cpp:622-627 | The corrected keep count lies in [0, nKr - num_locked]; it equals the as-written one when that is non-negative and is 0 otherwise |
| Restart.Restart | lib/eigensolve_quda.cpp:583-652 | One pass adds nKr - num_keep to iter. mat_norm grows to cover the new Ritz values. num_locked grows by the longest run of residua below eps mat_norm from position 1. num_converged extends that run under tol mat_norm. num_keep comes from the keep count, and `converged` holds iff num_converged >= nConv. The new mat_norm is the old one or abs(alpha[i]) for some unlocked i |
| Restart.ArrowPosFits | lib/eigensolve_quda.cpp:587 | After a pass that did not converge, 2 <= arrow_pos <= nKr - num_locked, the range the arrow eigensolve (line 816) needs |
| Restart.ConvergedCountCanFall | lib/eigensolve_quda.cpp:610-626 | A pass whose first unlocked residuum fails both tests reports fewer converged pairs than before |
| Restart.Run | lib/eigensolve_quda.cpp:576-652 | The passes form a trace from the constructor's counters: each state is `Restart.Restart` applied to the previous one and its observation, every state before the last is unconverged, and each pass starts from the num_keep of its state. At most max_restarts passes. `converged` holds exactly when a pass counted nConv converged pairs, and alpha is then sorted by `reorder`, with the same (value, vector) pairs the last pass observed; otherwise the budget is spent. iter = nEv + the sum of nKr - num_keep over the passes, and the first pass starts at num_keep = 0 |
| Restart.Pass | lib/eigensolve_quda.cpp:583-652 | One pass of the restart loop. Its new state is exactly `Restart.Restart` of the old one, so it adds 1 to restart_iter. When num_converged >= nConv, the corrected `reorder` (see Findings) returns the Ritz values sorted, their (value, vector) pairs permuted and the vectors past nKr untouched. Otherwise alpha and kSpace are what the pass computed |
| JacobiDavidson.HitLoopAsWritten | lib/eigensolve_quda.cpp:1136-1209 | Bounded by fuel: no pass when norm >= tol |
| JacobiDavidson.HitLoopAsWrittenDiverges | lib/eigensolve_quda.cpp:1140-1209 | With tol > 1 and norm < tol the loop never exits (norm is reset to 1.0 < tol) |
| JacobiDavidson.HitLoopAsWrittenOnce | lib/eigensolve_quda.cpp:1140-1209 | With tol <= 1 the as-written loop makes the corrected number of passes |
| JacobiDavidson.HitPasses | lib/eigensolve_quda.cpp:1140-1209 | The corrected branch runs once exactly when norm < tol |
| JacobiDavidson.Pass | lib/eigensolve_quda.cpp:1075-1251 | m grows by one, and reaching m_max truncates it to m_min and counts a restart. A residual below tol counts a hit; k, `converged` and the projection space are unchanged |
| JacobiDavidson.PassesForClosedForm | lib/eigensolve_quda.cpp:1061-1244 | The pass count for r restarts is m_max + (r - 1)(m_max - m_min) |
| JacobiDavidson.Run | lib/eigensolve_quda.cpp:1043-1445 | k stays 0 and `converged` false. With nConv > 0 and max_restarts > 0 the loop takes exactly max_restarts restarts, ends with m = m_min and makes the closed-form number of passes; otherwise it makes none. The output space, cleared before the loop and empty after it, is handed back holding one zero vector |
| GcrParams.FillInnerInvertParam | lib/inv_gcr_quda.cpp:28-48 | The inner block takes tol, maxiter, both precisions and verbosity from the outer precondition fields, gets reliable_delta = 1e-20 and inv_type_precondition = GCR, zeroes iter/gflops/secs, and keeps every other field. preserve_source is NO iff the outer type is GCR with a sloppy precision different from the preconditioner's |
| GcrParams.FillIdempotent | lib/inv_gcr_quda.cpp:28-48 | Filling twice from the same outer block changes nothing more |
| GcrParams.FillForgetsOverwritten | lib/inv_gcr_quda.cpp:28-48 | The result depends on the inner block only through the fields it does not write |
| GcrParams.Construct | lib/inv_gcr_quda.cpp:136-150 | The constructor fills the inner block from a fresh one, then builds CG, BiCGstab or MR for the matching type. INVALID leaves no inner solver, and any other type fails |
| GcrParams.ConstructRejectsGcrInner | lib/inv_gcr_quda.cpp:148-149 | Asking for GCR as the inner solver is an unknown inner solver |
| GcrParams.KApplicationsCount | lib/inv_gcr_quda.cpp:225-269 | Per pass, additive Schwarz applies K on every cycle. Otherwise even-parity nodes take cycles 0, 2, ... and odd ones cycles 1, 3, ..., giving (cycles + 1 - parity)/2. Without K there are none |
| GcrKernels.BackSubs | lib/inv_gcr_quda.cpp:103-111 | With every gamma[k] nonzero, delta solves gamma[k] delta[k] + sum over j > k of beta[k][j] delta[j] = alpha[k] for all k < n |
| GcrKernels.BackSubsUnique | lib/inv_gcr_quda.cpp:103-111 | That system has one solution: any two solutions agree on [0, n) |
| GcrKernels.UpdateSolution | lib/inv_gcr_quda.cpp:113-132 | The stride-3 loop and the k mod 3 remainder add each delta[i] p[i], i < k, once: x' = x + sum over i < k of delta[i] p[i] |
| GcrKernels.AddDirections | lib/inv_gcr_quda.cpp:123-129 | The stride-3 fused updates followed by the k mod 3 remainder give x' = x + sum over i < k of delta[i] p[i] |
| GcrKernels.OrthoDir | lib/inv_gcr_quda.cpp:50-67 | Type 1 with k = 0 changes nothing. Otherwise it equals the unfused reference loop (lines 55-58): beta[i][k] is the reference coefficient for every i < k, Ap[k] is the reference reduced vector, and no other entry or vector changes |
| GcrKernels.MgsOrthogonal | lib/inv_gcr_quda.cpp:55-58 | Against orthonormal Ap[0..k) the reduced direction is orthogonal to every Ap[i], i < k |
| GcrLoop.Pass | lib/inv_gcr_quda.cpp:286-331 | A zero gamma[k] is a breakdown, raised before any division (the model adds the pass number to the error; the library's message has none). Otherwise k and total_iter advance and an update resets k, so k < Nkrylov. An update counts a restart iff the recomputed residual does not converge, and l2_converge never unlatches |
| GcrLoop.Run | lib/inv_gcr_quda.cpp:160-334 | The passes form a trace from the initial state: each state is `GcrLoop.Pass` of the previous one, taken only while the loop condition held and gamma was non-zero. A success is the last state, where the loop condition fails; a breakdown happens at the first state whose gamma is zero. Nkrylov is never checked: a negative value fails the allocation of p and Ap, and Nkrylov = 0 returns the initial state when the loop never starts but fails on the first pass's access to Ap[0] otherwise. With Nkrylov >= 1: a breakdown stops the loop with its pass number; at exit, k < Nkrylov and total_iter <= maxiter, and the loop ended because it converged or spent maxiter. Restarts <= updates <= total_iter, and each update follows at most Nkrylov passes. K ran its per-pass count on every pass. When maxiter was reached, or convergence is the L2 test alone, k = 0 |

## Left out

- invert_quda.cpp is not part of this model: device discovery, field upload and thin wrappers around solvers not shown.
- Loading and saving of vectors (`loadVectors`, `saveVectors`, `loadFromFile`): file I/O.
- The random initial guess, the operator `mat`, the BLAS and fused GPU kernels, and Eigen's dense eigensolver are foreign code. They appear as function parameters; the dense eigensolver's contract (dim ascending eigenvalues, dim columns) is a precondition.
- `computeEvals` and `computeSVD`: square-root numerics on the external operator.
- The JD correction-equation solve (Dirac set-up, inner CG), the JD projected eigensolve and the commented-out JD convergence branch. The numerics of a JD pass are the parameter `residualNorm`.
- `orthoDir` cases 2 and 3 are unreachable with the hard-wired type 1. Case 0 appears only as the reference `GcrKernels.MgsVec`/`MgsCoeff` that case 1 is proved equal to.
- Heavy-quark residuals, precision-switching copies, flop counts, timing, profiling and printing.
- Convergence and accuracy of the floating-point solvers. Orthogonality statements hold for the exact-real idealisation only.
- Memory management (`delete` vs `delete[]`, pruning of kSpace) beyond the index bounds the model keeps.
- Complex arithmetic: every inner product is real. `cDotProduct` conjugates its first argument, which a real model cannot show.
- Restart.Run: the numerics of a pass (Lanczos steps, arrow eigensolve, Ritz rotation) are the parameter `observe`. Run states the counter bookkeeping and the final sort, not the vectors.
- Restart.Restart: num_keep is a `nat` computed with the corrected `Keep`. The negative as-written value would make the next pass index kSpace[-5] (see Findings).
- Restart.Run: inherits the corrected keep count from `Restart.Restart`.
- Restart.Pass: applies the corrected `Reorder.ReorderAll`, so the (value, vector) pairing it states is that of the corrected sort, not of the sort as written at lib/eigensolve_quda.cpp:791-794 (see Findings).
- Restart.Run: the library's kSpace holds nKr + 1 vectors plus scratch; the model asks of `observe` only that it return nKr Ritz values and residua.
- Chebyshev.ChebyOp: a_max = a_min, a_max = -a_min or a vanishing recurrence denominator divide by zero in the library (infinities propagate); the model reports `SingularRecurrence` instead.
- Lanczos.LanczosStep: a zero norm divides by zero in the library; the model reports `Breakdown`.
- Deflation.Deflate: a zero eigenvalue divides by zero in the library; the model requires nonzero eigenvalues.
- GcrKernels.BackSubs: requires every gamma[k] nonzero, which the breakdown check of the main loop guarantees before gamma is used.
- GcrLoop.Run: `Solver::convergence` is not part of this model and is the parameter `converged`. The vector numerics of a pass (gamma, residual norms) are the parameter `observe`. The k = 0 guarantee is stated for the L2 test alone because, with a heavy-quark test, `l2_converge` lets the loop exit with directions not yet folded into x.
- GcrLoop.ReliableUpdate: `r2 / r2_old` with r2_old = 0 is infinity or NaN in floating point and compares false; the model states that as a guard.
- JacobiDavidson.Run: uses the corrected `HitPasses` for the residual branch, because the as-written loop does not terminate for tol > 1 (see Findings).
- EigParams.BaseConstruct: an allocation of negative size (negative nKr, or nEv * nKr < 0) is modelled as the error `BadAllocation`.

## Findings

| source | as written | input that shows it | evidently intended | confidence | as-written member | corrected member |
|---|---|---|---|---|---|---|
| lib/eigensolve_quda.cpp:68 | `residua[nKr] = 0.0` on every pass: one past the end, and the array stays uninitialised | nKr = 1, initial contents [7.0]: index 1 written, 7.0 remains | `residua[i] = 0.0` | high, not executed | EigParams.InitResiduaAsWritten | EigParams.InitResidua |
| lib/eigensolve_quda.cpp:791-794, 805-807 | the vector swap uses the decremented i, so vectors swap at (i-2, i-1) while values swap at (i-1, i) | reverse, alpha = [1, 2]: kSpace[-1] read. reverse, alpha = [3, 1, 2], vectors [v0, v1, v2]: vectors end [v1, v0, v2] | swap kSpace at the same positions as alpha | high, not executed | Reorder.ReorderAsWritten | Reorder.Reorder |
| lib/eigensolve_quda.cpp:622 | `iter_keep` can be negative when fewer than 12 positions are unlocked, though the constructor allows nKr = nEv + 6 | nEv = nConv = 1, nKr = 7, first restart: iter_keep = -5, then `kSpace[num_locked + iter_keep]` at -5 (line 900) | a keep count clamped at 0 | medium, not executed | Restart.KeepAsWritten | Restart.Keep |
| lib/eigensolve_quda.cpp:1140-1209 | `while (norm < tol) { ...; norm = 1.0; }`: for tol > 1 the reset value is still below tol | tol = 2, residual norm 0.5: the loop never exits | the body runs at most once | medium, not executed | JacobiDavidson.HitLoopAsWritten | JacobiDavidson.HitPasses |

=== FILE: arrow.dfy ===
/**
 * `TRLM::eigensolveFromArrowMat`: the projected (arrow) matrix of the
 * unlocked part of the factorisation, its dense eigendecomposition, and the
 * update of the Ritz values, residua and Ritz vectors.
 *
 * The arrow matrix of dimension dim = nKr - num_locked has alpha on the
 * diagonal, the betas of the kept Ritz vectors in row and column
 * arrow_pos - 1, and the Lanczos betas on the off-diagonals past it.
 * The dense symmetric eigensolver is a foreign routine and is a parameter;
 * it is assumed to return `dim` eigenvalues in ascending order with one
 * eigenvector of length `dim` each.
 */
module Arrow {
  import opened Vectors

  type Matrix = seq<seq<real>>

  predicate IsSquare(m: Matrix, n: nat)
  {
    |m| == n && forall i :: 0 <= i < n ==> |m[i]| == n
  }

  /** The entry (r, c) of the arrow matrix built from the unlocked part of alpha and beta. */
  function ArrowEntry(alpha: seq<real>, beta: seq<real>, nl: nat, dim: nat, ap: nat, r: nat, c: nat): real
    requires r < dim && c < dim && ap <= dim
    requires nl + dim <= |alpha| && nl + dim <= |beta|
  {
    if r == c then alpha[nl + r]
    else if c + 1 == ap && r < c then beta[nl + r]
    else if r + 1 == ap && c < r then beta[nl + c]
    else if r + 1 >= ap && c == r + 1 then beta[nl + r]
    else if c + 1 >= ap && r == c + 1 then beta[nl + c]
    else 0.0
  }

  /** The arrow matrix as a whole. */
  function ArrowMatrix(alpha: seq<real>, beta: seq<real>, nl: nat, dim: nat, ap: nat): (m: Matrix)
    requires ap <= dim && nl + dim <= |alpha| && nl + dim <= |beta|
    ensures IsSquare(m, dim)
    ensures forall r, c :: 0 <= r < dim && 0 <= c < dim ==> m[r][c] == ArrowEntry(alpha, beta, nl, dim, ap, r, c)
  {
    seq(dim, r requires 0 <= r < dim =>
      seq(dim, c requires 0 <= c < dim => ArrowEntry(alpha, beta, nl, dim, ap, r, c)))
  }

  /**
   * The shape that makes it an arrow: symmetric; among the first
   * arrow_pos - 1 rows only the diagonal and the arrow column are set; past
   * them the matrix is tridiagonal.
   */
  lemma ArrowShape(alpha: seq<real>, beta: seq<real>, nl: nat, dim: nat, ap: nat, r: nat, c: nat)
    requires r < dim && c < dim && 2 <= ap <= dim
    requires nl + dim <= |alpha| && nl + dim <= |beta|
    ensures ArrowEntry(alpha, beta, nl, dim, ap, r, c) == ArrowEntry(alpha, beta, nl, dim, ap, c, r)
    ensures r + 1 < ap && c + 1 < ap && r != c ==> ArrowEntry(alpha, beta, nl, dim, ap, r, c) == 0.0
    ensures r + 1 < ap && c >= ap ==> ArrowEntry(alpha, beta, nl, dim, ap, r, c) == 0.0
    ensures c + 1 < ap && r >= ap ==> ArrowEntry(alpha, beta, nl, dim, ap, r, c) == 0.0
    ensures r + 1 >= ap && c + 1 >= ap && (r > c + 1 || c > r + 1) ==> ArrowEntry(alpha, beta, nl, dim, ap, r, c) == 0.0
    ensures r + 1 < ap ==> ArrowEntry(alpha, beta, nl, dim, ap, r, ap - 1) == beta[nl + r]
  {
  }

  function Set(m: Matrix, r: nat, c: nat, x: real): (m': Matrix)
    requires r < |m| && c < |m[r]|
    ensures |m'| == |m| && forall i :: 0 <= i < |m| ==> |m'[i]| == |m[i]|
    ensures forall i, j :: 0 <= i < |m| && 0 <= j < |m[i]| ==> m'[i][j] == if i == r && j == c then x else m[i][j]
  {
    m[r := m[r][c := x]]
  }

  function ZeroMatrix(n: nat): (m: Matrix)
    ensures IsSquare(m, n)
    ensures forall i, j :: 0 <= i < n && 0 <= j < n ==> m[i][j] == 0.0
  {
    seq(n, _ => Zero(n))
  }

  /** The matrix after the diagonal loop has set the first i diagonal entries. */
  predicate DiagonalUpTo(m: Matrix, alpha: seq<real>, nl: nat, dim: nat, i: nat)
  {
    && nl + dim <= |alpha| && IsSquare(m, dim)
    && forall r, c :: 0 <= r < dim && 0 <= c < dim ==>
         m[r][c] == if r == c && r < i then alpha[nl + r] else 0.0
  }

  /** The matrix after the arrow loop has set the first i entries of the arrow row and column. */
  predicate ArrowUpTo(m: Matrix, alpha: seq<real>, beta: seq<real>, nl: nat, dim: nat, ap: nat, i: nat)
  {
    && nl + dim <= |alpha| && nl + dim <= |beta| && IsSquare(m, dim)
    && forall r, c :: 0 <= r < dim && 0 <= c < dim ==>
         m[r][c] == if r == c then alpha[nl + r]
                    else if c + 1 == ap && r < i then beta[nl + r]
                    else if r + 1 == ap && c < i then beta[nl + c]
                    else 0.0
  }

  /** The matrix after the last loop has set the off-diagonal pairs past the arrow up to row i. */
  predicate TailUpTo(m: Matrix, alpha: seq<real>, beta: seq<real>, nl: nat, dim: nat, ap: nat, i: nat)
  {
    && nl + dim <= |alpha| && nl + dim <= |beta| && IsSquare(m, dim)
    && forall r, c :: 0 <= r < dim && 0 <= c < dim ==>
         m[r][c] == if r == c then alpha[nl + r]
                    else if c + 1 == ap && r < c then beta[nl + r]
                    else if r + 1 == ap && c < r then beta[nl + c]
                    else if r + 1 >= ap && c == r + 1 && r < i then beta[nl + r]
                    else if c + 1 >= ap && r == c + 1 && c < i then beta[nl + c]
                    else 0.0
  }

  /** The first loop of eigensolveFromArrowMat: alpha on the diagonal. */
  method FillDiagonal(alpha: seq<real>, nl: nat, dim: nat) returns (m: Matrix)
    requires nl + dim <= |alpha|
    ensures DiagonalUpTo(m, alpha, nl, dim, dim)
  {
    m := ZeroMatrix(dim);
    var i := 0;
    while i < dim
      invariant i <= dim && DiagonalUpTo(m, alpha, nl, dim, i)
    {
      m := Set(m, i, i, alpha[i + nl]);
      i := i + 1;
    }
  }

  /** The second loop: the betas of the kept vectors in the arrow row and column. */
  method FillArrow(m: Matrix, alpha: seq<real>, beta: seq<real>, nl: nat, dim: nat, ap: nat) returns (m': Matrix)
    requires 2 <= ap <= dim && nl + dim <= |beta| && DiagonalUpTo(m, alpha, nl, dim, dim)
    ensures ArrowUpTo(m', alpha, beta, nl, dim, ap, ap - 1)
  {
    m' := m;
    var i := 0;
    while i < ap - 1
      invariant i <= ap - 1 && ArrowUpTo(m', alpha, beta, nl, dim, ap, i)
    {
      m' := Set(m', i, ap - 1, beta[i + nl]);
      m' := Set(m', ap - 1, i, beta[i + nl]);
      i := i + 1;
    }
  }

  /** The third loop: the Lanczos betas on the off-diagonals past the arrow. */
  method FillTail(m: Matrix, alpha: seq<real>, beta: seq<real>, nl: nat, dim: nat, ap: nat) returns (m': Matrix)
    requires 2 <= ap <= dim && ArrowUpTo(m, alpha, beta, nl, dim, ap, ap - 1)
    ensures TailUpTo(m', alpha, beta, nl, dim, ap, dim - 1)
  {
    m' := m;
    var i := ap - 1;
    while i < dim - 1
      invariant ap - 1 <= i <= dim - 1 && TailUpTo(m', alpha, beta, nl, dim, ap, i)
    {
      m' := Set(m', i, i + 1, beta[i + nl]);
      m' := Set(m', i + 1, i, beta[i + nl]);
      i := i + 1;
    }
  }

  /**
   * The three filling loops of eigensolveFromArrowMat: the diagonal, the arrow
   * row and column, then the sub- and super-diagonal past the arrow.
   */
  method BuildArrow(alpha: seq<real>, beta: seq<real>, nl: nat, dim: nat, ap: nat) returns (m: Matrix)
    requires 2 <= ap <= dim && nl + dim <= |alpha| && nl + dim <= |beta|
    ensures m == ArrowMatrix(alpha, beta, nl, dim, ap)
  {
    m := FillDiagonal(alpha, nl, dim);
    m := FillArrow(m, alpha, beta, nl, dim, ap);
    m := FillTail(m, alpha, beta, nl, dim, ap);
    var target := ArrowMatrix(alpha, beta, nl, dim, ap);
    forall r | 0 <= r < dim
      ensures m[r] == target[r]
    {
      assert forall c :: 0 <= c < dim ==> m[r][c] == target[r][c];
    }
  }

  /** What the dense symmetric eigensolver returns: eigenvalues and eigenvectors (one column each). */
  datatype DenseEig = DenseEig(values: seq<real>, vectors: Matrix)

  /** `dim` eigenvalues in ascending order, `dim` eigenvectors of length `dim`. */
  predicate DenseShape(e: DenseEig, dim: nat)
  {
    && |e.values| == dim
    && IsSquare(e.vectors, dim)
    && forall i, k :: 0 <= i < k < dim ==> e.values[i] <= e.values[k]
  }

  /** `s` with the entries lo .. hi-1 negated. */
  function NegateRange(s: seq<real>, lo: nat, hi: nat): (r: seq<real>)
    ensures |r| == |s|
    ensures forall i :: 0 <= i < |s| ==> r[i] == if lo <= i < hi then -s[i] else s[i]
  {
    seq(|s|, i requires 0 <= i < |s| => if lo <= i < hi then -s[i] else s[i])
  }

  /** The matrix handed to the dense solver: built from the negated arrays under `reverse`. */
  function Projected(alpha: seq<real>, beta: seq<real>, nl: nat, ap: nat, reverse: bool): (m: Matrix)
    requires |alpha| == |beta| && 2 <= ap <= |alpha| - nl
    ensures IsSquare(m, |alpha| - nl)
  {
    var nKr := |alpha|;
    if reverse then ArrowMatrix(NegateRange(alpha, nl, nKr), NegateRange(beta, nl, nKr - 1), nl, nKr - nl, ap)
    else ArrowMatrix(alpha, beta, nl, nKr - nl, ap)
  }

  /**
   * Negating alpha on nl .. nKr-1 and beta on nl .. nKr-2 negates the whole
   * arrow matrix: beta[nKr-1] never enters it.
   */
  lemma ReversedArrowIsNegated(alpha: seq<real>, beta: seq<real>, nl: nat, ap: nat, r: nat, c: nat)
    requires |alpha| == |beta| && 2 <= ap <= |alpha| - nl
    requires r < |alpha| - nl && c < |alpha| - nl
    ensures Projected(alpha, beta, nl, ap, true)[r][c]
         == -ArrowEntry(alpha, beta, nl, |alpha| - nl, ap, r, c)
  {
  }

  /** The outputs of eigensolveFromArrowMat. */
  datatype ArrowOutcome = ArrowOutcome(
    alpha: seq<real>,
    beta: seq<real>,
    residua: seq<real>,
    ritz: Matrix,      // ritz_mat: column i holds the i-th eigenvector, ritz_mat[dim * i + j] = ritz[i][j]
    solved: Matrix)    // the matrix passed to the dense solver

  /**
   * eigensolveFromArrowMat(num_locked, arrow_pos). Under `reverse` the
   * unlocked alphas and betas are negated (the Chebyshev filter turned the
   * wanted end of the spectrum around), the Ritz values are negated back,
   * and the betas are left negated. The residuum of Ritz pair i is
   * |beta[nKr-1] * (last component of its eigenvector)|.
   */
  method EigensolveFromArrowMat(alpha: seq<real>, beta: seq<real>, residua: seq<real>, nl: nat, ap: nat,
                                reverse: bool, dense: Matrix -> DenseEig)
    returns (out: ArrowOutcome)
    requires |alpha| == |beta| == |residua| && 2 <= ap <= |alpha| - nl
    requires DenseShape(dense(Projected(alpha, beta, nl, ap, reverse)), |alpha| - nl)
    ensures out.solved == Projected(alpha, beta, nl, ap, reverse)
    ensures out.ritz == dense(out.solved).vectors
    ensures |out.alpha| == |out.beta| == |out.residua| == |alpha|
    ensures forall i :: 0 <= i < nl ==> out.alpha[i] == alpha[i] && out.residua[i] == residua[i]
    ensures forall i :: nl <= i < |alpha| ==>
      out.alpha[i] == (if reverse then -dense(out.solved).values[i - nl] else dense(out.solved).values[i - nl])
    ensures forall i :: nl <= i < |alpha| ==>
      out.residua[i] == Abs(beta[|alpha| - 1] * dense(out.solved).vectors[i - nl][|alpha| - nl - 1])
    ensures forall i :: 0 <= i < |alpha| ==> out.residua[i] >= 0.0 || i < nl
    ensures out.beta == if reverse then NegateRange(beta, nl, |alpha| - 1) else beta
    ensures forall i, k :: nl <= i < k < |alpha| ==>
      if reverse then out.alpha[i] >= out.alpha[k] else out.alpha[i] <= out.alpha[k]
  {
    var nKr := |alpha|;
    var dim := nKr - nl;
    var a, b := alpha, beta;
    if reverse {
      a := Negate(alpha, nl, nKr);
      b := Negate(beta, nl, nKr - 1);
    }
    var m := BuildArrow(a, b, nl, dim, ap);
    var e := dense(m);
    var res;
    a, res := StoreRitz(a, b, residua, nl, e);
    if reverse {
      a := Negate(a, nl, nKr);
    }
    out := ArrowOutcome(a, b, res, e.vectors, m);
  }

  /** `for (i = lo; i < hi; i++) s[i] = -s[i]`. */
  method Negate(s: seq<real>, lo: nat, hi: nat) returns (r: seq<real>)
    requires lo <= hi <= |s|
    ensures r == NegateRange(s, lo, hi)
  {
    r := s;
    var i := lo;
    while i < hi
      invariant lo <= i <= hi && r == NegateRange(s, lo, i)
    {
      r := r[i := -r[i]];
      i := i + 1;
    }
  }

  /**
   * The Ritz values replace the unlocked alphas, and the residuum of pair i
   * is |beta[nKr-1] * (last component of eigenvector i)|; the locked
   * entries are kept.
   */
  method StoreRitz(a: seq<real>, b: seq<real>, residua: seq<real>, nl: nat, e: DenseEig)
    returns (a': seq<real>, res: seq<real>)
    requires |a| == |b| == |residua| && nl < |a| && DenseShape(e, |a| - nl)
    ensures |a'| == |res| == |a|
    ensures forall k :: 0 <= k < nl ==> a'[k] == a[k] && res[k] == residua[k]
    ensures forall k :: nl <= k < |a| ==> a'[k] == e.values[k - nl]
    ensures forall k :: nl <= k < |a| ==> res[k] == Abs(b[|a| - 1] * e.vectors[k - nl][|a| - nl - 1])
  {
    var nKr, dim := |a|, |a| - nl;
    a', res := a, residua;
    var i := 0;
    while i < dim
      invariant 0 <= i <= dim && |a'| == |res| == nKr
      invariant forall k :: 0 <= k < nl ==> a'[k] == a[k] && res[k] == residua[k]
      invariant forall k :: nl <= k < nl + i ==> a'[k] == e.values[k - nl]
      invariant forall k :: nl <= k < nl + i ==> res[k] == Abs(b[nKr - 1] * e.vectors[k - nl][dim - 1])
    {
      res := res[i + nl := Abs(b[nKr - 1] * e.vectors[i][dim - 1])];
      a' := a'[i + nl := e.values[i]];
      i := i + 1;
    }
  }
}

=== FILE: chebyshev.dfy ===
/**
 * `EigenSolver::chebyOp`: the polynomially accelerated operator. Without
 * acceleration it is one application of the operator; with it, the
 * Chebyshev three-term recurrence mapping [a_min, a_max] onto [-1, 1].
 *
 * The operator is a function parameter (its action is foreign code). Where
 * the recurrence divides by zero the source computes inf/NaN in double
 * precision; the model reports `SingularRecurrence` instead.
 */
module Chebyshev {
  import opened Vectors
  import opened Outcomes

  datatype ChebyError = ZeroPolyDegree | SingularRecurrence

  /** The acceleration fields of the parameter block. */
  datatype PolyParams = PolyParams(usePolyAcc: bool, polyDeg: int, aMin: real, aMax: real)

  /** Two consecutive terms C_{m-1}, C_m of a recurrence. */
  datatype Pair<T> = Pair(prev: T, cur: T)

  function Delta(p: PolyParams): real { (p.aMax - p.aMin) / 2.0 }
  function Theta(p: PolyParams): real { (p.aMax + p.aMin) / 2.0 }

  predicate Nondegenerate(p: PolyParams)
  {
    Delta(p) != 0.0 && Theta(p) != 0.0
  }

  function Sigma1(p: PolyParams): real
    requires Nondegenerate(p)
  {
    -Delta(p) / Theta(p)
  }

  /** Every denominator of sigma_1 .. sigma_m is nonzero. */
  predicate SigmaDefined(p: PolyParams, m: nat)
    decreases m, 0
  {
    Nondegenerate(p) && (m <= 1 || (SigmaDefined(p, m - 1) && 2.0 / Sigma1(p) - Sigma(p, m - 1) != 0.0))
  }

  /** sigma_1 = -delta/theta and sigma_m = 1 / (2/sigma_1 - sigma_{m-1}). */
  function Sigma(p: PolyParams, m: nat): real
    requires 1 <= m && SigmaDefined(p, m)
    decreases m, 1
  {
    if m == 1 then Sigma1(p) else 1.0 / (2.0 / Sigma1(p) - Sigma(p, m - 1))
  }

  /** a x + b y (blas::caxpby with the result in y). */
  function Axpby(a: real, x: Vec, b: real, y: Vec): (r: Vec)
    requires |x| == |y|
    ensures |r| == |x|
    ensures forall i :: 0 <= i < |x| ==> r[i] == a * x[i] + b * y[i]
  {
    seq(|x|, i requires 0 <= i < |x| => a * x[i] + b * y[i])
  }

  /** x + a y + b z (blas::cxpaypbz with the result in z). */
  function Cxpaypbz(x: Vec, a: real, y: Vec, b: real, z: Vec): (r: Vec)
    requires |x| == |y| == |z|
    ensures |r| == |x|
    ensures forall i :: 0 <= i < |x| ==> r[i] == x[i] + a * y[i] + b * z[i]
  {
    seq(|x|, i requires 0 <= i < |x| => x[i] + a * y[i] + b * z[i])
  }

  /** The coefficients of one step of the recurrence. */
  datatype Coefficients = Coefficients(d1: real, d2: real, d3: real)

  /** d1 = 2 sigma / delta, d2 = -d1 theta, d3 = -sigma sigma_old. */
  function StepCoefficients(sigma: real, sigmaOld: real, delta: real, theta: real): Coefficients
    requires delta != 0.0
  {
    var d1 := 2.0 * sigma / delta;
    Coefficients(d1, -d1 * theta, -sigma * sigmaOld)
  }

  /** The coefficients of step m >= 2. */
  function Coeffs(p: PolyParams, m: nat): Coefficients
    requires 2 <= m && SigmaDefined(p, m)
  {
    StepCoefficients(Sigma(p, m), Sigma(p, m - 1), Delta(p), Theta(p))
  }

  /**
   * The vector recurrence: C_0 = v, C_1 = v + (sigma_1/delta) A v, and
   * C_m = d1 A C_{m-1} + d2 C_{m-1} + d3 C_{m-2}.
   */
  function Cheb(A: Vec -> Vec, p: PolyParams, v: Vec, m: nat): (r: Pair<Vec>)
    requires PreservesDim(A)
    requires 1 <= m && SigmaDefined(p, m)
    ensures |r.prev| == |v| && |r.cur| == |v|
    decreases m
  {
    if m == 1 then Pair(v, Axpby(1.0, v, Sigma1(p) / Delta(p), A(v)))
    else ChebStep(A, p, m, Cheb(A, p, v, m - 1))
  }

  function ChebStep(A: Vec -> Vec, p: PolyParams, m: nat, q: Pair<Vec>): (r: Pair<Vec>)
    requires PreservesDim(A)
    requires 2 <= m && SigmaDefined(p, m)
    requires |q.prev| == |q.cur|
    ensures |r.prev| == |q.cur| && |r.cur| == |q.cur|
  {
    var c := Coeffs(p, m);
    Pair(q.cur, Cxpaypbz(Scale(c.d3, q.prev), c.d2, q.cur, c.d1, A(q.cur)))
  }

  /** The same recurrence on a scalar eigenvalue: p_0 = 1, p_1 = 1 + (sigma_1/delta) lam, ... */
  function ChebScalar(p: PolyParams, lam: real, m: nat): Pair<real>
    requires 1 <= m && SigmaDefined(p, m)
    decreases m
  {
    if m == 1 then Pair(1.0, ScalarFirst(Sigma1(p) / Delta(p), lam))
    else ChebScalarStep(p, lam, m, ChebScalar(p, lam, m - 1))
  }

  function ChebScalarStep(p: PolyParams, lam: real, m: nat, q: Pair<real>): Pair<real>
    requires 2 <= m && SigmaDefined(p, m)
  {
    var c := Coeffs(p, m);
    Pair(q.cur, ScalarStep(c.d1, c.d2, c.d3, lam, q))
  }

  /** 1 + k lam. */
  function ScalarFirst(k: real, lam: real): real
  {
    1.0 + k * lam
  }

  /** d3 p_{m-2} + d2 p_{m-1} + d1 lam p_{m-1}. */
  function ScalarStep(d1: real, d2: real, d3: real, lam: real, q: Pair<real>): real
  {
    d3 * q.prev + d2 * q.cur + d1 * (lam * q.cur)
  }

  /** The filter bounds: 0 <= a_min < a_max, as for a positive definite operator. */
  predicate Stable(p: PolyParams)
  {
    0.0 <= p.aMin < p.aMax
  }

  lemma Sigma1Bounded(p: PolyParams)
    requires Stable(p)
    ensures Nondegenerate(p) && -1.0 <= Sigma1(p) < 0.0
  {
    var delta, theta := Delta(p), Theta(p);
    assert 0.0 < delta <= theta;
    assert Sigma1(p) * theta == -delta;
  }

  /** For s in [-1, 0): 2/s <= -2. */
  lemma TwoOverNegative(s: real)
    requires -1.0 <= s < 0.0
    ensures 2.0 / s <= -2.0
  {
    var t := 2.0 / s;
    assert t * s == 2.0;
    if t > -2.0 {
      assert false;
    }
  }

  /** For x <= -1: 1/x lies in [-1, 0). */
  lemma ReciprocalBounded(x: real)
    requires x <= -1.0
    ensures -1.0 <= 1.0 / x < 0.0
  {
    assert (1.0 / x) * x == 1.0;
  }

  /** sigma_1 = -delta/theta vanishes only with delta. */
  lemma Sigma1NonZero(p: PolyParams)
    requires Nondegenerate(p)
    ensures Sigma1(p) != 0.0
  {
    assert Sigma1(p) * Theta(p) == -Delta(p);
  }

  /** A nonzero denominator defines the next sigma as its reciprocal. */
  lemma SigmaNext(p: PolyParams, i: nat, sigmaOld: real, den: real)
    requires 2 <= i && SigmaDefined(p, i - 1) && sigmaOld == Sigma(p, i - 1)
    requires den == 2.0 / Sigma1(p) - sigmaOld && den != 0.0
    ensures SigmaDefined(p, i) && Sigma(p, i) == 1.0 / den
  {
  }

  /** The coefficients computed from the running sigmas are those of step i. */
  lemma CoeffsNext(p: PolyParams, i: nat, sigma: real, sigmaOld: real, c: Coefficients)
    requires 2 <= i && SigmaDefined(p, i)
    requires sigma == Sigma(p, i) && sigmaOld == Sigma(p, i - 1)
    requires c == StepCoefficients(sigma, sigmaOld, Delta(p), Theta(p))
    ensures c == Coeffs(p, i)
  {
  }

  /** The first term the source computes is C_1. */
  lemma ChebFirst(A: Vec -> Vec, p: PolyParams, v: Vec, d1: real, out: Vec)
    requires PreservesDim(A) && Nondegenerate(p)
    requires d1 == Sigma1(p) / Delta(p) && out == Axpby(1.0, v, d1, A(v))
    ensures Cheb(A, p, v, 1) == Pair(v, out)
  {
  }

  /** One pass of the loop of `ChebyOp` computes the next term of the recurrence. */
  lemma ChebNext(A: Vec -> Vec, p: PolyParams, v: Vec, i: nat, q: Pair<Vec>, c: Coefficients, out: Vec)
    requires PreservesDim(A)
    requires 2 <= i && SigmaDefined(p, i) && q == Cheb(A, p, v, i - 1) && c == Coeffs(p, i)
    requires out == Cxpaypbz(Scale(c.d3, q.prev), c.d2, q.cur, c.d1, A(q.cur))
    ensures Pair(q.cur, out) == Cheb(A, p, v, i)
  {
  }

  /** With 0 <= a_min < a_max every sigma lies in [-1, 0), so no denominator vanishes. */
  lemma {:induction false} SigmaBounded(p: PolyParams, m: nat)
    requires Stable(p) && 1 <= m
    ensures SigmaDefined(p, m)
    ensures -1.0 <= Sigma(p, m) < 0.0
    decreases m
  {
    Sigma1Bounded(p);
    if m > 1 {
      SigmaBounded(p, m - 1);
      TwoOverNegative(Sigma1(p));
      var den := 2.0 / Sigma1(p) - Sigma(p, m - 1);
      ReciprocalBounded(den);
    }
  }

  /** Pointwise: the recurrence step applied to multiples of one vector. */
  lemma ScaledStep(v: Vec, a: real, b: real, d1: real, d2: real, d3: real, lam: real)
    ensures Cxpaypbz(Scale(d3, Scale(a, v)), d2, Scale(b, v), d1, Scale(b, Scale(lam, v)))
         == Scale(d3 * a + d2 * b + d1 * (lam * b), v)
  {
    var l := Cxpaypbz(Scale(d3, Scale(a, v)), d2, Scale(b, v), d1, Scale(b, Scale(lam, v)));
    var r := Scale(d3 * a + d2 * b + d1 * (lam * b), v);
    forall i | 0 <= i < |v|
      ensures l[i] == r[i]
    {
      var x := v[i];
      assert l[i] == d3 * (a * x) + d2 * (b * x) + d1 * (b * (lam * x));
      assert r[i] == (d3 * a + d2 * b + d1 * (lam * b)) * x;
    }
  }

  /** Pointwise: the first step applied to one vector. */
  lemma ScaledFirst(v: Vec, k: real, lam: real)
    ensures Axpby(1.0, v, k, Scale(lam, v)) == Scale(ScalarFirst(k, lam), v)
  {
    var l := Axpby(1.0, v, k, Scale(lam, v));
    var r := Scale(ScalarFirst(k, lam), v);
    forall i | 0 <= i < |v|
      ensures l[i] == r[i]
    {
      var x := v[i];
      assert l[i] == 1.0 * x + k * (lam * x);
    }
  }

  /** One step of the recurrence, with any coefficients, on multiples of an eigenvector. */
  lemma StepOnEigenvector(A: Vec -> Vec, v: Vec, lam: real, q: Pair<Vec>, s: Pair<real>, d1: real, d2: real, d3: real)
    requires q.prev == Scale(s.prev, v) && q.cur == Scale(s.cur, v)
    requires A(q.cur) == Scale(s.cur, Scale(lam, v))
    ensures Cxpaypbz(Scale(d3, q.prev), d2, q.cur, d1, A(q.cur)) == Scale(ScalarStep(d1, d2, d3, lam, s), v)
  {
    ScaledStep(v, s.prev, s.cur, d1, d2, d3, lam);
    assert ScalarStep(d1, d2, d3, lam, s) == d3 * s.prev + d2 * s.cur + d1 * (lam * s.cur);
    assert Cxpaypbz(Scale(d3, q.prev), d2, q.cur, d1, A(q.cur))
        == Cxpaypbz(Scale(d3, Scale(s.prev, v)), d2, Scale(s.cur, v), d1, Scale(s.cur, Scale(lam, v)));
  }

  /**
   * On an eigenvector of a homogeneous operator the filter acts as the
   * scalar polynomial of its eigenvalue: C_m = p_m(lam) v.
   */
  lemma {:induction false} ChebOnEigenvector(A: Vec -> Vec, p: PolyParams, v: Vec, lam: real, m: nat)
    requires PreservesDim(A)
    requires 1 <= m && SigmaDefined(p, m)
    requires A(v) == Scale(lam, v)
    requires forall c: real :: A(Scale(c, v)) == Scale(c, A(v))
    ensures Cheb(A, p, v, m).prev == Scale(ChebScalar(p, lam, m).prev, v)
    ensures Cheb(A, p, v, m).cur == Scale(ChebScalar(p, lam, m).cur, v)
    decreases m
  {
    if m == 1 {
      assert v == Scale(1.0, v);
      ScaledFirst(v, Sigma1(p) / Delta(p), lam);
    } else {
      ChebOnEigenvector(A, p, v, lam, m - 1);
      var q, s := Cheb(A, p, v, m - 1), ChebScalar(p, lam, m - 1);
      assert A(q.cur) == Scale(s.cur, Scale(lam, v));
      var c := Coeffs(p, m);
      StepOnEigenvector(A, v, lam, q, s, c.d1, c.d2, c.d3);
    }
  }

  /**
   * chebyOp. Returns the filtered vector and the number of operator
   * applications it made.
   */
  method ChebyOp(A: Vec -> Vec, p: PolyParams, v: Vec) returns (r: Result<Vec, ChebyError>, applications: nat)
    requires PreservesDim(A)
    ensures !p.usePolyAcc ==> r == Success(A(v)) && applications == 1
    ensures p.usePolyAcc && p.polyDeg == 0 ==> r == Failure(ZeroPolyDegree) && applications == 0
    ensures p.usePolyAcc && p.polyDeg != 0 && Stable(p) ==> r.Success?
    ensures r.Success? && p.usePolyAcc ==>
      && applications == 1 + (if p.polyDeg > 2 then p.polyDeg - 2 else 0)
      && SigmaDefined(p, if p.polyDeg > 2 then p.polyDeg - 1 else 1)
      && r.value == Cheb(A, p, v, if p.polyDeg > 2 then p.polyDeg - 1 else 1).cur
    ensures r.Success? && p.usePolyAcc && (p.polyDeg == 1 || p.polyDeg == 2) ==>
      r.value == Axpby(1.0, v, Sigma1(p) / Delta(p), A(v))
  {
    if !p.usePolyAcc {
      r, applications := Success(A(v)), 1;
      return;
    }
    if p.polyDeg == 0 {
      r, applications := Failure(ZeroPolyDegree), 0;
      return;
    }
    var delta := (p.aMax - p.aMin) / 2.0;
    var theta := (p.aMax + p.aMin) / 2.0;
    if delta == 0.0 || theta == 0.0 {
      r, applications := Failure(SingularRecurrence), 0;
      return;
    }
    var sigma1 := -delta / theta;
    assert sigma1 == Sigma1(p) && delta == Delta(p) && theta == Theta(p);
    Sigma1NonZero(p);
    var d1 := sigma1 / delta;
    var d2 := 1.0;

    // C_1(x) = x: out = d2 in + d1 A in
    var out := A(v);
    applications := 1;
    out := Axpby(d2, v, d1, out);
    ChebFirst(A, p, v, d1, out);
    if p.polyDeg == 1 {
      r := Success(out);
      return;
    }
    var tmp1 := v;
    var tmp2 := out;
    var sigmaOld := sigma1;
    if Stable(p) {
      SigmaBounded(p, 1);
    }
    var i := 2;
    while i < p.polyDeg
      invariant 2 <= i && (i <= p.polyDeg || i == 2)
      invariant SigmaDefined(p, i - 1) && sigmaOld == Sigma(p, i - 1)
      invariant Pair(tmp1, tmp2) == Cheb(A, p, v, i - 1)
      invariant applications == i - 1
      invariant Stable(p) ==> -1.0 <= sigmaOld < 0.0
    {
      var den := 2.0 / sigma1 - sigmaOld;
      if den == 0.0 {
        if Stable(p) {
          Sigma1Bounded(p);
          TwoOverNegative(sigma1);
        }
        r := Failure(SingularRecurrence);
        return;
      }
      var sigma := 1.0 / den;
      SigmaNext(p, i, sigmaOld, den);
      var c := StepCoefficients(sigma, sigmaOld, delta, theta);
      CoeffsNext(p, i, sigma, sigmaOld, c);
      ghost var q := Pair(tmp1, tmp2);

      out := A(tmp2);
      applications := applications + 1;
      tmp1 := Scale(c.d3, tmp1);
      out := Cxpaypbz(tmp1, c.d2, tmp2, c.d1, out);
      ChebNext(A, p, v, i, q, c, out);
      tmp1 := tmp2;
      tmp2 := out;
      if Stable(p) {
        SigmaBounded(p, i);
      }
      sigmaOld := sigma;
      i := i + 1;
    }
    assert i - 1 == (if p.polyDeg > 2 then p.polyDeg - 1 else 1);
    r := Success(tmp2);
  }
}

=== FILE: deflation.dfy ===
/**
 * `EigenSolver::deflate`: the deflated vector
 * sum_i V_i (1 / lambda_i) <V_i, x> over the first `nEv` eigenpairs. It is
 * computed from scratch: the previous contents of the output are zeroed
 * before the block update, so they never influence the result.
 */
module Deflation {
  import opened Vectors

  /** The eigenpairs are usable: enough vectors of the right dimension and no zero eigenvalue. */
  predicate Deflatable(eigVecs: seq<Vec>, evals: seq<real>, nEv: nat, d: nat)
  {
    && AllDim(eigVecs, nEv, d)
    && nEv <= |evals|
    && forall i :: 0 <= i < nEv ==> evals[i] != 0.0
  }

  /** The block coefficients <V_i, x> / lambda_i. */
  function DeflationCoefficients(eigVecs: seq<Vec>, evals: seq<real>, x: Vec, nEv: nat): (s: seq<real>)
    requires Deflatable(eigVecs, evals, nEv, |x|)
    ensures |s| == nEv
    ensures forall i :: 0 <= i < nEv ==> s[i] == Dot(eigVecs[i], x) / evals[i]
  {
    seq(nEv, i requires 0 <= i < nEv => Dot(eigVecs[i], x) / evals[i])
  }

  /**
   * deflate(vec_defl, vec, eig_vecs, evals): zero the output, then add the
   * block combination. Against an orthonormal eigenbasis the result applies
   * the inverse of the operator on its span: its component along V_k is
   * <V_k, x> / lambda_k. The result lies in the span of the eigenvectors:
   * it is orthogonal to every vector orthogonal to all of them. A vector
   * with no component along any eigenvector deflates to zero.
   */
  function Deflate(eigVecs: seq<Vec>, evals: seq<real>, x: Vec, nEv: nat): (r: Vec)
    requires Deflatable(eigVecs, evals, nEv, |x|)
    ensures |r| == |x|
    ensures Orthonormal(eigVecs, 0, nEv) ==>
      forall k :: 0 <= k < nEv ==> Dot(eigVecs[k], r) == Dot(eigVecs[k], x) / evals[k]
    ensures (forall i :: 0 <= i < nEv ==> Dot(eigVecs[i], x) == 0.0) ==> r == Zero(|x|)
    ensures forall y {:trigger Dot(y, r)} :: |y| == |x| && (forall k :: 0 <= k < nEv ==> Dot(eigVecs[k], y) == 0.0) ==> Dot(y, r) == 0.0
  {
    var s := DeflationCoefficients(eigVecs, evals, x, nEv);
    CombineCoordinates(s, eigVecs, nEv, |x|);
    CombineInSpan(s, eigVecs, nEv, |x|);
    if forall i :: 0 <= i < nEv ==> Dot(eigVecs[i], x) == 0.0 then
      CombineZeroCoefficients(s, eigVecs, nEv, |x|);
      Combine(s, eigVecs, nEv, |x|)
    else
      Combine(s, eigVecs, nEv, |x|)
  }

  /** Over an orthonormal family the coordinates of a combination are its coefficients. */
  lemma CombineCoordinates(c: seq<real>, vs: seq<Vec>, n: nat, d: nat)
    requires n <= |c| && AllDim(vs, n, d)
    ensures Orthonormal(vs, 0, n) ==> forall k :: 0 <= k < n ==> Dot(vs[k], Combine(c, vs, n, d)) == c[k]
  {
    if Orthonormal(vs, 0, n) {
      forall k | 0 <= k < n
        ensures Dot(vs[k], Combine(c, vs, n, d)) == c[k]
      {
        var t := seq(n, i requires 0 <= i < n => Dot(vs[k], vs[i]));
        DotCombine(vs[k], c, vs, n, t);
        WeightedSumPick(c, t, n, k);
      }
    }
  }

  lemma ScaledQuotient(a: real, x: real, b: real)
    requires b != 0.0
    ensures (a * x) / b == a * (x / b)
  {
  }

  /** Deflation is linear in the vector: deflate(a x) = a deflate(x). */
  lemma DeflateHomogeneous(eigVecs: seq<Vec>, evals: seq<real>, x: Vec, nEv: nat, a: real)
    requires Deflatable(eigVecs, evals, nEv, |x|)
    ensures Deflate(eigVecs, evals, Scale(a, x), nEv) == Scale(a, Deflate(eigVecs, evals, x, nEv))
  {
    var s := DeflationCoefficients(eigVecs, evals, x, nEv);
    var sa := DeflationCoefficients(eigVecs, evals, Scale(a, x), nEv);
    forall i | 0 <= i < nEv
      ensures sa[i] == a * s[i]
    {
      DotScaleRight(eigVecs[i], a, x);
      ScaledQuotient(a, Dot(eigVecs[i], x), evals[i]);
    }
    CombineScaled(s, sa, eigVecs, nEv, |x|, a);
  }

  lemma {:induction false} CombineScaled(c: seq<real>, ca: seq<real>, vs: seq<Vec>, n: nat, d: nat, a: real)
    requires n <= |c| && n <= |ca| && AllDim(vs, n, d)
    requires forall i :: 0 <= i < n ==> ca[i] == a * c[i]
    ensures Combine(ca, vs, n, d) == Scale(a, Combine(c, vs, n, d))
    decreases n
  {
    if n > 0 {
      CombineScaled(c, ca, vs, n - 1, d, a);
      AxpyScaled(a, c[n - 1], ca[n - 1], vs[n - 1], Combine(c, vs, n - 1, d));
    }
  }

  /** Adding (a x) v to a multiple of p gives the multiple of p + x v. */
  lemma AxpyScaled(a: real, x: real, xa: real, v: Vec, p: Vec)
    requires xa == a * x && |v| == |p|
    ensures Axpy(xa, v, Scale(a, p)) == Scale(a, Axpy(x, v, p))
  {
    var l, r := Axpy(xa, v, Scale(a, p)), Scale(a, Axpy(x, v, p));
    forall m | 0 <= m < |p|
      ensures l[m] == r[m]
    {
      ScaledEntry(l[m], a * p[m], xa, v[m], a, p[m], x);
      MulEq(a, Axpy(x, v, p)[m], p[m] + x * v[m]);
    }
  }

  /** One entry of the scaled combination: a p + (a x) v = a (p + x v). */
  lemma ScaledEntry(l: real, lp: real, ca: real, v: real, a: real, p: real, x: real)
    requires l == lp + ca * v && lp == a * p && ca == a * x
    ensures l == a * (p + x * v)
  {
    ScaleLeftStep(a, p, x, v);
  }
}

=== FILE: eig_params.dfy ===
/**
 * Eigensolver configuration: the checks of the `EigenSolver` and `TRLM`
 * constructors, the mapping from the requested part of the spectrum to the
 * part the Lanczos iteration actually searches for, the derived `reverse`
 * flag, and the solver factory `EigenSolver::create`.
 */
module EigParams {
  import opened Outcomes

  datatype Side = Smallest | Largest
  datatype Part = RealPart | Magnitude | ImaginaryPart

  /** One of SR, LR, SM, LM, SI, LI. */
  datatype Spectrum = Spectrum(side: Side, part: Part)

  /** The spectrum field of the parameter block; it may hold a value none of the six codes match. */
  datatype SpectrumParam = Known(spectrum: Spectrum) | Unrecognised

  datatype EigType = Arnoldi | Lanczos | JacobiDavidson | OtherEigType

  datatype EigParam = EigParam(
    eigType: EigType,
    nEv: int,
    nKr: int,
    nConv: int,
    spectrum: SpectrumParam,
    usePolyAcc: bool,
    polyDeg: int,
    aMin: real,
    aMax: real,
    maxRestarts: int,
    tol: real)

  datatype ConfigError =
    | KrylovNotLargerThanEv   // nKr <= nEv
    | ConvExceedsEv           // nEv < nConv
    | ZeroEv
    | ZeroKr
    | ZeroConv
    | BadAllocation           // an array of negative length requested (std::bad_array_new_length)
    | RestartSlackTooSmall    // TRLM: nKr < nEv + 6
    | SpectrumNotReal         // TRLM: the Lanczos solver accepts only LR or SR
    | ArnoldiNotImplemented
    | InvalidEigType

  /** The validated state every solver is built from. */
  datatype Common = Common(
    nEv: int,
    nKr: int,
    nConv: int,
    spectrum: Spectrum,
    reverse: bool,
    usePolyAcc: bool,
    polyDeg: int,
    aMin: real,
    aMax: real,
    maxRestarts: int,
    tol: real)

  /** A solver as returned by the factory: a closed set of variants. */
  datatype Solver = Trlm(trlm: Common) | Jd(jd: Common)

  const SR := Spectrum(Smallest, RealPart)
  const LR := Spectrum(Largest, RealPart)
  const SM := Spectrum(Smallest, Magnitude)
  const LM := Spectrum(Largest, Magnitude)
  const SI := Spectrum(Smallest, ImaginaryPart)
  const LI := Spectrum(Largest, ImaginaryPart)

  /** The two-letter code the source stores in `spectrum`. */
  function Code(s: Spectrum): (c: string)
    ensures |c| == 2
    ensures c[0] == (if s.side == Largest then 'L' else 'S')
  {
    var first := if s.side == Largest then "L" else "S";
    match s.part
    case RealPart => first + "R"
    case Magnitude => first + "M"
    case ImaginaryPart => first + "I"
  }

  function Flip(s: Side): Side
  {
    if s == Smallest then Largest else Smallest
  }

  /**
   * The part of the spectrum the iteration searches for. Without polynomial
   * acceleration it is the requested one; with it, small and large swap,
   * because the Chebyshev filter maps the wanted end of the spectrum to the
   * largest magnitudes. An unrecognised request keeps the initial "SR".
   */
  function InternalSpectrum(p: EigParam): (s: Spectrum)
    ensures p.spectrum.Unrecognised? ==> s == SR
    ensures p.spectrum.Known? && !p.usePolyAcc ==> s == p.spectrum.spectrum
    ensures p.spectrum.Known? && p.usePolyAcc ==>
      s.part == p.spectrum.spectrum.part && s.side == Flip(p.spectrum.spectrum.side)
  {
    if p.spectrum.Unrecognised? then SR
    else
      var req := p.spectrum.spectrum;
      if p.usePolyAcc then
        if req == SR then LR
        else if req == LR then SR
        else if req == SM then LM
        else if req == LM then SM
        else if req == SI then LI
        else assert req == LI by { SixSpectra(req); } SI
      else
        if req == SR then SR
        else if req == LR then LR
        else if req == SM then SM
        else if req == LM then LM
        else if req == SI then SI
        else assert req == LI by { SixSpectra(req); } LI
  }

  lemma SixSpectra(s: Spectrum)
    ensures s == SR || s == LR || s == SM || s == LM || s == SI || s == LI
  {
    match s
    case Spectrum(Smallest, RealPart) =>
    case Spectrum(Largest, RealPart) =>
    case Spectrum(Smallest, Magnitude) =>
    case Spectrum(Largest, Magnitude) =>
    case Spectrum(Smallest, ImaginaryPart) =>
    case Spectrum(Largest, ImaginaryPart) =>
  }

  /** `reverse`, derived from the first letter of the internal spectrum code as the source does. */
  function Reverse(p: EigParam): (rev: bool)
    ensures !p.usePolyAcc ==> (rev <==> InternalSpectrum(p).side == Largest)
    ensures !p.usePolyAcc && p.spectrum.Known? ==> (rev <==> p.spectrum.spectrum.side == Largest)
    ensures p.usePolyAcc ==> rev
  {
    var first := Code(InternalSpectrum(p))[0];
    if first == 'L' && !p.usePolyAcc then true
    else if first == 'S' && p.usePolyAcc then true
    else if first == 'L' && p.usePolyAcc then true
    else false
  }

  /** The checks and allocations of the `EigenSolver` base constructor, in source order. */
  function BaseConstruct(p: EigParam): (r: Result<Common, ConfigError>)
    ensures p.nKr <= p.nEv ==> r == Failure(KrylovNotLargerThanEv)
    ensures p.nKr > p.nEv && p.nEv < p.nConv ==> r == Failure(ConvExceedsEv)
    ensures r.Success? <==>
      p.nKr > p.nEv && p.nEv >= p.nConv && p.nEv != 0 && p.nConv != 0 && p.nKr > 0 && p.nEv > 0
    ensures r.Success? ==>
      && 0 < r.value.nEv < r.value.nKr
      && r.value.nConv <= r.value.nEv
      && r.value.spectrum == InternalSpectrum(p)
      && r.value.reverse == Reverse(p)
  {
    if p.nKr <= p.nEv then Failure(KrylovNotLargerThanEv)
    else if p.nEv < p.nConv then Failure(ConvExceedsEv)
    else if p.nEv == 0 then Failure(ZeroEv)
    else if p.nKr == 0 then Failure(ZeroKr)
    else if p.nConv == 0 then Failure(ZeroConv)
    // residua = new double[nKr]; Qmat = new Complex[nEv * nKr]
    else if p.nKr < 0 || p.nEv * p.nKr < 0 then Failure(BadAllocation)
    else
      Success(Common(p.nEv, p.nKr, p.nConv, InternalSpectrum(p), Reverse(p), p.usePolyAcc,
                     p.polyDeg, p.aMin, p.aMax, p.maxRestarts, p.tol))
  }

  /** The `TRLM` constructor: the base checks, then thick-restart slack, then a real spectrum. */
  function TrlmConstruct(p: EigParam): (r: Result<Common, ConfigError>)
    ensures BaseConstruct(p).Failure? ==> r == BaseConstruct(p)
    ensures r.Success? <==>
      && BaseConstruct(p).Success?
      && p.nKr >= p.nEv + 6
      && (p.eigType != Lanczos || p.spectrum == Known(LR) || p.spectrum == Known(SR))
    ensures r.Success? ==> r == BaseConstruct(p) && 0 < r.value.nEv && r.value.nEv + 6 <= r.value.nKr
  {
    var base :- BaseConstruct(p);
    if p.nKr < p.nEv + 6 then Failure(RestartSlackTooSmall)
    else if p.eigType == Lanczos && !(p.spectrum == Known(LR) || p.spectrum == Known(SR)) then
      Failure(SpectrumNotReal)
    else Success(base)
  }

  /** `EigenSolver::create`: Lanczos builds TRLM, JD builds JD, Arnoldi and anything else fail. */
  function Create(p: EigParam): (r: Result<Solver, ConfigError>)
    ensures p.eigType == Arnoldi ==> r == Failure(ArnoldiNotImplemented)
    ensures p.eigType == OtherEigType ==> r == Failure(InvalidEigType)
    ensures p.eigType == Lanczos ==>
      (r.Success? <==> TrlmConstruct(p).Success?) && (r.Success? ==> r.value.Trlm?)
    ensures p.eigType == JacobiDavidson ==>
      (r.Success? <==> BaseConstruct(p).Success?) && (r.Success? ==> r.value.Jd?)
    ensures r.Success? && r.value.Trlm? ==>
      r.value.trlm.spectrum.part == RealPart && r.value.trlm.nEv + 6 <= r.value.trlm.nKr
  {
    match p.eigType
    case Arnoldi => Failure(ArnoldiNotImplemented)
    case Lanczos =>
      var c :- TrlmConstruct(p);
      Success(Trlm(c))
    case JacobiDavidson =>
      var c :- BaseConstruct(p);
      Success(Jd(c))
    case OtherEigType => Failure(InvalidEigType)
  }

  /** A Krylov space no larger than nEv is refused by the first base check, for either solver the factory builds. */
  lemma CreateRejectsNoLargerKrylov(p: EigParam)
    requires p.eigType == Lanczos || p.eigType == JacobiDavidson
    requires p.nKr <= p.nEv
    ensures Create(p) == Failure(KrylovNotLargerThanEv)
  {
  }

  /** The base checks let a negative `nConv` through (they only reject zero and `nConv > nEv`). */
  lemma NegativeConvAccepted()
    ensures BaseConstruct(EigParam(Lanczos, 5, 20, -1, Known(SR), false, 0, 0.0, 0.0, 10, 0.1)).Success?
    ensures TrlmConstruct(EigParam(Lanczos, 5, 20, -1, Known(SR), false, 0, 0.0, 0.0, 10, 0.1)).Success?
  {
  }

  //--------------------------------------------------------------------------
  // The `residua` array of the base constructor (eigensolve_quda.cpp:67-68)
  //--------------------------------------------------------------------------

  /** What the initialisation loop did: the indices it wrote and the array it left. */
  datatype ResiduaInit = ResiduaInit(written: seq<int>, residua: seq<real>)

  /**
   * The loop as written: every one of its `nKr` passes stores into
   * `residua[nKr]`, one past the end, so the freshly allocated array keeps
   * whatever it held (`initial`).
   */
  function InitResiduaAsWritten(initial: seq<real>, nKr: nat): (r: ResiduaInit)
    requires |initial| == nKr
    ensures |r.written| == nKr
    ensures forall k :: 0 <= k < |r.written| ==> !(0 <= r.written[k] < nKr)
    ensures r.residua == initial
  {
    ResiduaInit(seq(nKr, _ => nKr), initial)
  }

  /** The array is left uninitialised: a nonzero entry survives the loop. */
  lemma InitResiduaAsWrittenLeavesGarbage()
    ensures InitResiduaAsWritten([7.0], 1).residua[0] != 0.0
    ensures InitResiduaAsWritten([7.0], 1).written == [1]
  {
  }

  /** The corrected loop: `residua[i] = 0.0` for every `i < nKr`. */
  method InitResidua(initial: seq<real>, nKr: nat) returns (r: ResiduaInit)
    requires |initial| == nKr
    ensures r.written == seq(nKr, i => i)
    ensures |r.residua| == nKr
    ensures forall k :: 0 <= k < nKr ==> r.residua[k] == 0.0
  {
    var residua := initial;
    var written: seq<int> := [];
    var i := 0;
    while i < nKr
      invariant 0 <= i <= nKr
      invariant |residua| == nKr
      invariant written == seq(i, k => k)
      invariant forall k :: 0 <= k < i ==> residua[k] == 0.0
    {
      residua := residua[i := 0.0];
      written := written + [i];
      i := i + 1;
    }
    r := ResiduaInit(written, residua);
  }
}

=== FILE: gcr_kernels.dfy ===
/**
 * The dense helpers of the GCR solver: back-substitution through the
 * upper-triangular system the orthogonalisation coefficients form, the
 * blocked solution update, and the modified Gram-Schmidt step `orthoDir`
 * in its fused-kernel form (type 1, the one the source selects).
 *
 * Complex coefficients are idealised as reals; the fused BLAS kernels are
 * spelled out as the vector updates they perform.
 */
module GcrKernels {
  import opened Vectors

  //--------------------------------------------------------------------------
  // backSubs
  //--------------------------------------------------------------------------

  /** beta[k][lo] delta[lo] + ... + beta[k][hi-1] delta[hi-1], summed in increasing order. */
  function RowSum(row: seq<real>, delta: seq<real>, lo: nat, hi: nat): real
    requires hi <= |row| && hi <= |delta|
    decreases hi
  {
    if hi <= lo then 0.0 else RowSum(row, delta, lo, hi - 1) + row[hi - 1] * delta[hi - 1]
  }

  /** The arrays `backSubs` reads for an n x n system: gamma is the nonzero diagonal. */
  predicate TriangularSystem(alpha: seq<real>, beta: seq<seq<real>>, gamma: seq<real>, n: nat)
  {
    && n <= |alpha| && n <= |beta| && n <= |gamma|
    && (forall i :: 0 <= i < n ==> n <= |beta[i]|)
    && (forall i :: 0 <= i < n ==> gamma[i] != 0.0)
  }

  /** Row k of the system holds: gamma[k] delta[k] + sum_{j > k} beta[k][j] delta[j] = alpha[k]. */
  predicate RowSolved(alpha: seq<real>, beta: seq<seq<real>>, gamma: seq<real>, delta: seq<real>, n: nat, k: nat)
    requires TriangularSystem(alpha, beta, gamma, n) && n <= |delta| && k < n
  {
    gamma[k] * delta[k] + RowSum(beta[k], delta, k + 1, n) == alpha[k]
  }

  /** delta solves every row of the n x n system. */
  predicate Solves(alpha: seq<real>, beta: seq<seq<real>>, gamma: seq<real>, delta: seq<real>, n: nat)
    requires TriangularSystem(alpha, beta, gamma, n) && n <= |delta|
  {
    forall k :: 0 <= k < n ==> RowSolved(alpha, beta, gamma, delta, n, k)
  }

  lemma {:induction false} RowSumFrame(row: seq<real>, d1: seq<real>, d2: seq<real>, lo: nat, hi: nat)
    requires hi <= |row| && hi <= |d1| && hi <= |d2|
    requires forall i :: lo <= i < hi ==> d1[i] == d2[i]
    ensures RowSum(row, d1, lo, hi) == RowSum(row, d2, lo, hi)
    decreases hi
  {
    if hi > lo {
      RowSumFrame(row, d1, d2, lo, hi - 1);
    }
  }

  /** Storing (alpha[k] - sum_{j > k} beta[k][j] delta[j]) / gamma[k] at k solves row k and keeps the rows below solved. */
  lemma StoreRow(alpha: seq<real>, beta: seq<seq<real>>, gamma: seq<real>, before: seq<real>, n: nat, k: nat, acc: real, delta: seq<real>)
    requires TriangularSystem(alpha, beta, gamma, n) && |before| == n && k < n
    requires forall r :: k < r < n ==> RowSolved(alpha, beta, gamma, before, n, r)
    requires acc == alpha[k] - RowSum(beta[k], before, k + 1, n)
    requires delta == before[k := acc / gamma[k]]
    ensures forall r :: k <= r < n ==> RowSolved(alpha, beta, gamma, delta, n, r)
  {
    forall r | k <= r < n
      ensures RowSolved(alpha, beta, gamma, delta, n, r)
    {
      if r == k {
        SolveRow(alpha, beta, gamma, before, n, k, acc, delta);
      } else {
        KeepRow(alpha, beta, gamma, before, n, k, acc / gamma[k], r);
      }
    }
  }

  lemma SolveRow(alpha: seq<real>, beta: seq<seq<real>>, gamma: seq<real>, before: seq<real>, n: nat, k: nat, acc: real, delta: seq<real>)
    requires TriangularSystem(alpha, beta, gamma, n) && |before| == n && k < n
    requires acc == alpha[k] - RowSum(beta[k], before, k + 1, n)
    requires delta == before[k := acc / gamma[k]]
    ensures RowSolved(alpha, beta, gamma, delta, n, k)
  {
    RowSumFrame(beta[k], delta, before, k + 1, n);
    SolvedByQuotient(gamma[k], delta[k], acc, RowSum(beta[k], delta, k + 1, n), alpha[k]);
  }

  lemma KeepRow(alpha: seq<real>, beta: seq<seq<real>>, gamma: seq<real>, before: seq<real>, n: nat, k: nat, v: real, r: nat)
    requires TriangularSystem(alpha, beta, gamma, n) && |before| == n && k < r < n
    requires RowSolved(alpha, beta, gamma, before, n, r)
    ensures RowSolved(alpha, beta, gamma, before[k := v], n, r)
  {
    var delta := before[k := v];
    RowSumFrame(beta[r], delta, before, r + 1, n);
    assert RowSum(beta[r], delta, r + 1, n) == RowSum(beta[r], before, r + 1, n);
    assert delta[r] == before[r];
  }

  /** g d + s = a once d = acc / g and acc = a - s. */
  lemma SolvedByQuotient(g: real, d: real, acc: real, s: real, a: real)
    requires g != 0.0 && d == acc / g && acc == a - s
    ensures g * d + s == a
  {
    assert g * d == acc;
  }

  /**
   * `backSubs(alpha, beta, gamma, delta, n)`: for k = n-1 down to 0,
   * delta[k] = (alpha[k] - sum_{j > k} beta[k][j] delta[j]) / gamma[k].
   * Only entries of beta above the diagonal are read; only delta[0..n) is
   * written. The source accumulates in delta[k] itself; here the running
   * value is kept in `acc` and stored once.
   */
  method BackSubs(alpha: seq<real>, beta: seq<seq<real>>, gamma: seq<real>, n: nat) returns (delta: seq<real>)
    requires TriangularSystem(alpha, beta, gamma, n)
    ensures |delta| == n
    ensures Solves(alpha, beta, gamma, delta, n)
  {
    delta := seq(n, _ => 0.0);
    var k := n;
    while k > 0
      invariant 0 <= k <= n && |delta| == n
      invariant forall r :: k <= r < n ==> RowSolved(alpha, beta, gamma, delta, n, r)
    {
      k := k - 1;
      var acc := alpha[k];
      var j := k + 1;
      while j < n
        invariant k + 1 <= j <= n
        invariant acc == alpha[k] - RowSum(beta[k], delta, k + 1, j)
      {
        acc := acc - beta[k][j] * delta[j];
        j := j + 1;
      }
      ghost var before := delta;
      delta := delta[k := acc / gamma[k]];
      StoreRow(alpha, beta, gamma, before, n, k, acc, delta);
    }
  }

  /** The system has one solution: any two vectors solving it agree on [0, n). */
  lemma BackSubsUnique(alpha: seq<real>, beta: seq<seq<real>>, gamma: seq<real>, d1: seq<real>, d2: seq<real>, n: nat)
    requires TriangularSystem(alpha, beta, gamma, n) && n <= |d1| && n <= |d2|
    requires Solves(alpha, beta, gamma, d1, n) && Solves(alpha, beta, gamma, d2, n)
    ensures forall i :: 0 <= i < n ==> d1[i] == d2[i]
  {
    SuffixAgrees(alpha, beta, gamma, d1, d2, n, 0);
  }

  lemma {:induction false} SuffixAgrees(alpha: seq<real>, beta: seq<seq<real>>, gamma: seq<real>, d1: seq<real>, d2: seq<real>, n: nat, k: nat)
    requires TriangularSystem(alpha, beta, gamma, n) && n <= |d1| && n <= |d2| && k <= n
    requires Solves(alpha, beta, gamma, d1, n) && Solves(alpha, beta, gamma, d2, n)
    ensures forall i :: k <= i < n ==> d1[i] == d2[i]
    decreases n - k
  {
    if k < n {
      SuffixAgrees(alpha, beta, gamma, d1, d2, n, k + 1);
      RowSumFrame(beta[k], d1, d2, k + 1, n);
      assert RowSolved(alpha, beta, gamma, d1, n, k) && RowSolved(alpha, beta, gamma, d2, n, k);
      var g := gamma[k];
      assert RowSum(beta[k], d1, k + 1, n) == RowSum(beta[k], d2, k + 1, n);
      assert g * d1[k] == alpha[k] - RowSum(beta[k], d1, k + 1, n);
      assert g * d1[k] == g * d2[k];
      assert g * (d1[k] - d2[k]) == 0.0;
    }
  }

  //--------------------------------------------------------------------------
  // updateSolution
  //--------------------------------------------------------------------------

  /** caxpbypczpw(a, x, b, y, c, z, w): w + a x + b y + c z. */
  function Caxpbypczpw(a: real, x: Vec, b: real, y: Vec, c: real, z: Vec, w: Vec): (r: Vec)
    requires |x| == |w| && |y| == |w| && |z| == |w|
    ensures |r| == |w|
  {
    seq(|w|, m requires 0 <= m < |w| => a * x[m] + b * y[m] + c * z[m] + w[m])
  }

  /** caxpbypz(a, x, b, y, z): z + a x + b y. */
  function Caxpbypz(a: real, x: Vec, b: real, y: Vec, z: Vec): (r: Vec)
    requires |x| == |z| && |y| == |z|
    ensures |r| == |z|
  {
    seq(|z|, m requires 0 <= m < |z| => a * x[m] + b * y[m] + z[m])
  }

  /** x plus the first n weighted directions: the solution after n of the updates. */
  function Partial(x: Vec, delta: seq<real>, p: seq<Vec>, n: nat): (r: Vec)
    requires n <= |delta| && AllDim(p, n, |x|)
    ensures |r| == |x|
  {
    Add(x, Combine(delta, p, n, |x|))
  }

  lemma ThreeMore(x: Vec, w: Vec, c: seq<real>, vs: seq<Vec>, i: nat)
    requires i + 3 <= |c| && AllDim(vs, i + 3, |x|) && w == Partial(x, c, vs, i)
    ensures Caxpbypczpw(c[i], vs[i], c[i + 1], vs[i + 1], c[i + 2], vs[i + 2], w) == Partial(x, c, vs, i + 3)
  {
    var d := |x|;
    var lhs := Caxpbypczpw(c[i], vs[i], c[i + 1], vs[i + 1], c[i + 2], vs[i + 2], w);
    var c1, c2 := Combine(c, vs, i + 1, d), Combine(c, vs, i + 2, d);
    forall m | 0 <= m < d
      ensures lhs[m] == Partial(x, c, vs, i + 3)[m]
    {
      assert c1[m] == Combine(c, vs, i, d)[m] + c[i] * vs[i][m];
      assert c2[m] == c1[m] + c[i + 1] * vs[i + 1][m];
      assert Combine(c, vs, i + 3, d)[m] == c2[m] + c[i + 2] * vs[i + 2][m];
    }
  }

  lemma TwoMore(x: Vec, w: Vec, c: seq<real>, vs: seq<Vec>, i: nat)
    requires i + 2 <= |c| && AllDim(vs, i + 2, |x|) && w == Partial(x, c, vs, i)
    ensures Caxpbypz(c[i], vs[i], c[i + 1], vs[i + 1], w) == Partial(x, c, vs, i + 2)
  {
    var d := |x|;
    var lhs := Caxpbypz(c[i], vs[i], c[i + 1], vs[i + 1], w);
    var c1 := Combine(c, vs, i + 1, d);
    forall m | 0 <= m < d
      ensures lhs[m] == Partial(x, c, vs, i + 2)[m]
    {
      assert c1[m] == Combine(c, vs, i, d)[m] + c[i] * vs[i][m];
      assert Combine(c, vs, i + 2, d)[m] == c1[m] + c[i + 1] * vs[i + 1][m];
    }
  }

  lemma OneMore(x: Vec, w: Vec, c: seq<real>, vs: seq<Vec>, i: nat)
    requires i + 1 <= |c| && AllDim(vs, i + 1, |x|) && w == Partial(x, c, vs, i)
    ensures Axpy(c[i], vs[i], w) == Partial(x, c, vs, i + 1)
  {
    var d := |x|;
    var lhs := Axpy(c[i], vs[i], w);
    forall m | 0 <= m < d
      ensures lhs[m] == Partial(x, c, vs, i + 1)[m]
    {
      assert Combine(c, vs, i + 1, d)[m] == Combine(c, vs, i, d)[m] + c[i] * vs[i][m];
    }
  }

  /** The fused loop stops with i = 3 (k / 3), leaving k mod 3 directions. */
  lemma Blocks(k: nat, i: nat)
    requires i % 3 == 0 && i <= k && k - 2 <= i
    ensures k - 3 * (k / 3) == k - i && k % 3 == k - i
  {
  }

  /** The fused loop of `updateSolution`: three directions per update while at least three are left. */
  method AddBlocks(x: Vec, delta: seq<real>, p: seq<Vec>, k: nat) returns (x': Vec, i: nat)
    requires k <= |delta| && AllDim(p, k, |x|)
    ensures i % 3 == 0 && i <= k && k - 2 <= i
    ensures x' == Partial(x, delta, p, i)
  {
    x' := x;
    assert x == Partial(x, delta, p, 0);
    i := 0;
    var blocks := 0;
    while i < k - 2
      invariant i == 3 * blocks && i <= k
      invariant x' == Partial(x, delta, p, i)
    {
      ThreeMore(x, x', delta, p, i);
      x' := Caxpbypczpw(delta[i], p[i], delta[i + 1], p[i + 1], delta[i + 2], p[i + 2], x');
      i, blocks := i + 3, blocks + 1;
    }
  }

  /**
   * The update loop of `updateSolution`: add delta[i] p[i] for every i < k
   * to x, three directions per fused update and the k mod 3 left over in
   * one final update.
   */
  method AddDirections(x: Vec, delta: seq<real>, p: seq<Vec>, k: nat) returns (x': Vec)
    requires k <= |delta| && AllDim(p, k, |x|)
    ensures x' == Add(x, Combine(delta, p, k, |x|))
  {
    var i;
    x', i := AddBlocks(x, delta, p, k);
    Blocks(k, i);
    if k % 3 != 0 {
      if (k - 3 * (k / 3)) % 2 == 0 {
        assert i == k - 2;
        TwoMore(x, x', delta, p, k - 2);
        x' := Caxpbypz(delta[k - 2], p[k - 2], delta[k - 1], p[k - 1], x');
      } else {
        assert i == k - 1;
        OneMore(x, x', delta, p, k - 1);
        x' := Axpy(delta[k - 1], p[k - 1], x');
      }
    } else {
      assert i == k;
    }
  }

  /**
   * `updateSolution`: back-substitute for delta, then add the weighted
   * directions. The result is x + sum_{i<k} delta[i] p[i] with delta the
   * solution of the triangular system.
   */
  method UpdateSolution(x: Vec, alpha: seq<real>, beta: seq<seq<real>>, gamma: seq<real>, k: nat, p: seq<Vec>)
    returns (x': Vec, delta: seq<real>)
    requires TriangularSystem(alpha, beta, gamma, k) && AllDim(p, k, |x|)
    ensures |delta| == k && Solves(alpha, beta, gamma, delta, k)
    ensures x' == Add(x, Combine(delta, p, k, |x|))
  {
    delta := BackSubs(alpha, beta, gamma, k);
    x' := AddDirections(x, delta, p, k);
  }

  //--------------------------------------------------------------------------
  // orthoDir
  //--------------------------------------------------------------------------

  /** The Ap vectors, the new direction Ap[k] among them, all of one dimension. */
  predicate Directions(ap: seq<Vec>, k: nat)
  {
    k < |ap| && AllDim(ap, |ap|, |ap[k]|)
  }

  /**
   * The reference orthogonalisation (the unfused loop, `case 0`): Ap[k]
   * after removing its components along Ap[0], ..., Ap[n-1] one at a time.
   */
  function MgsVec(ap: seq<Vec>, k: nat, n: nat): (w: Vec)
    requires Directions(ap, k) && n <= k
    ensures |w| == |ap[k]|
    decreases n, 0
  {
    if n == 0 then ap[k] else Axpy(-MgsCoeff(ap, k, n - 1), ap[n - 1], MgsVec(ap, k, n - 1))
  }

  /** The coefficient beta[i][k] of the reference: the component of the partly reduced Ap[k] along Ap[i]. */
  function MgsCoeff(ap: seq<Vec>, k: nat, i: nat): real
    requires Directions(ap, k) && i < k
    decreases i, 1
  {
    Dot(ap[i], MgsVec(ap, k, i))
  }

  /** caxpyDotzy(a, x, y, z): y += a x, returning <z, y> of the updated y. */
  function CaxpyDotzy(a: real, x: Vec, y: Vec, z: Vec): (r: (Vec, real))
    requires |x| == |y| && |z| == |y|
    ensures r.0 == Axpy(a, x, y) && r.1 == Dot(z, r.0)
  {
    var y' := Axpy(a, x, y);
    (y', Dot(z, y'))
  }

  /** A square coefficient matrix of the Krylov size. */
  predicate Square(beta: seq<seq<real>>)
  {
    forall i :: 0 <= i < |beta| ==> |beta[i]| == |beta|
  }

  /** beta with column k, rows [0, |col|), replaced by col. */
  function WriteColumn(beta: seq<seq<real>>, k: nat, col: seq<real>): (b: seq<seq<real>>)
    requires Square(beta) && k < |beta| && |col| <= |beta|
    ensures |b| == |beta| && Square(b)
    ensures forall i :: 0 <= i < |col| ==> b[i][k] == col[i]
    ensures forall i, j :: 0 <= i < |beta| && 0 <= j < |beta| && !(i < |col| && j == k) ==> b[i][j] == beta[i][j]
  {
    seq(|beta|, i requires 0 <= i < |beta| => if i < |col| then beta[i][k := col[i]] else beta[i])
  }

  /** The k coefficients of the reference for direction k. */
  predicate MgsColumn(ap: seq<Vec>, k: nat, col: seq<real>)
    requires Directions(ap, k) && |col| <= k
  {
    forall r :: 0 <= r < |col| ==> col[r] == MgsCoeff(ap, k, r)
  }

  /** One pass of the fused loop: subtract along Ap[i], then take the component along Ap[i+1]. */
  lemma OrthoStep(ap: seq<Vec>, k: nat, i: nat, col: seq<real>, w: Vec)
    requires Directions(ap, k) && i + 1 < k && |col| == i + 1
    requires w == MgsVec(ap, k, i) && MgsColumn(ap, k, col)
    ensures CaxpyDotzy(-col[i], ap[i], w, ap[i + 1]).0 == MgsVec(ap, k, i + 1)
    ensures MgsColumn(ap, k, col + [CaxpyDotzy(-col[i], ap[i], w, ap[i + 1]).1])
  {
    var col' := col + [CaxpyDotzy(-col[i], ap[i], w, ap[i + 1]).1];
    assert col[i] == MgsCoeff(ap, k, i);
    forall r | 0 <= r < |col'|
      ensures col'[r] == MgsCoeff(ap, k, r)
    {
      if r <= i {
        assert col'[r] == col[r];
      }
    }
  }

  /** The update after the loop subtracts along Ap[k-1] and completes the reduction. */
  lemma LastStep(ap: seq<Vec>, k: nat, col: seq<real>, w: Vec)
    requires Directions(ap, k) && 0 < k && |col| == k
    requires w == MgsVec(ap, k, k - 1) && MgsColumn(ap, k, col)
    ensures Axpy(-col[k - 1], ap[k - 1], w) == MgsVec(ap, k, k)
  {
    assert col[k - 1] == MgsCoeff(ap, k, k - 1);
  }

  /**
   * `orthoDir(beta, Ap, k)` with the fused kernel (type 1): for k > 0 it
   * agrees with the reference loop, writing beta[i][k] for every i < k and
   * subtracting each Ap[i] from Ap[k] once, in increasing i; nothing else
   * is written. For k = 0 it changes nothing. The coefficients are
   * collected in `col` and written into column k at the end: every one is
   * read back only after it has been written, so the order of the writes
   * does not matter.
   */
  method OrthoDir(beta: seq<seq<real>>, ap: seq<Vec>, k: nat) returns (beta': seq<seq<real>>, ap': seq<Vec>)
    requires Directions(ap, k) && Square(beta) && |beta| == |ap|
    ensures |ap'| == |ap| && ap'[k] == MgsVec(ap, k, k)
    ensures forall i :: 0 <= i < |ap| && i != k ==> ap'[i] == ap[i]
    ensures |beta'| == |beta| && Square(beta')
    ensures forall i :: 0 <= i < k ==> beta'[i][k] == MgsCoeff(ap, k, i)
    ensures forall i, j :: 0 <= i < |beta| && 0 <= j < |beta| && !(i < k && j == k) ==> beta'[i][j] == beta[i][j]
  {
    if k == 0 {
      return beta, ap;
    }
    var col := [Dot(ap[0], ap[k])];
    var w := ap[k];
    var i := 0;
    while i < k - 1
      invariant 0 <= i <= k - 1 && |col| == i + 1
      invariant w == MgsVec(ap, k, i) && MgsColumn(ap, k, col)
    {
      var fused := CaxpyDotzy(-col[i], ap[i], w, ap[i + 1]);
      OrthoStep(ap, k, i, col, w);
      w := fused.0;
      col := col + [fused.1];
      i := i + 1;
    }
    LastStep(ap, k, col, w);
    w := Axpy(-col[k - 1], ap[k - 1], w);
    ap' := ap[k := w];
    beta' := WriteColumn(beta, k, col);
  }

  /**
   * Against orthonormal Ap[0..k) the reduced direction is orthogonal to
   * every one of them, so the GCR search directions stay A-orthogonal.
   */
  lemma {:induction false} MgsOrthogonal(ap: seq<Vec>, k: nat, n: nat)
    requires Directions(ap, k) && n <= k && Orthonormal(ap, 0, k)
    ensures forall i :: 0 <= i < n ==> Dot(ap[i], MgsVec(ap, k, n)) == 0.0
    decreases n
  {
    if n > 0 {
      MgsOrthogonal(ap, k, n - 1);
      var prev := MgsVec(ap, k, n - 1);
      var c := MgsCoeff(ap, k, n - 1);
      forall i | 0 <= i < n
        ensures Dot(ap[i], MgsVec(ap, k, n)) == 0.0
      {
        DotAxpyRight(ap[i], -c, ap[n - 1], prev);
      }
    }
  }
}

=== FILE: gcr_loop.dfy ===
/**
 * The bookkeeping of `GCR::operator()`: the Krylov index `k`, the pass
 * counter `total_iter`, the restart counter, the reliable-update reference
 * `r2_old` and the `l2_converge` latch. Each pass applies the
 * preconditioner `precondition_cycle` times, orthogonalises the new
 * direction, checks for breakdown, updates the residual and, when the
 * Krylov space is full, the iteration budget is spent, the residual
 * dropped below the stopping value or a reliable update is due, folds the
 * directions into the solution and recomputes the true residual.
 *
 * The vector numerics of a pass are a parameter `observe`; the solver's
 * convergence test (`Solver::convergence`) is the parameter `converged`.
 */
module GcrLoop {
  import opened Outcomes
  import opened GcrParams

  /** The loop state. `updates` counts the solution updates, `kApplications` the applications of the inner solver. */
  datatype GcrState = GcrState(
    k: nat,
    totalIter: nat,
    restart: nat,
    updates: nat,
    kApplications: nat,
    r2: real,
    r2Old: real,
    l2Converge: bool)

  /**
   * The numbers one pass's vector work produces: gamma[k] (the norm of the
   * orthogonalised Ap[k]), the iterated residual norm after the pass, and
   * the true residual norm recomputed if the pass ends with an update.
   */
  datatype PassNumerics = PassNumerics(gamma: real, r2: real, trueR2: real)

  /** The loop's fixed inputs. */
  datatype LoopParams = LoopParams(
    nKrylov: int,
    maxiter: int,
    stop: real,
    reliableDelta: real,
    parity: nat,
    cycles: int,
    schwarz: SchwarzType,
    hasK: bool)

  /** The preconditioning cycles of one pass: a non-positive `precondition_cycle` runs none. */
  function Cycles(lp: LoopParams): nat
  {
    if lp.cycles < 0 then 0 else lp.cycles
  }

  /** The iteration budget as a pass count: a non-positive `maxiter` allows none. */
  function Budget(lp: LoopParams): nat
  {
    if lp.maxiter < 0 then 0 else lp.maxiter
  }

  /**
   * `r2 / r2_old < reliable_delta`. For r2_old = 0 the floating-point
   * quotient of a non-negative r2 is +infinity or NaN and the comparison is
   * false, which is what the guard on r2Old states.
   */
  predicate ReliableUpdate(r2: real, r2Old: real, delta: real)
  {
    r2Old != 0.0 && r2 / r2Old < delta
  }

  /** Fold the directions into the solution after this pass: space full, budget spent, residual below the stopping value with the latch open, or a reliable update due. */
  predicate UpdateDue(lp: LoopParams, k: nat, totalIter: nat, r2: real, r2Old: real, l2Converge: bool)
  {
    || k == lp.nKrylov
    || totalIter as int == lp.maxiter
    || (r2 < lp.stop && !l2Converge)
    || ReliableUpdate(r2, r2Old, lp.reliableDelta)
  }

  /**
   * One pass of the main loop. A zero gamma[k] is a breakdown, raised
   * before anything is divided by it (the pass number in the error is the
   * model's addition). Otherwise k and
   * total_iter advance; an update resets k to 0 and takes the recomputed
   * residual, and, if that residual does not converge, counts a restart,
   * makes it the new reliable-update reference and latches l2_converge
   * when it is below the stopping value.
   */
  function Pass(lp: LoopParams, converged: real -> bool, st: GcrState, num: PassNumerics): (r: Result<GcrState, GcrError>)
    requires st.k < lp.nKrylov
    ensures r.Failure? <==> num.gamma == 0.0
    ensures r.Failure? ==> r.error == Breakdown(st.totalIter)
    ensures r.Success? ==> r.value.totalIter == st.totalIter + 1 && r.value.k < lp.nKrylov
    ensures r.Success? ==> r.value.kApplications == st.kApplications + KApplications(lp.parity, Cycles(lp), lp.schwarz, lp.hasK)
    ensures r.Success? ==> r.value.restart <= st.restart + 1 && (st.l2Converge ==> r.value.l2Converge)
    ensures r.Success? ==>
      if UpdateDue(lp, st.k + 1, st.totalIter + 1, num.r2, st.r2Old, st.l2Converge) then
        && r.value.k == 0 && r.value.updates == st.updates + 1 && r.value.r2 == num.trueR2
        && (r.value.restart == st.restart + 1 <==> !converged(num.trueR2))
      else
        && r.value.k == st.k + 1 && r.value.updates == st.updates && r.value.r2 == num.r2
        && r.value.restart == st.restart && r.value.r2Old == st.r2Old && r.value.l2Converge == st.l2Converge
  {
    if num.gamma == 0.0 then Failure(Breakdown(st.totalIter))
    else
      var k, totalIter := st.k + 1, st.totalIter + 1;
      var kApps := st.kApplications + KApplications(lp.parity, Cycles(lp), lp.schwarz, lp.hasK);
      if !UpdateDue(lp, k, totalIter, num.r2, st.r2Old, st.l2Converge) then
        Success(st.(k := k, totalIter := totalIter, kApplications := kApps, r2 := num.r2))
      else if converged(num.trueR2) then
        Success(st.(k := 0, totalIter := totalIter, updates := st.updates + 1, kApplications := kApps, r2 := num.trueR2))
      else
        Success(GcrState(0, totalIter, st.restart + 1, st.updates + 1, kApps, num.trueR2, num.trueR2,
                         st.l2Converge || num.trueR2 < lp.stop))
  }

  /** The L2 test alone: converged exactly when r2 is below the stopping value. */
  ghost predicate L2Only(lp: LoopParams, converged: real -> bool)
  {
    forall x :: converged(x) <==> x < lp.stop
  }

  /** The state before the first pass. */
  function Initial(r2Init: real): GcrState
  {
    GcrState(0, 0, 0, 0, 0, r2Init, r2Init, false)
  }

  /** The loop condition: not converged and total_iter below maxiter. */
  ghost predicate Continues(lp: LoopParams, converged: real -> bool, st: GcrState)
  {
    !converged(st.r2) && (st.totalIter as int) < lp.maxiter
  }

  /** `next` is what a pass from `st` computes, the loop having continued at `st` with gamma non-zero. */
  ghost predicate Step(lp: LoopParams, converged: real -> bool, observe: GcrState -> PassNumerics, st: GcrState, next: GcrState)
  {
    && st.k < lp.nKrylov && Continues(lp, converged, st) && observe(st).gamma != 0.0
    && Pass(lp, converged, st, observe(st)) == Success(next)
  }

  /** `trace` starts at the initial state and each state is the pass of the previous one. */
  ghost predicate IsRun(lp: LoopParams, converged: real -> bool, observe: GcrState -> PassNumerics, r2Init: real, trace: seq<GcrState>)
  {
    && |trace| > 0 && trace[0] == Initial(r2Init)
    && forall t :: 0 <= t < |trace| - 1 ==> Step(lp, converged, observe, trace[t], trace[t + 1])
  }

  lemma RunStep(lp: LoopParams, converged: real -> bool, observe: GcrState -> PassNumerics, r2Init: real,
                trace: seq<GcrState>, next: GcrState)
    requires IsRun(lp, converged, observe, r2Init, trace)
    requires Step(lp, converged, observe, trace[|trace| - 1], next)
    ensures IsRun(lp, converged, observe, r2Init, trace + [next])
  {
    var t' := trace + [next];
    forall t | 0 <= t < |t'| - 1
      ensures Step(lp, converged, observe, t'[t], t'[t + 1])
    {
      assert t'[t] == trace[t];
    }
  }

  lemma ExtraPass(t: nat, c: nat)
    ensures (t + 1) * c == t * c + c
  {
  }

  lemma FullSpace(t: nat, u: nat, k: nat, n: nat)
    requires t <= u * n + k && k + 1 <= n
    ensures t + 1 <= (u + 1) * n
  {
  }

  /**
   * The main loop from the initial residual r2Init until `converged` holds
   * or maxiter passes are spent. `gcrNkrylov` is never checked: a negative
   * value fails the allocation of the direction arrays, and zero is harmless
   * only if the loop never starts, since the first pass reads Ap[0] of an
   * empty array. With at least one direction, a breakdown stops the loop
   * with the pass number; otherwise, at exit:
   * - k < Nkrylov and total_iter <= maxiter, and the loop ended for one of
   *   its two reasons;
   * - every update follows at most Nkrylov passes, restarts are updates
   *   that did not converge, and the inner solver ran its per-pass count on
   *   every pass;
   * - when maxiter was reached, or convergence is the L2 test alone, k = 0:
   *   no direction is left out of the solution.
   * `trace` is the run: the passes are the states `Pass` computes in turn
   * from the initial one, each taken while the loop condition held and
   * gamma was non-zero; the result is its last state, at which the loop
   * stops, or the breakdown at the first state whose gamma is zero.
   */
  method Run(lp: LoopParams, converged: real -> bool, r2Init: real, observe: GcrState -> PassNumerics)
    returns (r: Result<GcrState, GcrError>, ghost trace: seq<GcrState>)
    requires lp.parity < 2
    ensures IsRun(lp, converged, observe, r2Init, trace)
    ensures lp.nKrylov >= 0 && r.Success? ==> r.value == trace[|trace| - 1] && !Continues(lp, converged, r.value)
    ensures lp.nKrylov >= 0 && r.Failure? ==> Continues(lp, converged, trace[|trace| - 1])
    ensures lp.nKrylov >= 1 && r.Failure? ==>
      var last := trace[|trace| - 1];
      observe(last).gamma == 0.0 && r.error == Breakdown(last.totalIter)
    ensures lp.nKrylov < 0 ==> r == Failure(BadKrylovAllocation(lp.nKrylov))
    ensures lp.nKrylov == 0 ==> (r.Success? <==> converged(r2Init) || lp.maxiter <= 0)
    ensures lp.nKrylov == 0 && r.Success? ==> r.value == GcrState(0, 0, 0, 0, 0, r2Init, r2Init, false)
    ensures lp.nKrylov == 0 && r.Failure? ==> r.error == KrylovIndexOutOfRange
    ensures lp.nKrylov >= 1 && r.Failure? ==> r.error.Breakdown? && 0 <= r.error.iteration < Budget(lp)
    ensures r.Success? ==> converged(r.value.r2) || r.value.totalIter == Budget(lp)
    ensures r.Success? && lp.nKrylov >= 1 ==> r.value.k < lp.nKrylov
    ensures r.Success? ==> r.value.totalIter <= Budget(lp)
    ensures r.Success? ==> r.value.restart <= r.value.updates <= r.value.totalIter
    ensures r.Success? ==> r.value.totalIter <= r.value.updates * lp.nKrylov + r.value.k
    ensures r.Success? ==> r.value.kApplications == r.value.totalIter * KApplications(lp.parity, Cycles(lp), lp.schwarz, lp.hasK)
    ensures r.Success? && r.value.totalIter == Budget(lp) ==> r.value.k == 0
    ensures r.Success? && L2Only(lp, converged) ==> r.value.k == 0
  {
    trace := [Initial(r2Init)];
    if lp.nKrylov < 0 {
      return Failure(BadKrylovAllocation(lp.nKrylov)), trace;
    }
    var perPass := KApplications(lp.parity, Cycles(lp), lp.schwarz, lp.hasK);
    var st := Initial(r2Init);
    trace := [st];
    if lp.nKrylov == 0 {
      if !converged(st.r2) && (st.totalIter as int) < lp.maxiter {
        return Failure(KrylovIndexOutOfRange), trace;
      }
      return Success(st), trace;
    }
    while !converged(st.r2) && (st.totalIter as int) < lp.maxiter
      invariant st.k < lp.nKrylov && st.k <= st.totalIter <= Budget(lp)
      invariant st.restart <= st.updates <= st.totalIter
      invariant st.totalIter <= st.updates * lp.nKrylov + st.k
      invariant st.kApplications == st.totalIter * perPass
      invariant st.k > 0 ==> (st.r2 >= lp.stop || st.l2Converge) && st.totalIter as int != lp.maxiter
      invariant L2Only(lp, converged) ==> !st.l2Converge
      invariant IsRun(lp, converged, observe, r2Init, trace) && st == trace[|trace| - 1]
      decreases Budget(lp) - st.totalIter
    {
      var next := Pass(lp, converged, st, observe(st));
      if next.Failure? {
        return next, trace;
      }
      ExtraPass(st.totalIter, perPass);
      if next.value.k == 0 {
        FullSpace(st.totalIter, st.updates, st.k, lp.nKrylov);
      }
      RunStep(lp, converged, observe, r2Init, trace, next.value);
      st, trace := next.value, trace + [next.value];
    }
    return Success(st), trace;
  }
}

=== FILE: gcr_params.dfy ===
/**
 * Set-up of the GCR solver: the parameter block handed to the inner
 * (preconditioning) solver, the choice of that inner solver in the `GCR`
 * constructor, and the rule deciding on which preconditioning cycles a node
 * applies it.
 */
module GcrParams {
  import opened Outcomes
  import opened Precisions

  datatype Inverter = CgInverter | BiCgStabInverter | MrInverter | GcrInverter | InvalidInverter | OtherInverter(code: int)

  datatype Verbosity = Silent | Summarize | Verbose | DebugVerbose

  datatype SchwarzType = AdditiveSchwarz | MultiplicativeSchwarz | InvalidSchwarz

  /** The fields of `QudaInvertParam` the GCR solver reads or writes. */
  datatype InvertParam = InvertParam(
    invType: Inverter,
    invTypePrecondition: Inverter,
    tol: real,
    tolPrecondition: real,
    maxiter: int,
    maxiterPrecondition: int,
    reliableDelta: real,
    cudaPrec: Precision,
    cudaPrecSloppy: Precision,
    cudaPrecPrecondition: Precision,
    verbosity: Verbosity,
    verbosityPrecondition: Verbosity,
    iter: int,
    gflops: real,
    secs: real,
    preserveSource: bool,
    gcrNkrylov: int,
    preconditionCycle: int,
    schwarzType: SchwarzType)

  /** `reliable_delta` of an inner solver: 1e-20, so that it never makes a reliable update. */
  const NoReliableUpdates: real := 0.00000000000000000001

  /** The fields `fillInnerInvertParam` does not write. */
  function Untouched(p: InvertParam): (Inverter, real, int, Verbosity, Precision, int, int, SchwarzType)
  {
    (p.invType, p.tolPrecondition, p.maxiterPrecondition, p.verbosityPrecondition, p.cudaPrecPrecondition,
     p.gcrNkrylov, p.preconditionCycle, p.schwarzType)
  }

  /**
   * The inner solver works to the outer preconditioner's tolerance, iteration
   * budget, precision (as both its full and its sloppy precision) and
   * verbosity, never makes reliable updates, starts its counters from zero
   * and is marked as an inner solver. It may overwrite its source unless
   * the outer solver is GCR with a sloppy precision different from the
   * preconditioner's.
   */
  function FillInnerInvertParam(inner: InvertParam, outer: InvertParam): (r: InvertParam)
    ensures r.tol == outer.tolPrecondition && r.maxiter == outer.maxiterPrecondition
    ensures r.cudaPrec == outer.cudaPrecPrecondition && r.cudaPrecSloppy == outer.cudaPrecPrecondition
    ensures r.verbosity == outer.verbosityPrecondition
    ensures r.reliableDelta == NoReliableUpdates
    ensures r.iter == 0 && r.gflops == 0.0 && r.secs == 0.0
    ensures r.invTypePrecondition == GcrInverter
    ensures !r.preserveSource <==>
      outer.invType == GcrInverter && outer.cudaPrecSloppy != outer.cudaPrecPrecondition
    ensures Untouched(r) == Untouched(inner)
  {
    inner.(
      tol := outer.tolPrecondition,
      maxiter := outer.maxiterPrecondition,
      reliableDelta := NoReliableUpdates,
      cudaPrec := outer.cudaPrecPrecondition,
      cudaPrecSloppy := outer.cudaPrecPrecondition,
      verbosity := outer.verbosityPrecondition,
      iter := 0,
      gflops := 0.0,
      secs := 0.0,
      invTypePrecondition := GcrInverter,
      preserveSource := !(outer.invType == GcrInverter && outer.cudaPrecSloppy != outer.cudaPrecPrecondition))
  }

  /** Filling twice from the same outer block changes nothing more. */
  lemma FillIdempotent(inner: InvertParam, outer: InvertParam)
    ensures FillInnerInvertParam(FillInnerInvertParam(inner, outer), outer) == FillInnerInvertParam(inner, outer)
  {
  }

  /** The result depends on the inner block only through the fields it leaves alone. */
  lemma FillForgetsOverwritten(inner1: InvertParam, inner2: InvertParam, outer: InvertParam)
    requires Untouched(inner1) == Untouched(inner2)
    ensures FillInnerInvertParam(inner1, outer) == FillInnerInvertParam(inner2, outer)
  {
  }

  /** The inner solver the constructor builds; `K` stays null for an invalid preconditioner type. */
  datatype Preconditioner = NoPreconditioner | InnerCg | InnerBiCgStab | InnerMr

  /**
   * The fatal outcomes of the GCR solver. `Breakdown` carries the pass on
   * which gamma[k] vanished (the library's message names no pass; the model
   * adds it). A negative Krylov size fails the allocation of `p` and `Ap`;
   * a zero one makes the first pass index the empty arrays at k = 0.
   */
  datatype GcrError =
    | UnknownInnerSolver(inverter: Inverter)
    | Breakdown(iteration: int)
    | BadKrylovAllocation(size: int)
    | KrylovIndexOutOfRange

  /** The constructed solver: the inner parameter block and the inner solver. */
  datatype Gcr = Gcr(kParam: InvertParam, k: Preconditioner)

  /**
   * `GCR::GCR`: fill the inner parameters from the fresh block `defaults`,
   * then build CG, BiCGstab or MR as requested, nothing for
   * INVALID, and fail for any other inverter.
   */
  function Construct(defaults: InvertParam, invParam: InvertParam): (r: Result<Gcr, GcrError>)
    ensures r.Failure? <==> invParam.invTypePrecondition !in {CgInverter, BiCgStabInverter, MrInverter, InvalidInverter}
    ensures r.Failure? ==> r.error == UnknownInnerSolver(invParam.invTypePrecondition)
    ensures r.Success? ==> r.value.kParam == FillInnerInvertParam(defaults, invParam)
    ensures r.Success? ==> (r.value.k == NoPreconditioner <==> invParam.invTypePrecondition == InvalidInverter)
    ensures r.Success? ==> (r.value.k == InnerCg <==> invParam.invTypePrecondition == CgInverter)
    ensures r.Success? ==> (r.value.k == InnerBiCgStab <==> invParam.invTypePrecondition == BiCgStabInverter)
    ensures r.Success? ==> (r.value.k == InnerMr <==> invParam.invTypePrecondition == MrInverter)
  {
    var kParam := FillInnerInvertParam(defaults, invParam);
    match invParam.invTypePrecondition
    case CgInverter => Success(Gcr(kParam, InnerCg))
    case BiCgStabInverter => Success(Gcr(kParam, InnerBiCgStab))
    case MrInverter => Success(Gcr(kParam, InnerMr))
    case InvalidInverter => Success(Gcr(kParam, NoPreconditioner))
    case _ => Failure(UnknownInnerSolver(invParam.invTypePrecondition))
  }

  /** GCR is not among the inner solvers the constructor builds: asking for it is an unknown inner solver. */
  lemma ConstructRejectsGcrInner(defaults: InvertParam, invParam: InvertParam)
    requires invParam.invTypePrecondition == GcrInverter
    ensures Construct(defaults, invParam) == Failure(UnknownInnerSolver(GcrInverter))
  {
  }

  //--------------------------------------------------------------------------
  // The preconditioner parity rule
  //--------------------------------------------------------------------------

  /** The node parity: the sum of the four communication-grid coordinates, mod 2. */
  function Parity(coords: seq<nat>): (p: nat)
    requires |coords| == 4
    ensures p < 2
  {
    (coords[0] + coords[1] + coords[2] + coords[3]) % 2
  }

  /** On cycle m the node applies K, rather than copying the residual, when this holds. */
  predicate AppliesK(parity: nat, m: nat, schwarz: SchwarzType)
  {
    (parity + m) % 2 == 0 || schwarz == AdditiveSchwarz
  }

  /** Applications of K in the first `cycles` preconditioning cycles of one GCR pass. */
  function KApplications(parity: nat, cycles: nat, schwarz: SchwarzType, hasK: bool): (n: nat)
    ensures n <= cycles
    decreases cycles
  {
    if cycles == 0 then 0
    else KApplications(parity, cycles - 1, schwarz, hasK)
         + (if hasK && AppliesK(parity, cycles - 1, schwarz) then 1 else 0)
  }

  /**
   * Per pass, additive Schwarz applies K on every cycle; otherwise the nodes
   * alternate, even-parity nodes taking cycles 0, 2, 4, ... and odd-parity
   * nodes cycles 1, 3, 5, ...; without an inner solver K is never applied.
   */
  lemma {:induction false} KApplicationsCount(parity: nat, cycles: nat, schwarz: SchwarzType, hasK: bool)
    requires parity < 2
    ensures !hasK ==> KApplications(parity, cycles, schwarz, hasK) == 0
    ensures hasK && schwarz == AdditiveSchwarz ==> KApplications(parity, cycles, schwarz, hasK) == cycles
    ensures hasK && schwarz != AdditiveSchwarz ==>
      KApplications(parity, cycles, schwarz, hasK) == (cycles + 1 - parity) / 2
    decreases cycles
  {
    if cycles > 0 {
      KApplicationsCount(parity, cycles - 1, schwarz, hasK);
    }
  }
}

=== FILE: jd.dfy ===
/**
 * The outer loop of `JD::operator()` (Jacobi-Davidson), reduced to its
 * counters: the subspace size `m` grows by one per pass and is truncated to
 * m_min = nEv once it reaches m_max = nKr, which counts as a restart; the
 * converged-pair count `k` is never incremented (its increment is commented
 * out), so only the restart budget ends the loop and `converged` stays
 * false. The output space is cleared before the loop, and the vector pushed
 * onto it in each pass is popped again after the correction solve, so it is
 * still empty when the loop ends; a single zero vector is then pushed, so
 * the space handed back holds exactly one vector.
 *
 * The numerics of a pass (subspace expansion, projected eigensolve, residual
 * norm, correction solve) are a parameter `residualNorm`.
 */
module JacobiDavidson {
  import opened EigParams

  /** The outer-loop counters. */
  datatype JdState = JdState(
    k: int,
    m: int,
    restartIter: nat,
    passes: nat,
    hits: nat,
    eigSpaceSize: nat,
    converged: bool)

  //--------------------------------------------------------------------------
  // The "residual hit" loop: `while (norm < tol) { ...; norm = 1.0; }`
  //--------------------------------------------------------------------------

  /**
   * The residual-hit loop as written, run for at most `fuel` passes of its
   * body: `Running` when the fuel runs out with the loop still going, otherwise
   * the number of passes made.
   */
  function HitLoopAsWritten(norm: real, tol: real, fuel: nat): (r: HitOutcome)
    ensures norm >= tol ==> r == Done(0)
    decreases fuel
  {
    if norm >= tol then Done(0)
    else if fuel == 0 then Running
    else
      match HitLoopAsWritten(1.0, tol, fuel - 1)
      case Done(n) => Done(n + 1)
      case Running => Running
  }

  datatype HitOutcome = Done(passes: nat) | Running

  /** With tol > 1 a residual below tol is reset to 1.0, still below tol: the loop never exits. */
  lemma {:induction false} HitLoopAsWrittenDiverges(norm: real, tol: real, fuel: nat)
    requires tol > 1.0 && norm < tol
    ensures HitLoopAsWritten(norm, tol, fuel) == Running
    decreases fuel
  {
    if fuel > 0 {
      HitLoopAsWrittenDiverges(1.0, tol, fuel - 1);
    }
  }

  /** With tol <= 1 (and any fuel past one pass) the loop body runs at most once. */
  lemma HitLoopAsWrittenOnce(norm: real, tol: real, fuel: nat)
    requires tol <= 1.0 && fuel >= 1
    ensures HitLoopAsWritten(norm, tol, fuel) == Done(HitPasses(norm, tol))
  {
  }

  /**
   * The corrected residual-hit branch: the hard-coded `norm = 1.0`
   * is there to leave the placeholder body after one pass, so the body runs
   * once when the residual is below tolerance and not at all otherwise.
   */
  function HitPasses(norm: real, tol: real): (n: nat)
    ensures n <= 1
    ensures n == 1 <==> norm < tol
  {
    if norm < tol then 1 else 0
  }

  //--------------------------------------------------------------------------
  // The outer loop
  //--------------------------------------------------------------------------

  /**
   * One pass of the outer loop after the numerics: m grows by one, a
   * residual below tol counts a hit, and reaching m_max truncates the
   * subspace to m_min and counts a restart. k and `converged` are untouched.
   */
  function Pass(mMin: int, mMax: int, tol: real, st: JdState, norm: real): (r: JdState)
    ensures r.k == st.k && r.converged == st.converged && r.eigSpaceSize == st.eigSpaceSize
    ensures r.passes == st.passes + 1
    ensures r.hits == st.hits + (if norm < tol then 1 else 0)
    ensures st.m + 1 >= mMax ==> r.m == mMin && r.restartIter == st.restartIter + 1
    ensures st.m + 1 < mMax ==> r.m == st.m + 1 && r.restartIter == st.restartIter
  {
    var m := st.m + 1;
    var hits := st.hits + HitPasses(norm, tol);
    // eigSpace.push_back(u[0]) ... eigSpace.pop_back()
    var size := st.eigSpaceSize + 1;
    if m >= mMax then JdState(st.k, mMin, st.restartIter + 1, st.passes + 1, hits, size - 1, st.converged)
    else JdState(st.k, m, st.restartIter, st.passes + 1, hits, size - 1, st.converged)
  }

  /**
   * Operator passes before the loop ends with `restarts` restarts taken:
   * m_max passes to the first restart, then m_max - m_min per restart.
   */
  function PassesFor(mMin: nat, mMax: nat, restarts: nat): (n: nat)
    requires mMin < mMax
    ensures restarts > 0 ==> n >= mMax
  {
    if restarts == 0 then 0
    else if restarts == 1 then mMax
    else PassesFor(mMin, mMax, restarts - 1) + (mMax - mMin)
  }

  /** The pass count in closed form: m_max + (restarts - 1)(m_max - m_min). */
  lemma {:induction false} PassesForClosedForm(mMin: nat, mMax: nat, restarts: nat)
    requires mMin < mMax && restarts > 0
    ensures PassesFor(mMin, mMax, restarts) == mMax + (restarts - 1) * (mMax - mMin)
  {
    if restarts > 1 {
      PassesForClosedForm(mMin, mMax, restarts - 1);
      assert (restarts - 1) * (mMax - mMin) == (restarts - 2) * (mMax - mMin) + (mMax - mMin);
    }
  }

  /**
   * The outer loop from k = 0, m = 0: it runs until max_restarts restarts
   * have been taken (when nConv > 0; a non-positive nConv skips it), makes
   * exactly m_max + (max_restarts - 1)(m_max - m_min) passes, never counts a
   * converged pair, never reports convergence, and hands back a space of one
   * (zero) vector.
   */
  method Run(c: Common, residualNorm: JdState -> real) returns (st: JdState)
    requires 0 < c.nEv < c.nKr
    ensures st.k == 0 && !st.converged && st.eigSpaceSize == 1
    ensures st.hits <= st.passes
    ensures c.nConv <= 0 || c.maxRestarts <= 0 ==> st.passes == 0 && st.restartIter == 0
    ensures c.nConv > 0 && c.maxRestarts > 0 ==>
      st.restartIter == c.maxRestarts && st.m == c.nEv && st.passes == PassesFor(c.nEv, c.nKr, c.maxRestarts)
  {
    var kMax, mMin, mMax := c.nConv, c.nEv, c.nKr;
    st := JdState(0, 0, 0, 0, 0, 0, false);
    while st.restartIter < c.maxRestarts && st.k < kMax
      invariant st.k == 0 && !st.converged && st.eigSpaceSize == 0
      invariant st.hits <= st.passes
      invariant st.restartIter == 0 ==> 0 <= st.m < mMax && st.passes == st.m
      invariant st.restartIter > 0 ==>
        mMin <= st.m < mMax && st.passes == PassesFor(mMin, mMax, st.restartIter) + (st.m - mMin)
      invariant c.maxRestarts > 0 ==> st.restartIter <= c.maxRestarts
      invariant st.restartIter > 0 && st.restartIter == c.maxRestarts ==> st.m == mMin
      invariant c.maxRestarts <= 0 || kMax <= 0 ==> st.passes == 0 && st.restartIter == 0
      decreases c.maxRestarts - st.restartIter, mMax - st.m
    {
      st := Pass(mMin, mMax, c.tol, st, residualNorm(st));
    }
    // An empty output space receives one zero vector.
    if st.eigSpaceSize == 0 {
      st := st.(eigSpaceSize := 1);
    }
  }
}

=== FILE: kept_ritz.dfy ===
/**
 * `TRLM::computeKeptRitz`: the thick restart. The first `iter_keep` Ritz
 * vectors, combinations of the unlocked basis vectors v_nl .. v_{nKr-1}
 * with the columns of the dense eigenvector matrix, are built in scratch
 * slots past v_nKr, copied over v_nl .. v_{nl+iter_keep-1}, and followed by
 * the last Lanczos vector v_nKr. The arrow betas become the residual
 * couplings beta[nKr-1] * (last component of each kept eigenvector).
 */
module KeptRitz {
  import opened Vectors
  import Arrow

  /** The unlocked part v_nl .. v_{nl+dim-1} of the basis. */
  function Unlocked(kSpace: seq<Vec>, nl: nat, dim: nat): (vs: seq<Vec>)
    requires nl + dim <= |kSpace|
    ensures |vs| == dim && forall j :: 0 <= j < dim ==> vs[j] == kSpace[nl + j]
  {
    kSpace[nl..nl + dim]
  }

  /** The Ritz vector with coefficients `c` over the unlocked basis. */
  function RitzVector(c: seq<real>, kSpace: seq<Vec>, nl: nat, dim: nat, d: nat): (r: Vec)
    requires nl + dim <= |kSpace| && dim <= |c| && AllDim(kSpace, |kSpace|, d)
    ensures |r| == d
  {
    Combine(c, Unlocked(kSpace, nl, dim), dim, d)
  }

  /** `r = ritz[i][0] v_nl` equals the one-term combination. */
  lemma FirstTerm(c: seq<real>, vs: seq<Vec>, d: nat)
    requires 1 <= |c| && AllDim(vs, 1, d)
    ensures Scale(c[0], vs[0]) == Combine(c, vs, 1, d)
  {
    var l, r := Scale(c[0], vs[0]), Combine(c, vs, 1, d);
    assert forall m :: 0 <= m < d ==> l[m] == r[m];
  }

  /** kSpace.push_back(...) until it holds `size` vectors; the new ones are zero fields. */
  method GrowTo(kSpace: seq<Vec>, size: nat, d: nat) returns (ks: seq<Vec>)
    requires AllDim(kSpace, |kSpace|, d)
    ensures AllDim(ks, |ks|, d)
    ensures |ks| == if |kSpace| < size then size else |kSpace|
    ensures ks[..|kSpace|] == kSpace
  {
    ks := kSpace;
    while |ks| < size
      invariant |kSpace| <= |ks| && AllDim(ks, |ks|, d)
      invariant |ks| == |kSpace| || |ks| <= size
      invariant ks[..|kSpace|] == kSpace
      decreases size - |ks|
    {
      ks := ks + [Zero(d)];
    }
  }

  /**
   * `r = ritz[i][0] v_nl; r += ritz[i][j] v_{nl+j}` for j = 1 .. dim-1: the
   * Ritz vector with coefficient column `c`.
   */
  method RitzCombination(ks: seq<Vec>, c: seq<real>, nl: nat, dim: nat, d: nat) returns (acc: Vec)
    requires 1 <= dim <= |c| && nl + dim <= |ks| && AllDim(ks, |ks|, d)
    ensures acc == RitzVector(c, ks, nl, dim, d)
  {
    acc := Scale(c[0], ks[nl]);
    FirstTerm(c, Unlocked(ks, nl, dim), d);
    var j := 1;
    while j < dim
      invariant 1 <= j <= dim
      invariant acc == Combine(c, Unlocked(ks, nl, dim), j, d)
    {
      acc := Axpy(c[j], ks[nl + j], acc);
      j := j + 1;
    }
  }

  /** The first loop: Ritz vector i is written into scratch slot nKr + 1 + i. */
  method BuildKept(ks0: seq<Vec>, ritz: Arrow.Matrix, nKr: nat, nl: nat, iterKeep: nat, d: nat)
    returns (ks: seq<Vec>)
    requires nl < nKr && nKr + 1 + iterKeep <= |ks0| && AllDim(ks0, |ks0|, d)
    requires Arrow.IsSquare(ritz, nKr - nl) && iterKeep <= nKr - nl
    ensures |ks| == |ks0| && AllDim(ks, |ks|, d)
    ensures forall l :: 0 <= l <= nKr ==> ks[l] == ks0[l]
    ensures forall l :: 0 <= l < iterKeep ==> ks[nKr + 1 + l] == RitzVector(ritz[l], ks0, nl, nKr - nl, d)
    ensures forall l :: nKr + 1 + iterKeep <= l < |ks0| ==> ks[l] == ks0[l]
  {
    var offset := nKr + 1;
    var dim := nKr - nl;
    ks := ks0;
    var i := 0;
    while i < iterKeep
      invariant 0 <= i <= iterKeep && |ks| == |ks0| && AllDim(ks, |ks|, d)
      invariant forall l :: 0 <= l <= nKr ==> ks[l] == ks0[l]
      invariant forall l :: 0 <= l < i ==> ks[offset + l] == RitzVector(ritz[l], ks0, nl, dim, d)
      invariant forall l :: offset + i <= l < |ks0| ==> ks[l] == ks0[l]
    {
      var acc := RitzCombination(ks, ritz[i], nl, dim, d);
      assert Unlocked(ks, nl, dim) == Unlocked(ks0, nl, dim);
      ks := ks[offset + i := acc];
      i := i + 1;
    }
  }

  /** The second loop and the move of v_nKr: copy the scratch slots back over v_nl ... */
  method CopyBack(ks0: seq<Vec>, nKr: nat, nl: nat, iterKeep: nat, d: nat) returns (ks: seq<Vec>)
    requires nl + iterKeep <= nKr && nKr + 1 + iterKeep <= |ks0| && AllDim(ks0, |ks0|, d)
    ensures |ks| == |ks0| && AllDim(ks, |ks|, d)
    ensures forall l :: 0 <= l < nl ==> ks[l] == ks0[l]
    ensures forall l :: nl <= l < nl + iterKeep ==> ks[l] == ks0[l - nl + nKr + 1]
    ensures ks[nl + iterKeep] == ks0[nKr]
    ensures forall l :: nl + iterKeep < l < |ks0| ==> ks[l] == ks0[l]
  {
    ks := ks0;
    var i := 0;
    while i < iterKeep
      invariant 0 <= i <= iterKeep && |ks| == |ks0| && AllDim(ks, |ks|, d)
      invariant forall l :: 0 <= l < |ks0| && !(nl <= l < nl + i) ==> ks[l] == ks0[l]
      invariant forall l :: nl <= l < nl + i ==> ks[l] == ks0[l - nl + nKr + 1]
    {
      ks := ks[i + nl := ks[nKr + 1 + i]];
      i := i + 1;
    }
    ks := ks[nl + iterKeep := ks[nKr]];
  }

  /** The last loop: beta[nl+i] = beta[nKr-1] * ritz_mat[dim*(i+1) - 1]. */
  method RestartBetas(beta: seq<real>, ritz: Arrow.Matrix, nl: nat, iterKeep: nat) returns (b: seq<real>)
    requires nl < |beta| && Arrow.IsSquare(ritz, |beta| - nl) && iterKeep <= |beta| - nl
    ensures |b| == |beta|
    ensures forall i :: 0 <= i < iterKeep ==> b[nl + i] == beta[|beta| - 1] * ritz[i][|beta| - nl - 1]
    ensures forall k :: 0 <= k < |beta| && !(nl <= k < nl + iterKeep) ==> b[k] == beta[k]
  {
    var nKr := |beta|;
    var dim := nKr - nl;
    b := beta;
    var i := 0;
    while i < iterKeep
      invariant 0 <= i <= iterKeep && |b| == nKr
      invariant forall l :: 0 <= l < i ==> b[nl + l] == beta[nKr - 1] * ritz[l][dim - 1]
      invariant forall l :: 0 <= l < nKr && !(nl <= l < nl + i) ==> b[l] == beta[l]
    {
      b := b[i + nl := b[nKr - 1] * ritz[i][dim - 1]];
      i := i + 1;
    }
  }

  /**
   * computeKeptRitz(kSpace). `kSpace` holds at least nKr + 1 vectors and
   * `ritz` the dim eigenvectors of the arrow matrix as columns. The scratch
   * slots nKr + 1 .. nKr + iter_keep keep the Ritz vectors built there;
   * every slot past them is left as it was.
   */
  method ComputeKeptRitz(kSpace: seq<Vec>, beta: seq<real>, ritz: Arrow.Matrix, nl: nat, iterKeep: nat, d: nat)
    returns (kSpace': seq<Vec>, beta': seq<real>)
    requires nl < |beta| < |kSpace| && AllDim(kSpace, |kSpace|, d)
    requires Arrow.IsSquare(ritz, |beta| - nl) && iterKeep <= |beta| - nl
    ensures AllDim(kSpace', |kSpace'|, d)
    ensures |kSpace'| == if |kSpace| < |beta| + 1 + iterKeep then |beta| + 1 + iterKeep else |kSpace|
    ensures forall k :: 0 <= k < nl ==> kSpace'[k] == kSpace[k]
    ensures forall i :: 0 <= i < iterKeep ==>
      kSpace'[nl + i] == RitzVector(ritz[i], kSpace, nl, |beta| - nl, d)
    ensures kSpace'[nl + iterKeep] == kSpace[|beta|]
    ensures forall k :: nl + iterKeep < k <= |beta| ==> kSpace'[k] == kSpace[k]
    ensures forall i :: 0 <= i < iterKeep ==>
      kSpace'[|beta| + 1 + i] == RitzVector(ritz[i], kSpace, nl, |beta| - nl, d)
    ensures forall k :: |beta| + iterKeep < k < |kSpace| ==> kSpace'[k] == kSpace[k]
    ensures |beta'| == |beta|
    ensures forall i :: 0 <= i < iterKeep ==>
      beta'[nl + i] == beta[|beta| - 1] * ritz[i][|beta| - nl - 1]
    ensures forall k :: 0 <= k < |beta| && !(nl <= k < nl + iterKeep) ==> beta'[k] == beta[k]
  {
    kSpace' := RotateBasis(kSpace, ritz, |beta|, nl, iterKeep, d);
    beta' := RestartBetas(beta, ritz, nl, iterKeep);
  }

  /** The three basis loops of computeKeptRitz: grow, build the Ritz vectors in scratch, copy them back. */
  method RotateBasis(kSpace: seq<Vec>, ritz: Arrow.Matrix, nKr: nat, nl: nat, iterKeep: nat, d: nat)
    returns (kSpace': seq<Vec>)
    requires nl < nKr < |kSpace| && AllDim(kSpace, |kSpace|, d)
    requires Arrow.IsSquare(ritz, nKr - nl) && iterKeep <= nKr - nl
    ensures AllDim(kSpace', |kSpace'|, d)
    ensures |kSpace'| == if |kSpace| < nKr + 1 + iterKeep then nKr + 1 + iterKeep else |kSpace|
    ensures forall k :: 0 <= k < nl ==> kSpace'[k] == kSpace[k]
    ensures forall i :: 0 <= i < iterKeep ==> kSpace'[nl + i] == RitzVector(ritz[i], kSpace, nl, nKr - nl, d)
    ensures kSpace'[nl + iterKeep] == kSpace[nKr]
    ensures forall k :: nl + iterKeep < k <= nKr ==> kSpace'[k] == kSpace[k]
    ensures forall i :: 0 <= i < iterKeep ==> kSpace'[nKr + 1 + i] == RitzVector(ritz[i], kSpace, nl, nKr - nl, d)
    ensures forall k :: nKr + iterKeep < k < |kSpace| ==> kSpace'[k] == kSpace[k]
  {
    var dim := nKr - nl;
    var ks := GrowTo(kSpace, nKr + 1 + iterKeep, d);
    assert forall l :: 0 <= l < |kSpace| ==> ks[l] == ks[..|kSpace|][l];
    assert Unlocked(ks, nl, dim) == Unlocked(kSpace, nl, dim);
    var built := BuildKept(ks, ritz, nKr, nl, iterKeep, d);
    kSpace' := CopyBack(built, nKr, nl, iterKeep, d);
    forall i | 0 <= i < iterKeep
      ensures kSpace'[nl + i] == RitzVector(ritz[i], kSpace, nl, dim, d)
    {
      assert kSpace'[nl + i] == built[nKr + 1 + i];
    }
    forall i | 0 <= i < iterKeep
      ensures kSpace'[nKr + 1 + i] == RitzVector(ritz[i], kSpace, nl, dim, d)
    {
      assert kSpace'[nKr + 1 + i] == built[nKr + 1 + i];
    }
    forall k | nKr + iterKeep < k < |kSpace|
      ensures kSpace'[k] == kSpace[k]
    {
      assert ks[k] == ks[..|kSpace|][k];
    }
  }

  /**
   * Rotating an orthonormal basis: the inner product of two combinations
   * is the Euclidean inner product of their coefficient columns. So when
   * the basis and the eigenvector columns are orthonormal, so are the kept
   * Ritz vectors.
   */
  lemma CombinationsInnerProduct(a: seq<real>, b: seq<real>, vs: seq<Vec>, n: nat, d: nat)
    requires |a| == |b| == n && AllDim(vs, n, d) && Orthonormal(vs, 0, n)
    ensures Dot(Combine(a, vs, n, d), Combine(b, vs, n, d)) == Dot(a, b)
  {
    var u := Combine(a, vs, n, d);
    var t := seq(n, j requires 0 <= j < n => Dot(u, vs[j]));
    forall j | 0 <= j < n
      ensures t[j] == a[j]
    {
      var tj := seq(n, l requires 0 <= l < n => Dot(vs[j], vs[l]));
      DotCombine(vs[j], a, vs, n, tj);
      WeightedSumPick(a, tj, n, j);
      DotSymmetric(u, vs[j]);
    }
    DotSymmetric(u, Combine(b, vs, n, d));
    DotCombine(u, b, vs, n, t);
    assert t == a;
    DotSymmetric(b, a);
  }

  /** The last Lanczos vector, moved behind the kept block, is orthogonal to every kept Ritz vector. */
  lemma ResidualVectorOrthogonalToKept(c: seq<real>, kSpace: seq<Vec>, nl: nat, dim: nat, d: nat)
    requires nl + dim < |kSpace| && dim <= |c| && AllDim(kSpace, |kSpace|, d)
    requires Orthonormal(kSpace, 0, nl + dim + 1)
    ensures Dot(kSpace[nl + dim], RitzVector(c, kSpace, nl, dim, d)) == 0.0
  {
    var vs := Unlocked(kSpace, nl, dim);
    var t := seq(dim, j requires 0 <= j < dim => Dot(kSpace[nl + dim], vs[j]));
    DotCombine(kSpace[nl + dim], c, vs, dim, t);
    WeightedSumZero(c, t, dim);
  }
}

=== FILE: lanczos.dfy ===
/**
 * `TRLM::lanczosStep`: one step of the thick-restarted Lanczos recurrence.
 * It applies the (possibly Chebyshev accelerated) operator to v_j, takes the
 * diagonal entry alpha_j, removes the three-term (or, inside the restart
 * window, the arrow) contributions, re-orthogonalises against v_0 .. v_j in
 * one block, and normalises the remainder into v_{j+1}.
 *
 * The operator `op` stands for `chebyOp(mat, ., .)` and `norm` for
 * `sqrt(blas::norm2(.))`; both are foreign kernels and are parameters here.
 */
module Lanczos {
  import opened Vectors
  import opened Outcomes
  import Orthogonalize

  /** The arrays of the thick-restart iteration: the arrow/tridiagonal entries and the Krylov basis. */
  datatype LanczosState = LanczosState(alpha: seq<real>, beta: seq<real>, kSpace: seq<Vec>)

  /** beta_j = 0: the source would divide by zero when normalising v_{j+1}. */
  datatype LanczosError = Breakdown(step: nat)

  /** `nKr` arrow entries, at least `nKr + 1` basis vectors, all of dimension `d`. */
  predicate WellShaped(s: LanczosState, d: nat)
  {
    && |s.alpha| == |s.beta|
    && |s.kSpace| > |s.alpha|
    && AllDim(s.kSpace, |s.kSpace|, d)
  }

  /** The norm kernel is a norm: non-negative with square equal to the inner product. */
  ghost predicate IsNorm(norm: Vec -> real)
  {
    forall x: Vec :: norm(x) >= 0.0 && norm(x) * norm(x) == Dot(x, x)
  }

  /**
   * The first basis vector whose beta-term is subtracted at step j. Past the
   * kept vectors only v_{j-1} is (the tridiagonal part); within them every
   * earlier vector is, because the kept block couples to v_j through the
   * arrow column.
   */
  function WindowStart(j: nat, numKeep: nat): (start: nat)
    ensures start <= j
    ensures j > numKeep ==> start + 1 == j
    ensures j <= numKeep ==> start == 0
  {
    if j > numKeep then j - 1 else 0
  }

  /** r - beta_lo v_lo - ... - beta_{hi-1} v_{hi-1}, applied in increasing order. */
  function SubtractWindow(r: Vec, beta: seq<real>, vs: seq<Vec>, lo: nat, hi: nat): (res: Vec)
    requires hi <= |beta| && AllDim(vs, hi, |r|)
    ensures |res| == |r|
    decreases hi
  {
    if hi <= lo then r else Axpy(-beta[hi - 1], vs[hi - 1], SubtractWindow(r, beta, vs, lo, hi - 1))
  }

  /** The vector `r` of step j just before `beta[j] = ||r||`. */
  function Residual(op: Vec -> Vec, s: LanczosState, j: nat, numKeep: nat, d: nat): (r: Vec)
    requires PreservesDim(op) && WellShaped(s, d) && j < |s.alpha|
    ensures |r| == d
  {
    var v := s.kSpace;
    var w := op(v[j]);
    var a := Dot(v[j], w);
    var w1 := Axpy(-a, v[j], w);
    var w2 := SubtractWindow(w1, s.beta, v, WindowStart(j, numKeep), j);
    if j > 0 then Orthogonalize.BlockOrthogonalize(v, w2, j).0 else w2
  }

  /** Against an orthonormal v_0 .. v_j the residual of step j is orthogonal to all of them. */
  lemma ResidualOrthogonal(op: Vec -> Vec, s: LanczosState, j: nat, numKeep: nat, d: nat)
    requires PreservesDim(op) && WellShaped(s, d) && j < |s.alpha|
    requires Orthonormal(s.kSpace, 0, j + 1)
    ensures forall k :: 0 <= k <= j ==> Dot(s.kSpace[k], Residual(op, s, j, numKeep, d)) == 0.0
  {
    var v := s.kSpace;
    var w := op(v[j]);
    var a := Dot(v[j], w);
    var w1 := Axpy(-a, v[j], w);
    var w2 := SubtractWindow(w1, s.beta, v, WindowStart(j, numKeep), j);
    if j > 0 {
      Orthogonalize.BlockProjectionOrthogonal(v, w2, j + 1);
    } else {
      assert w2 == w1;
      DotAxpyRight(v[0], -a, v[0], w);
      assert Dot(v[0], v[0]) == 1.0;
    }
  }

  /**
   * lanczosStep(v, j): alpha[j], beta[j] and v[j+1] are written, nothing
   * else; beta[j] is the norm of the residual and v[j+1] the residual divided
   * by it.
   */
  function LanczosStep(op: Vec -> Vec, norm: Vec -> real, s: LanczosState, j: nat, numKeep: nat, d: nat)
    : (r: Result<LanczosState, LanczosError>)
    requires PreservesDim(op) && WellShaped(s, d) && j < |s.alpha|
    ensures r.Failure? <==> norm(Residual(op, s, j, numKeep, d)) == 0.0
    ensures r.Failure? ==> r.error == Breakdown(j)
    ensures r.Success? ==>
      && WellShaped(r.value, d)
      && r.value.alpha == s.alpha[j := Dot(s.kSpace[j], op(s.kSpace[j]))]
      && r.value.beta == s.beta[j := norm(Residual(op, s, j, numKeep, d))]
      && |r.value.kSpace| == |s.kSpace|
      && (forall i :: 0 <= i < |s.kSpace| && i != j + 1 ==> r.value.kSpace[i] == s.kSpace[i])
      && Scale(r.value.beta[j], r.value.kSpace[j + 1]) == Residual(op, s, j, numKeep, d)
  {
    var res := Residual(op, s, j, numKeep, d);
    var b := norm(res);
    if b == 0.0 then Failure(Breakdown(j))
    else
      var next := Normalized(res, b);
      Success(LanczosState(
        s.alpha[j := Dot(s.kSpace[j], op(s.kSpace[j]))],
        s.beta[j := b],
        s.kSpace[j + 1 := next]))
  }

  /** `blas::zero(v[j+1]); blas::axpy(1.0 / beta[j], r, v[j+1])`: the residual divided by its norm. */
  function Normalized(res: Vec, b: real): (next: Vec)
    requires b != 0.0
    ensures |next| == |res| && Scale(b, next) == res
  {
    var next := Axpy(1.0 / b, res, Zero(|res|));
    ScaleInverse(b, res, next);
    next
  }

  lemma ScaleInverse(b: real, res: Vec, next: Vec)
    requires b != 0.0
    requires |next| == |res| && forall i :: 0 <= i < |res| ==> next[i] == 0.0 + (1.0 / b) * res[i]
    ensures Scale(b, next) == res
  {
    forall i | 0 <= i < |res|
      ensures Scale(b, next)[i] == res[i]
    {
      MulInverse(b, res[i]);
    }
  }

  lemma MulInverse(b: real, x: real)
    requires b != 0.0
    ensures b * (0.0 + (1.0 / b) * x) == x
  {
    assert b * (1.0 / b) == 1.0;
  }

  /**
   * Under exact arithmetic a successful step extends an orthonormal basis
   * v_0 .. v_j by one orthonormal vector v_{j+1}.
   */
  lemma {:induction false} LanczosStepKeepsOrthonormal(op: Vec -> Vec, norm: Vec -> real, s: LanczosState, j: nat, numKeep: nat, d: nat)
    requires PreservesDim(op) && IsNorm(norm) && WellShaped(s, d) && j < |s.alpha|
    requires Orthonormal(s.kSpace, 0, j + 1)
    requires LanczosStep(op, norm, s, j, numKeep, d).Success?
    ensures Orthonormal(LanczosStep(op, norm, s, j, numKeep, d).value.kSpace, 0, j + 2)
  {
    var res := Residual(op, s, j, numKeep, d);
    var b := norm(res);
    var v' := LanczosStep(op, norm, s, j, numKeep, d).value.kSpace;
    var w := v'[j + 1];
    ResidualOrthogonal(op, s, j, numKeep, d);
    NextUnit(w, res, b);
    forall k | 0 <= k <= j
      ensures v'[k] == s.kSpace[k] && Dot(v'[k], w) == 0.0 && Dot(w, v'[k]) == 0.0
    {
      NextOrthogonal(v'[k], w, res, b);
    }
    forall i, k | 0 <= i < j + 2 && 0 <= k < j + 2
      ensures |v'[i]| == |v'[k]| && Dot(v'[i], v'[k]) == if i == k then 1.0 else 0.0
    {
      if i <= j && k <= j {
        assert v'[i] == s.kSpace[i] && v'[k] == s.kSpace[k];
      }
    }
  }

  /** b w = res with res orthogonal to v makes w orthogonal to v, from both sides. */
  lemma NextOrthogonal(v: Vec, w: Vec, res: Vec, b: real)
    requires b != 0.0 && |v| == |w| && Scale(b, w) == res && Dot(v, res) == 0.0
    ensures Dot(v, w) == 0.0 && Dot(w, v) == 0.0
  {
    DotScaleRight(v, b, w);
    assert b * Dot(v, w) == 0.0;
    DotSymmetric(v, w);
  }

  /** b w = res with b the norm of res makes w a unit vector. */
  lemma NextUnit(w: Vec, res: Vec, b: real)
    requires b != 0.0 && Scale(b, w) == res && Dot(res, res) == b * b
    ensures Dot(w, w) == 1.0
  {
    var x, y, d := ScaledDots(w, res, b);
    UnitFromScaled(b, x, y, d);
  }

  /** With b x = d, b y = x and b b = d for a non-zero b: y = 1. */
  lemma UnitFromScaled(b: real, x: real, y: real, d: real)
    requires b != 0.0 && b * x == d && b * y == x && b * b == d
    ensures y == 1.0
  {
    Cancel(b, x, b, d);
    Cancel(b, y, 1.0, x);
  }

  /** The three inner products of w and res = b w, returned as plain numbers. */
  lemma ScaledDots(w: Vec, res: Vec, b: real) returns (x: real, y: real, d: real)
    requires Scale(b, w) == res
    ensures x == Dot(w, res) && y == Dot(w, w) && d == Dot(res, res)
    ensures b * x == d && b * y == x
  {
    x, y, d := Dot(w, res), Dot(w, w), Dot(res, res);
    DotScaleRight(w, b, w);
    DotScaleLeft(b, w, res);
  }

  /** Cancelling a non-zero factor, stated against a common value so that no two products are equated directly. */
  lemma Cancel(b: real, x: real, z: real, d: real)
    requires b != 0.0 && b * x == d && b * z == d
    ensures x == z
  {
    assert b * (x - z) == 0.0;
  }

  /**
   * `for (step = from; step < to; step++) lanczosStep(kSpace, step)`: the
   * initial factorisation (0 .. nEv) and the extension after each restart
   * (num_keep .. nKr). On success, the basis is orthonormal up to v_to and
   * only the entries of the steps taken were rewritten.
   */
  method Extend(op: Vec -> Vec, norm: Vec -> real, s: LanczosState, from: nat, to: nat, numKeep: nat, d: nat)
    returns (r: Result<LanczosState, LanczosError>)
    requires PreservesDim(op) && WellShaped(s, d) && from <= to <= |s.alpha|
    ensures r.Success? ==> WellShaped(r.value, d) && |r.value.alpha| == |s.alpha| && |r.value.kSpace| == |s.kSpace|
    ensures r.Success? ==> forall i :: 0 <= i < |s.alpha| && !(from <= i < to) ==>
      r.value.alpha[i] == s.alpha[i] && r.value.beta[i] == s.beta[i]
    ensures r.Success? ==> forall i :: 0 <= i <= from ==> r.value.kSpace[i] == s.kSpace[i]
    ensures r.Success? ==> forall i :: to < i < |s.kSpace| ==> r.value.kSpace[i] == s.kSpace[i]
    ensures r.Failure? ==> from <= r.error.step < to
    ensures r.Success? && IsNorm(norm) && Orthonormal(s.kSpace, 0, from + 1) ==> Orthonormal(r.value.kSpace, 0, to + 1)
  {
    var cur := s;
    var step := from;
    while step < to
      invariant from <= step <= to
      invariant WellShaped(cur, d) && |cur.alpha| == |s.alpha| && |cur.kSpace| == |s.kSpace|
      invariant forall i :: 0 <= i < |s.alpha| && !(from <= i < step) ==>
        cur.alpha[i] == s.alpha[i] && cur.beta[i] == s.beta[i]
      invariant forall i :: 0 <= i <= from ==> cur.kSpace[i] == s.kSpace[i]
      invariant forall i :: step < i < |s.kSpace| ==> cur.kSpace[i] == s.kSpace[i]
      invariant IsNorm(norm) && Orthonormal(s.kSpace, 0, from + 1) ==> Orthonormal(cur.kSpace, 0, step + 1)
    {
      var next := LanczosStep(op, norm, cur, step, numKeep, d);
      if next.Failure? {
        r := Failure(next.error);
        return;
      }
      if IsNorm(norm) && Orthonormal(s.kSpace, 0, from + 1) {
        LanczosStepKeepsOrthonormal(op, norm, cur, step, numKeep, d);
      }
      cur := next.value;
      step := step + 1;
    }
    r := Success(cur);
  }
}

=== FILE: orthogonalize.dfy ===
/**
 * Gram-Schmidt steps of the eigensolver: `orthogonalize` removes from a
 * vector, one after the other, its components along the first `j` basis
 * vectors (modified Gram-Schmidt); `blockOrthogonalize` takes all `j + 1`
 * inner products against the original vector first and subtracts them in
 * one block update (classical Gram-Schmidt). Both return the sum of the
 * inner products they removed.
 */
module Orthogonalize {
  import opened Vectors

  /** The inner products of the first `n` basis vectors with `r` (blas::cDotProduct, block form). */
  function BlockDots(vecs: seq<Vec>, r: Vec, n: nat): (s: seq<real>)
    requires AllDim(vecs, n, |r|)
    ensures |s| == n
    ensures forall i :: 0 <= i < n ==> s[i] == Dot(vecs[i], r)
  {
    seq(n, i requires 0 <= i < n => Dot(vecs[i], r))
  }

  /** r minus the combination of `vecs[0..n)` with coefficients `c`. */
  function Project(c: seq<real>, vecs: seq<Vec>, r: Vec, n: nat): (rr: Vec)
    requires n <= |c| && AllDim(vecs, n, |r|)
    ensures |rr| == |r|
  {
    Sub(r, Combine(c, vecs, n, |r|))
  }

  /**
   * `blockOrthogonalize(vecs, rvec, j)`: the block inner products against
   * v_0 .. v_j, then `r += (-s) V`; returns the new vector and the sum of the
   * inner products <v_i, r> it removed. What it removed is a combination of
   * v_0 .. v_j; against an orthonormal v_0 .. v_j the new vector is
   * orthogonal to each of them.
   */
  function BlockOrthogonalize(vecs: seq<Vec>, r: Vec, j: nat): (res: (Vec, real))
    requires AllDim(vecs, j + 1, |r|)
    ensures |res.0| == |r|
    ensures res.1 == SumTo(BlockDots(vecs, r, j + 1), j + 1)
    ensures Orthonormal(vecs, 0, j + 1) ==> forall k :: 0 <= k <= j ==> Dot(vecs[k], res.0) == 0.0
    ensures (forall k :: 0 <= k <= j ==> Dot(vecs[k], r) == 0.0) ==> res.0 == r
    ensures exists c :: |c| == j + 1 && res.0 == Project(c, vecs, r, j + 1)
  {
    var s := BlockDots(vecs, r, j + 1);
    BlockProjectionOrthogonal(vecs, r, j + 1);
    BlockProjectionIdle(vecs, r, j + 1);
    (Project(s, vecs, r, j + 1), SumTo(s, j + 1))
  }

  /** Against an orthonormal v_0 .. v_{n-1}, removing the block inner products leaves a vector orthogonal to all of them. */
  lemma BlockProjectionOrthogonal(vecs: seq<Vec>, r: Vec, n: nat)
    requires AllDim(vecs, n, |r|)
    ensures Orthonormal(vecs, 0, n) ==>
      forall k :: 0 <= k < n ==> Dot(vecs[k], Project(BlockDots(vecs, r, n), vecs, r, n)) == 0.0
  {
    var s := BlockDots(vecs, r, n);
    if Orthonormal(vecs, 0, n) {
      forall k | 0 <= k < n
        ensures Dot(vecs[k], Project(s, vecs, r, n)) == 0.0
      {
        ProjectRemovesComponent(s, vecs, r, n, k);
      }
    }
  }

  /** A vector already orthogonal to v_0 .. v_{n-1} is left as it is. */
  lemma BlockProjectionIdle(vecs: seq<Vec>, r: Vec, n: nat)
    requires AllDim(vecs, n, |r|)
    ensures (forall k :: 0 <= k < n ==> Dot(vecs[k], r) == 0.0) ==> Project(BlockDots(vecs, r, n), vecs, r, n) == r
  {
    if forall k :: 0 <= k < n ==> Dot(vecs[k], r) == 0.0 {
      CombineZeroCoefficients(BlockDots(vecs, r, n), vecs, n, |r|);
      assert Sub(r, Zero(|r|)) == r;
    }
  }

  /** A combination depends only on the first `n` coefficients. */
  lemma {:induction false} CombinePrefix(c1: seq<real>, c2: seq<real>, vs: seq<Vec>, n: nat, d: nat)
    requires n <= |c1| && n <= |c2| && AllDim(vs, n, d)
    requires c1[..n] == c2[..n]
    ensures Combine(c1, vs, n, d) == Combine(c2, vs, n, d)
    decreases n
  {
    if n > 0 {
      assert c1[..n - 1] == c1[..n][..n - 1];
      assert c2[..n - 1] == c2[..n][..n - 1];
      assert c1[n - 1] == c1[..n][n - 1];
      assert c2[n - 1] == c2[..n][n - 1];
      CombinePrefix(c1, c2, vs, n - 1, d);
    }
  }

  /**
   * Against an orthonormal family, subtracting the combination with
   * coefficients `<v_i, r>` leaves no component along any v_k, k < n.
   */
  lemma ProjectRemovesComponent(c: seq<real>, vecs: seq<Vec>, r: Vec, n: nat, k: nat)
    requires n <= |c| && AllDim(vecs, n, |r|)
    requires Orthonormal(vecs, 0, n) && k < n
    requires c[k] == Dot(vecs[k], r)
    ensures Dot(vecs[k], Project(c, vecs, r, n)) == 0.0
  {
    var t := seq(n, i requires 0 <= i < n => Dot(vecs[k], vecs[i]));
    DotCombine(vecs[k], c, vecs, n, t);
    WeightedSumPick(c, t, n, k);
    DotSubRight(vecs[k], r, Combine(c, vecs, n, |r|));
  }

  /** Subtracting one more term extends the projection by one basis vector. */
  lemma ProjectStep(c: seq<real>, vecs: seq<Vec>, r: Vec, i: nat)
    requires i < |c| && AllDim(vecs, i + 1, |r|)
    ensures Project(c, vecs, r, i + 1) == Axpy(-c[i], vecs[i], Project(c, vecs, r, i))
  {
    var l := Project(c, vecs, r, i + 1);
    var rr := Axpy(-c[i], vecs[i], Project(c, vecs, r, i));
    assert forall m :: 0 <= m < |r| ==> l[m] == rr[m];
  }

  /**
   * `orthogonalize(vecs, rvec, j)`: for i < j, s = <v_i, r>, sum += s,
   * r -= s v_i. Each coefficient is taken against the vector as already
   * updated; against an orthonormal family they are the plain inner products
   * with the original vector, so the two Gram-Schmidt variants agree.
   */
  method Orthogonalize(vecs: seq<Vec>, r: Vec, j: nat) returns (rr: Vec, sum: real, ghost coeffs: seq<real>)
    requires AllDim(vecs, j, |r|)
    ensures |coeffs| == j && |rr| == |r|
    ensures rr == Project(coeffs, vecs, r, j)
    ensures sum == SumTo(coeffs, j)
    ensures forall i :: 0 <= i < j ==> coeffs[i] == Dot(vecs[i], Project(coeffs, vecs, r, i))
    ensures Orthonormal(vecs, 0, j) ==> coeffs == BlockDots(vecs, r, j)
    ensures Orthonormal(vecs, 0, j) ==> forall k :: 0 <= k < j ==> Dot(vecs[k], rr) == 0.0
  {
    rr := r;
    sum := 0.0;
    coeffs := [];
    var i := 0;
    while i < j
      invariant 0 <= i <= j
      invariant |coeffs| == i && |rr| == |r|
      invariant rr == Project(coeffs, vecs, r, i)
      invariant sum == SumTo(coeffs, i)
      invariant forall l :: 0 <= l < i ==> coeffs[l] == Dot(vecs[l], Project(coeffs, vecs, r, l))
      invariant Orthonormal(vecs, 0, j) ==> forall l :: 0 <= l < i ==> coeffs[l] == Dot(vecs[l], r)
    {
      var s := Dot(vecs[i], rr);
      var next := Axpy(-s, vecs[i], rr);
      OrthogonalizeStep(vecs, r, j, i, coeffs, rr, s, next);
      SequentialStep(vecs, r, i, coeffs, s);
      sum := sum + s;
      rr := next;
      coeffs := coeffs + [s];
      i := i + 1;
    }
    if Orthonormal(vecs, 0, j) {
      forall k | 0 <= k < j
        ensures Dot(vecs[k], rr) == 0.0
      {
        ProjectRemovesComponent(coeffs, vecs, r, j, k);
      }
    }
  }

  /** One pass of the loop keeps its invariant. */
  lemma OrthogonalizeStep(vecs: seq<Vec>, r: Vec, j: nat, i: nat, coeffs: seq<real>, rr: Vec, s: real, next: Vec)
    requires i < j && AllDim(vecs, j, |r|) && |coeffs| == i && rr == Project(coeffs, vecs, r, i)
    requires Orthonormal(vecs, 0, j) ==> forall l :: 0 <= l < i ==> coeffs[l] == Dot(vecs[l], r)
    requires s == Dot(vecs[i], rr) && next == Axpy(-s, vecs[i], rr)
    ensures |next| == |r| && next == Project(coeffs + [s], vecs, r, i + 1)
    ensures SumTo(coeffs + [s], i + 1) == SumTo(coeffs, i) + s
    ensures Orthonormal(vecs, 0, j) ==> forall l :: 0 <= l < i + 1 ==> (coeffs + [s])[l] == Dot(vecs[l], r)
  {
    var c' := coeffs + [s];
    assert c'[..i] == coeffs;
    CombinePrefix(c', coeffs, vecs, i, |r|);
    ProjectStep(c', vecs, r, i);
    SumToPrefix(c', coeffs, i);
    if Orthonormal(vecs, 0, j) {
      OrthonormalPrefix(vecs, i + 1, j);
      EarlierComponentsVanish(coeffs, vecs, r, i);
    }
  }

  /**
   * Appending the coefficient taken against the current vector keeps every
   * coefficient equal to the inner product with the vector as it stood when
   * that coefficient was taken.
   */
  lemma SequentialStep(vecs: seq<Vec>, r: Vec, i: nat, coeffs: seq<real>, s: real)
    requires AllDim(vecs, i + 1, |r|) && |coeffs| == i
    requires forall l :: 0 <= l < i ==> coeffs[l] == Dot(vecs[l], Project(coeffs, vecs, r, l))
    requires s == Dot(vecs[i], Project(coeffs, vecs, r, i))
    ensures forall l :: 0 <= l < i + 1 ==> (coeffs + [s])[l] == Dot(vecs[l], Project(coeffs + [s], vecs, r, l))
  {
    var c' := coeffs + [s];
    forall l | 0 <= l < i + 1
      ensures c'[l] == Dot(vecs[l], Project(c', vecs, r, l))
    {
      assert c'[..l] == coeffs[..l];
      CombinePrefix(c', coeffs, vecs, l, |r|);
    }
  }

  lemma {:induction false} SumToPrefix(c1: seq<real>, c2: seq<real>, n: nat)
    requires n <= |c1| && n <= |c2| && c1[..n] == c2[..n]
    ensures SumTo(c1, n) == SumTo(c2, n)
    decreases n
  {
    if n > 0 {
      assert c1[n - 1] == c1[..n][n - 1];
      assert c2[n - 1] == c2[..n][n - 1];
      assert c1[..n - 1] == c1[..n][..n - 1];
      assert c2[..n - 1] == c2[..n][..n - 1];
      SumToPrefix(c1, c2, n - 1);
    }
  }

  lemma OrthonormalPrefix(vecs: seq<Vec>, n: nat, m: nat)
    requires n <= m <= |vecs| && Orthonormal(vecs, 0, m)
    ensures Orthonormal(vecs, 0, n)
  {
  }

  /**
   * Against orthonormal vectors the residual after i steps still has the
   * original component along v_i: the earlier subtractions are orthogonal to it.
   */
  lemma EarlierComponentsVanish(c: seq<real>, vecs: seq<Vec>, r: Vec, i: nat)
    requires i <= |c| && AllDim(vecs, i + 1, |r|)
    requires Orthonormal(vecs, 0, i + 1)
    ensures Dot(vecs[i], Project(c, vecs, r, i)) == Dot(vecs[i], r)
  {
    var t := seq(i, l requires 0 <= l < i => Dot(vecs[i], vecs[l]));
    DotCombine(vecs[i], c, vecs, i, t);
    WeightedSumZero(c, t, i);
    DotSubRight(vecs[i], r, Combine(c, vecs, i, |r|));
  }
}

=== FILE: outcomes.dfy ===
/**
 * Success/failure outcomes. The source reports a fatal error (errorQuda)
 * and aborts; the model returns a `Failure` carrying the error kind instead.
 */
module Outcomes {

  datatype Result<+T, +E> = Success(value: T) | Failure(error: E) {

    predicate IsFailure() {
      Failure?
    }

    function PropagateFailure<U>(): Result<U, E>
      requires Failure?
    {
      Failure(error)
    }

    function Extract(): T
      requires Success?
    {
      value
    }
  }
}

=== FILE: precision.dfy ===
/** The floating-point formats fields and solvers are stored in. */
module Precisions {
  datatype Precision = Double | Single | Half | Quarter | OtherPrecision
}

=== FILE: reorder.dfy ===
/**
 * `TRLM::reorder`: a gnome sort of the converged Ritz values `alpha[0..nKr)`
 * (descending under `reverse`, ascending otherwise) that is meant to carry
 * the Ritz vectors `kSpace` along with their values.
 *
 * As written, the value swap exchanges positions (i-1, i) and then
 * decrements i, while the vector swap uses the decremented index and so
 * exchanges (i-2, i-1): the vectors lag one place behind their values, and
 * a swap at i = 1 reads `kSpace[-1]`. `ReorderAsWritten` models that code;
 * `Reorder` swaps both arrays at the same positions.
 */
module Reorder {
  import opened Vectors
  import opened Outcomes

  datatype ReorderError = OutOfBounds(index: int)

  /** x may stay in front of y: descending order under `reverse`, ascending otherwise. */
  predicate Before(reverse: bool, x: real, y: real)
  {
    if reverse then x >= y else x <= y
  }

  predicate SortedRange(reverse: bool, a: seq<real>, lo: nat, hi: nat)
    requires hi <= |a|
  {
    forall k, l :: lo <= k < l < hi ==> Before(reverse, a[k], a[l])
  }

  /**
   * The gnome sort invariant on the values. `p` is the high-water mark: the
   * prefix below it holds only values already visited. Either that prefix
   * is sorted (walking forward), or the value at `i` is sinking through it:
   * the values before and after the gap are each sorted, everything before
   * the gap may precede everything after it, and the sinking value may
   * precede everything after it.
   */
  predicate GnomeInv(reverse: bool, a: seq<real>, i: nat, p: nat, sinking: bool)
  {
    && i <= p <= |a|
    && (!sinking ==> SortedRange(reverse, a, 0, p))
    && (sinking ==>
        && i < p
        && SortedRange(reverse, a, 0, i)
        && SortedRange(reverse, a, i + 1, p)
        && (forall k, l :: 0 <= k < i < l < p ==> Before(reverse, a[k], a[l]))
        && (forall l :: i < l < p ==> Before(reverse, a[i], a[l])))
  }

  /** Exchange positions `j` and `j + 1`. */
  function SwapAdjacent<T>(s: seq<T>, j: nat): (r: seq<T>)
    requires j + 1 < |s|
    ensures |r| == |s| && r[j] == s[j + 1] && r[j + 1] == s[j]
    ensures forall k :: 0 <= k < |s| && k != j && k != j + 1 ==> r[k] == s[k]
  {
    s[j := s[j + 1]][j + 1 := s[j]]
  }

  lemma SwapAdjacentPermutes<T>(s: seq<T>, j: nat)
    requires j + 1 < |s|
    ensures multiset(SwapAdjacent(s, j)) == multiset(s)
  {
  }

  /** The (value, vector) pairs of the first `n` positions. */
  function Pairs(a: seq<real>, ks: seq<Vec>, n: nat): (ps: seq<(real, Vec)>)
    requires n <= |a| && n <= |ks|
    ensures |ps| == n && forall k :: 0 <= k < n ==> ps[k] == (a[k], ks[k])
  {
    seq(n, k requires 0 <= k < n => (a[k], ks[k]))
  }

  /** Swapping both arrays at the same place permutes the pairs and leaves the vectors past |a| alone. */
  lemma SwapKeepsPairs(a: seq<real>, ks: seq<Vec>, j: nat)
    requires j + 1 < |a| <= |ks|
    ensures multiset(Pairs(SwapAdjacent(a, j), SwapAdjacent(ks, j), |a|)) == multiset(Pairs(a, ks, |a|))
    ensures SwapAdjacent(ks, j)[|a|..] == ks[|a|..]
  {
    assert Pairs(SwapAdjacent(a, j), SwapAdjacent(ks, j), |a|) == SwapAdjacent(Pairs(a, ks, |a|), j);
    SwapAdjacentPermutes(Pairs(a, ks, |a|), j);
  }

  /** The walk step past a value already in order keeps the invariant. */
  lemma WalkStep(reverse: bool, a: seq<real>, i: nat, p: nat, sinking: bool)
    requires GnomeInv(reverse, a, i, p, sinking) && i < |a|
    requires i == 0 || Before(reverse, a[i - 1], a[i])
    ensures GnomeInv(reverse, a, i + 1, if i == p then p + 1 else p, false)
  {
  }

  /** The swap step (values at i-1 and i exchanged, i decremented) keeps the invariant. */
  lemma SinkStep(reverse: bool, a: seq<real>, i: nat, p: nat, sinking: bool)
    requires GnomeInv(reverse, a, i, p, sinking) && 0 < i < |a|
    requires !Before(reverse, a[i - 1], a[i])
    ensures sinking || i == p
    ensures GnomeInv(reverse, SwapAdjacent(a, i - 1), i - 1, if sinking then p else p + 1, true)
  {
    var a' := SwapAdjacent(a, i - 1);
    var p' := if sinking then p else p + 1;
    assert forall l :: i - 1 < l < p' ==> Before(reverse, a'[i - 1], a'[l]);
  }

  /** The termination measure's second component: sinking steps rank above walking steps. */
  function Phase(n: nat, i: nat, p: nat, sinking: bool): nat
    requires i <= p
  {
    if sinking then n + 1 + i else p - i
  }

  /**
   * The corrected reorder: values and vectors are exchanged at the
   * same positions. The result is sorted and is a permutation of the
   * (value, vector) pairs; vectors past nKr are untouched.
   */
  function Reorder(reverse: bool, a: seq<real>, ks: seq<Vec>, i: nat, ghost p: nat, ghost sinking: bool)
    : (r: (seq<real>, seq<Vec>))
    requires |a| <= |ks| && GnomeInv(reverse, a, i, p, sinking)
    ensures |r.0| == |a| && |r.1| == |ks|
    ensures SortedRange(reverse, r.0, 0, |a|)
    ensures multiset(Pairs(r.0, r.1, |a|)) == multiset(Pairs(a, ks, |a|))
    ensures r.1[|a|..] == ks[|a|..]
    decreases |a| - p, Phase(|a|, i, p, sinking)
  {
    if i >= |a| then (a, ks)
    else if i == 0 || Before(reverse, a[i - 1], a[i]) then
      WalkStep(reverse, a, i, p, sinking);
      Reorder(reverse, a, ks, i + 1, if i == p then p + 1 else p, false)
    else
      SinkStep(reverse, a, i, p, sinking);
      var a', ks' := SwapAdjacent(a, i - 1), SwapAdjacent(ks, i - 1);
      SwapKeepsPairs(a, ks, i - 1);
      Reorder(reverse, a', ks', i - 1, if sinking then p else p + 1, true)
  }

  /** reorder(kSpace) on nKr = |alpha| values, corrected version. */
  function ReorderAll(reverse: bool, alpha: seq<real>, kSpace: seq<Vec>): (r: (seq<real>, seq<Vec>))
    requires |alpha| <= |kSpace|
    ensures |r.0| == |alpha| && |r.1| == |kSpace|
    ensures SortedRange(reverse, r.0, 0, |alpha|)
    ensures multiset(Pairs(r.0, r.1, |alpha|)) == multiset(Pairs(alpha, kSpace, |alpha|))
  {
    Reorder(reverse, alpha, kSpace, 0, 0, false)
  }

  /**
   * reorder as written: the value swap is the same, the vector swap is one
   * position lower; a swap at i = 1 addresses kSpace[-1].
   */
  function ReorderAsWritten(reverse: bool, a: seq<real>, ks: seq<Vec>, i: nat, ghost p: nat, ghost sinking: bool)
    : (r: Result<(seq<real>, seq<Vec>), ReorderError>)
    requires |a| <= |ks| && GnomeInv(reverse, a, i, p, sinking)
    ensures r.Success? ==> |r.value.0| == |a| && SortedRange(reverse, r.value.0, 0, |a|)
    ensures r.Failure? ==> r.error == OutOfBounds(-1)
    decreases |a| - p, Phase(|a|, i, p, sinking)
  {
    if i >= |a| then Success((a, ks))
    else if i == 0 || Before(reverse, a[i - 1], a[i]) then
      WalkStep(reverse, a, i, p, sinking);
      ReorderAsWritten(reverse, a, ks, i + 1, if i == p then p + 1 else p, false)
    else
      SinkStep(reverse, a, i, p, sinking);
      var a' := SwapAdjacent(a, i - 1);
      if i - 1 == 0 then Failure(OutOfBounds(-1))
      else ReorderAsWritten(reverse, a', SwapAdjacent(ks, i - 2), i - 1, if sinking then p else p + 1, true)
  }

  /** Under reverse, alpha = [1, 2] makes the very first swap read kSpace[-1]. */
  lemma ReorderAsWrittenReadsBeforeStart()
    ensures ReorderAsWritten(true, [1.0, 2.0], [[10.0], [20.0]], 0, 0, false) == Failure(OutOfBounds(-1))
  {
    assert GnomeInv(true, [2.0, 1.0], 0, 2, true);
  }

  /** The tail of the run on [3, 1, 2]: from the state after the single swap, both versions only walk. */
  lemma DescendingTailWalks(k: seq<Vec>)
    requires |k| == 3
    ensures ReorderAsWritten(true, [3.0, 2.0, 1.0], k, 1, 3, true) == Success(([3.0, 2.0, 1.0], k))
    ensures Reorder(true, [3.0, 2.0, 1.0], k, 1, 3, true) == ([3.0, 2.0, 1.0], k)
  {
    var a: seq<real> := [3.0, 2.0, 1.0];
    assert GnomeInv(true, a, 1, 3, true);
    assert GnomeInv(true, a, 2, 3, false);
    assert GnomeInv(true, a, 3, 3, false);
  }

  /** The head of the run on [3, 1, 2]: walk to i = 2, then swap the values at 1 and 2. */
  lemma SwapAtTwo()
    ensures SwapAdjacent([3.0, 1.0, 2.0], 1) == [3.0, 2.0, 1.0]
    ensures SwapAdjacent([[0.0], [1.0], [2.0]], 0) == [[1.0], [0.0], [2.0]]
    ensures SwapAdjacent([[0.0], [1.0], [2.0]], 1) == [[0.0], [2.0], [1.0]]
  {
  }

  lemma WalkToTwo()
    ensures GnomeInv(true, [3.0, 1.0, 2.0], 2, 2, false)
    ensures GnomeInv(true, [3.0, 1.0, 2.0], 1, 1, false)
  {
  }

  /**
   * Under reverse, alpha = [3, 1, 2] with vectors [v0, v1, v2] ends with
   * values [3, 2, 1] but vectors [v1, v0, v2]: value 3 is no longer paired
   * with its vector v0.
   */
  lemma ReorderAsWrittenBreaksPairing()
    ensures ReorderAsWritten(true, [3.0, 1.0, 2.0], [[0.0], [1.0], [2.0]], 0, 0, false)
         == Success(([3.0, 2.0, 1.0], [[1.0], [0.0], [2.0]]))
  {
    SwapAtTwo();
    WalkToTwo();
    DescendingTailWalks([[1.0], [0.0], [2.0]]);
  }

  /** The corrected reorder keeps each value with its vector on the same input. */
  lemma ReorderKeepsPairing()
    ensures ReorderAll(true, [3.0, 1.0, 2.0], [[0.0], [1.0], [2.0]])
         == ([3.0, 2.0, 1.0], [[0.0], [2.0], [1.0]])
  {
    SwapAtTwo();
    WalkToTwo();
    DescendingTailWalks([[0.0], [2.0], [1.0]]);
  }
}

=== FILE: restart.dfy ===
/**
 * The restart loop of `TRLM::operator()`: after each extension of the
 * Lanczos factorisation and the arrow-matrix eigensolve, the solver updates
 * a running matrix norm, scans the residua for newly locked and newly
 * converged Ritz pairs, chooses how many Ritz vectors to keep, and stops
 * when enough pairs have converged or the restart budget is spent.
 *
 * The numerics of one restart (Lanczos steps, arrow eigensolve, Ritz
 * recombination) are a parameter `observe`: given the counters, it yields
 * the Ritz values, residua and basis the counters are then updated from.
 */
module Restart {
  import opened Vectors
  import opened EigParams
  import Reorder
  import opened Precisions

  /** The counters of the restart loop, with `mat_norm`. */
  datatype RestartState = RestartState(
    numLocked: int,
    numConverged: int,
    numKeep: int,
    restartIter: nat,
    iter: int,
    converged: bool,
    matNorm: real)

  /** What one restart's numerics hand back: Ritz values, residual estimates and the basis. */
  datatype Observation = Observation(alpha: seq<real>, residua: seq<real>, kSpace: seq<Vec>)

  /**
   * The locking threshold per precision: DBL_EPSILON (2^-52) and FLT_EPSILON
   * (2^-23) for the IEEE formats, fixed values for the 16- and 8-bit formats,
   * DBL_EPSILON for anything else.
   */
  function Epsilon(p: Precision): (eps: real)
    ensures 0.0 < eps < 0.06
  {
    match p
    case Double => 0.0000000000000002220446049250313080847263336181640625
    case Single => 0.00000011920928955078125
    case Half => 0.002
    case Quarter => 0.05
    case OtherPrecision => 0.0000000000000002220446049250313080847263336181640625
  }

  /** Coarser formats lock at a larger threshold; an unrecognised precision keeps the double one. */
  lemma EpsilonOrdered()
    ensures Epsilon(Double) < Epsilon(Single) < Epsilon(Half) < Epsilon(Quarter)
    ensures Epsilon(OtherPrecision) == Epsilon(Double)
  {
  }

  /** Counters a restart may start from: locked and kept counts are positions inside the Krylov space. */
  predicate Valid(c: Common, st: RestartState)
  {
    && 0 <= st.numLocked < c.nKr
    && 0 <= st.numKeep < c.nKr
  }

  predicate Observed(c: Common, o: Observation)
  {
    |o.alpha| == c.nKr && |o.residua| == c.nKr && |o.kSpace| >= c.nKr
  }

  /**
   * `mat_norm` after `for (i = lo; i < hi; i++) if (|alpha[i]| > m) m = |alpha[i]|`:
   * the largest of m and the magnitudes in the range.
   */
  function RunningMax(m: real, alpha: seq<real>, lo: nat, hi: nat): (r: real)
    requires hi <= |alpha|
    ensures r >= m
    ensures forall i :: lo <= i < hi ==> r >= Abs(alpha[i])
    ensures r == m || exists i :: lo <= i < hi && r == Abs(alpha[i])
    decreases hi - lo
  {
    if lo >= hi then m
    else RunningMax(if Abs(alpha[lo]) > m then Abs(alpha[lo]) else m, alpha, lo + 1, hi)
  }

  /**
   * The locking and the convergence scan: starting after position `last`,
   * advance while `residua[nl + i] < bound` for i < dim; stop at the first
   * failure. The result is the last position that passed (or `last`).
   */
  function Scan(residua: seq<real>, nl: nat, dim: nat, last: nat, bound: real): (r: nat)
    requires nl + dim <= |residua| && last < dim
    ensures last <= r < dim
    ensures forall k :: nl + last < k <= nl + r ==> residua[k] < bound
    ensures r + 1 < dim ==> residua[nl + r + 1] >= bound
    decreases dim - last
  {
    if last + 1 < dim && residua[nl + last + 1] < bound then Scan(residua, nl, dim, last + 1, bound)
    else last
  }

  /** The scan result is the only position with both of its properties: it is the longest passing run. */
  lemma ScanIsLongestRun(residua: seq<real>, nl: nat, dim: nat, last: nat, bound: real, l: nat)
    requires nl + dim <= |residua| && last <= l < dim
    requires forall k :: nl + last < k <= nl + l ==> residua[k] < bound
    requires l + 1 < dim ==> residua[nl + l + 1] >= bound
    ensures l == Scan(residua, nl, dim, last, bound)
  {
  }

  /** C's `/` on int: truncation toward zero. */
  function CDiv(a: int, b: int): (q: int)
    requires b > 0
    ensures a >= 0 ==> q == a / b
    ensures a < 0 ==> q == -((-a) / b)
  {
    if a >= 0 then a / b else -((-a) / b)
  }

  /** `iter_keep = min(iter_converged + (nKr - num_converged)/2, nKr - num_locked - 12)`, as written. */
  function KeepAsWritten(nKr: int, numLocked: int, numConverged: int, iterConverged: int): (k: int)
    ensures k <= nKr - numLocked - 12
    ensures k <= iterConverged + CDiv(nKr - numConverged, 2)
    ensures k == nKr - numLocked - 12 || k == iterConverged + CDiv(nKr - numConverged, 2)
  {
    var half := iterConverged + CDiv(nKr - numConverged, 2);
    if half < nKr - numLocked - 12 then half else nKr - numLocked - 12
  }

  /**
   * With fewer than 12 unlocked positions the as-written keep count is
   * negative: the smallest Krylov space the TRLM constructor accepts
   * (nEv = nConv = 1, nKr = 7) gives iter_keep = -5 on the first restart,
   * so `kSpace[num_locked + iter_keep]` is written at index -5 and the next
   * restart starts its Lanczos steps at step -5.
   */
  lemma KeepAsWrittenNegative()
    ensures TrlmConstruct(EigParam(Lanczos, 1, 7, 1, Known(SR), false, 0, 0.0, 0.0, 10, 0.000001)).Success?
    ensures KeepAsWritten(7, 0, 0, 0) == -5
  {
  }

  /** The corrected keep count: the as-written heuristic, never below zero. */
  function Keep(nKr: int, numLocked: int, numConverged: int, iterConverged: int): (k: int)
    requires 0 <= numLocked <= nKr
    ensures 0 <= k <= nKr - numLocked
    ensures KeepAsWritten(nKr, numLocked, numConverged, iterConverged) >= 0 ==>
      k == KeepAsWritten(nKr, numLocked, numConverged, iterConverged)
    ensures KeepAsWritten(nKr, numLocked, numConverged, iterConverged) < 0 ==> k == 0
  {
    var k := KeepAsWritten(nKr, numLocked, numConverged, iterConverged);
    if k < 0 then 0 else k
  }

  /** `arrow_pos = max(num_keep - num_locked + 1, 2)`. */
  function ArrowPos(st: RestartState): int
  {
    if st.numKeep - st.numLocked + 1 > 2 then st.numKeep - st.numLocked + 1 else 2
  }

  /** A residual passes a test when it is below `factor * mat_norm`. */
  function Threshold(factor: real, matNorm: real): real
  {
    factor * matNorm
  }

  /**
   * One pass of the restart loop after the numerics: `iter` counts the
   * Lanczos steps of this pass, `mat_norm` grows to cover the new Ritz
   * values, the locked run is the longest run of residua below
   * epsilon * mat_norm from position 1, the converged run extends it under
   * tol * mat_norm, and `converged` records whether nConv pairs converged.
   * The three counts are relative to the locked count at the START of the
   * pass.
   */
  function Restart(c: Common, eps: real, st: RestartState, o: Observation): (r: RestartState)
    requires Valid(c, st) && Observed(c, o)
    ensures Valid(c, r)
    ensures r.restartIter == st.restartIter + 1
    ensures r.iter == st.iter + (c.nKr - st.numKeep)
    ensures r.matNorm >= st.matNorm
    ensures forall i :: st.numLocked <= i < c.nKr ==> r.matNorm >= Abs(o.alpha[i])
    ensures r.matNorm == st.matNorm || exists i :: st.numLocked <= i < c.nKr && r.matNorm == Abs(o.alpha[i])
    ensures st.numLocked <= r.numLocked <= r.numConverged < c.nKr
    ensures forall i :: st.numLocked < i <= r.numLocked ==> o.residua[i] < Threshold(eps, r.matNorm)
    ensures r.numLocked + 1 < c.nKr ==> o.residua[r.numLocked + 1] >= Threshold(eps, r.matNorm)
    ensures forall i :: r.numLocked < i <= r.numConverged ==> o.residua[i] < Threshold(c.tol, r.matNorm)
    ensures r.numConverged + 1 < c.nKr ==> o.residua[r.numConverged + 1] >= Threshold(c.tol, r.matNorm)
    ensures r.numKeep == st.numLocked + Keep(c.nKr, st.numLocked, st.numConverged, r.numConverged - st.numLocked)
    ensures r.converged <==> r.numConverged >= c.nConv
  {
    var nl: nat := st.numLocked;
    var dim: nat := c.nKr - nl;
    var mn := RunningMax(st.matNorm, o.alpha, nl, c.nKr);
    var il := Scan(o.residua, nl, dim, 0, Threshold(eps, mn));
    var ic := Scan(o.residua, nl, dim, il, Threshold(c.tol, mn));
    var ik := Keep(c.nKr, nl, st.numConverged, ic);
    RestartState(
      nl + il,
      nl + ic,
      nl + ik,
      st.restartIter + 1,
      st.iter + (c.nKr - st.numKeep),
      nl + ic >= c.nConv,
      mn)
  }

  /**
   * Unless a pass reports convergence, the next arrow eigensolve is well
   * formed: 2 <= arrow_pos <= nKr - num_locked, the range `Arrow.Projected`
   * demands. Needs nConv < nKr - 1, which the TRLM constructor's
   * nKr >= nEv + 6 and nConv <= nEv give.
   */
  lemma ArrowPosFits(c: Common, eps: real, st: RestartState, o: Observation)
    requires Valid(c, st) && Observed(c, o) && c.nConv < c.nKr - 1
    requires !Restart(c, eps, st, o).converged
    ensures 2 <= ArrowPos(Restart(c, eps, st, o)) <= c.nKr - Restart(c, eps, st, o).numLocked
  {
  }

  /**
   * The converged count is recomputed from the current locked count on every
   * pass, so it can fall: a pass whose first unlocked residual fails the
   * tolerance reports no converged pairs beyond the locked ones.
   */
  lemma ConvergedCountCanFall(c: Common, eps: real, st: RestartState, o: Observation)
    requires Valid(c, st) && Observed(c, o) && st.numLocked + 1 < c.nKr
    requires st.numConverged > st.numLocked
    requires o.residua[st.numLocked + 1] >= Threshold(eps, Restart(c, eps, st, o).matNorm)
    requires o.residua[st.numLocked + 1] >= Threshold(c.tol, Restart(c, eps, st, o).matNorm)
    ensures Restart(c, eps, st, o).numConverged < st.numConverged
  {
  }

  /** Operator applications over the passes with the given keep counts: nKr - num_keep each. */
  function Work(nKr: int, keeps: seq<int>): (w: int)
    ensures (forall t :: 0 <= t < |keeps| ==> 0 <= keeps[t] < nKr) ==> w >= |keeps|
  {
    if |keeps| == 0 then 0 else Work(nKr, keeps[..|keeps| - 1]) + (nKr - keeps[|keeps| - 1])
  }

  lemma WorkAppend(nKr: int, keeps: seq<int>, k: int)
    ensures Work(nKr, keeps + [k]) == Work(nKr, keeps) + (nKr - k)
  {
    assert (keeps + [k])[..|keeps|] == keeps;
  }

  ghost predicate Observes(c: Common, observe: RestartState -> Observation)
  {
    forall st: RestartState :: Observed(c, observe(st))
  }

  /** The counters the constructor hands to the restart loop. */
  function Initial(c: Common): RestartState
  {
    RestartState(0, 0, 0, 0, c.nEv, false, 0.0)
  }

  /**
   * `trace` is the run of the restart loop: it starts from the constructor's
   * counters, each state is `Restart` applied to the previous one and what
   * `observe` yields for it, and no state before the last has converged.
   */
  ghost predicate IsRun(c: Common, eps: real, observe: RestartState -> Observation, trace: seq<RestartState>)
  {
    && |trace| > 0
    && trace[0] == Initial(c)
    && (forall t :: 0 <= t < |trace| ==> Valid(c, trace[t]))
    && (forall t :: 0 <= t < |trace| - 1 ==> !trace[t].converged && Step(c, eps, observe, trace[t], trace[t + 1]))
  }

  /** `next` is the state one pass computes from `st` and its observation. */
  ghost predicate Step(c: Common, eps: real, observe: RestartState -> Observation, st: RestartState, next: RestartState)
  {
    Valid(c, st) && Observed(c, observe(st)) && next == Restart(c, eps, st, observe(st))
  }

  /** One more pass from the last, unconverged state extends a run. */
  lemma RunStep(c: Common, eps: real, observe: RestartState -> Observation, trace: seq<RestartState>, next: RestartState)
    requires IsRun(c, eps, observe, trace) && !trace[|trace| - 1].converged
    requires Step(c, eps, observe, trace[|trace| - 1], next) && Valid(c, next)
    ensures IsRun(c, eps, observe, trace + [next])
  {
    var t' := trace + [next];
    forall t | 0 <= t < |t'| - 1
      ensures !t'[t].converged && Step(c, eps, observe, t'[t], t'[t + 1])
    {
      assert t'[t] == trace[t];
    }
  }

  /** The keep count of the new pass is the one its starting state carries. */
  lemma KeepsStep(keeps: seq<int>, trace: seq<RestartState>, next: RestartState)
    requires |trace| == |keeps| + 1 && forall t :: 0 <= t < |keeps| ==> keeps[t] == trace[t].numKeep
    ensures forall t :: 0 <= t < |keeps| + 1 ==> (keeps + [trace[|keeps|].numKeep])[t] == (trace + [next])[t].numKeep
  {
  }

  /**
   * The state of the restart loop after |keeps| passes: `trace` is the run so
   * far ending in `st`, `keeps` the keep counts the passes started from,
   * `iter` the steps taken, and, once converged, `alpha` and `kSpace` the
   * last pass's Ritz pairs sorted by `reorder`.
   */
  ghost predicate Loop(c: Common, eps: real, observe: RestartState -> Observation, st: RestartState,
                       alpha: seq<real>, kSpace: seq<Vec>, keeps: seq<int>, trace: seq<RestartState>)
  {
    && IsRun(c, eps, observe, trace) && |trace| == |keeps| + 1 && st == trace[|keeps|]
    && (forall t :: 0 <= t < |keeps| ==> keeps[t] == trace[t].numKeep && 0 <= keeps[t] < c.nKr)
    && st.restartIter == |keeps|
    && (st.converged <==> st.restartIter > 0 && st.numConverged >= c.nConv)
    && st.iter == c.nEv + Work(c.nKr, keeps)
    && (|keeps| > 0 ==> keeps[0] == 0)
    && (|keeps| == 0 ==> st.numKeep == 0)
    && (st.converged ==> |alpha| == c.nKr && Reorder.SortedRange(c.reverse, alpha, 0, |alpha|))
    && (st.converged ==>
          var o := observe(trace[|keeps| - 1]);
          && |kSpace| == |o.kSpace|
          && multiset(Reorder.Pairs(alpha, kSpace, c.nKr)) == multiset(Reorder.Pairs(o.alpha, o.kSpace, c.nKr)))
  }

  /**
   * The restart loop from the constructor's counters: the passes are the
   * states of `trace`, each computed by `Restart` from the previous one and
   * its observation; at most max_restarts of them. It ends converged exactly
   * when the last pass counted nConv converged pairs, and then the Ritz
   * values of that pass are sorted by `reorder` together with their vectors;
   * otherwise it spent the whole budget. `iter` is nEv plus the steps of
   * every pass, each pass keeps the count the previous one chose, and the
   * first pass starts from num_keep = 0.
   */
  method Run(c: Common, prec: Precision, observe: RestartState -> Observation)
    returns (st: RestartState, alpha: seq<real>, kSpace: seq<Vec>, ghost keeps: seq<int>, ghost trace: seq<RestartState>)
    requires 0 < c.nEv && c.nEv + 6 <= c.nKr && c.nConv <= c.nEv
    requires Observes(c, observe)
    ensures IsRun(c, Epsilon(prec), observe, trace) && |trace| == |keeps| + 1 && st == trace[|keeps|]
    ensures forall t :: 0 <= t < |keeps| ==> keeps[t] == trace[t].numKeep
    ensures st.restartIter == |keeps|
    ensures c.maxRestarts <= 0 ==> st.restartIter == 0
    ensures c.maxRestarts > 0 ==> st.restartIter <= c.maxRestarts
    ensures !st.converged ==> c.maxRestarts <= st.restartIter
    ensures st.converged <==> st.restartIter > 0 && st.numConverged >= c.nConv
    ensures st.iter == c.nEv + Work(c.nKr, keeps)
    ensures |keeps| > 0 ==> keeps[0] == 0
    ensures forall t :: 0 <= t < |keeps| ==> 0 <= keeps[t] < c.nKr
    ensures st.converged ==> |alpha| == c.nKr && Reorder.SortedRange(c.reverse, alpha, 0, |alpha|)
    ensures st.converged ==>
      var o := observe(trace[|keeps| - 1]);
      && |kSpace| == |o.kSpace|
      && multiset(Reorder.Pairs(alpha, kSpace, c.nKr)) == multiset(Reorder.Pairs(o.alpha, o.kSpace, c.nKr))
  {
    var eps := Epsilon(prec);
    st := Initial(c);
    alpha, kSpace, keeps := [], [], [];
    trace := [st];
    while st.restartIter < c.maxRestarts && !st.converged
      invariant Loop(c, eps, observe, st, alpha, kSpace, keeps, trace)
      invariant c.maxRestarts <= 0 ==> st.restartIter == 0
      invariant c.maxRestarts > 0 ==> st.restartIter <= c.maxRestarts
      decreases c.maxRestarts - st.restartIter
    {
      st, alpha, kSpace, keeps, trace := Advance(c, eps, observe, st, alpha, kSpace, keeps, trace);
    }
  }

  /** One pass of the loop: the state `Pass` computes from the last one and its observation. */
  method Advance(c: Common, eps: real, observe: RestartState -> Observation, st: RestartState,
                 alpha: seq<real>, kSpace: seq<Vec>, ghost keeps: seq<int>, ghost trace: seq<RestartState>)
    returns (st': RestartState, alpha': seq<real>, kSpace': seq<Vec>, ghost keeps': seq<int>, ghost trace': seq<RestartState>)
    requires Observes(c, observe) && !st.converged
    requires Loop(c, eps, observe, st, alpha, kSpace, keeps, trace)
    ensures Loop(c, eps, observe, st', alpha', kSpace', keeps', trace')
    ensures st'.restartIter == st.restartIter + 1
  {
    var o := observe(st);
    assert Observed(c, o);
    WorkAppend(c.nKr, keeps, st.numKeep);
    st', alpha', kSpace' := Pass(c, eps, st, o);
    RunStep(c, eps, observe, trace, st');
    KeepsStep(keeps, trace, st');
    keeps', trace' := keeps + [st.numKeep], trace + [st'];
    assert trace'[|keeps'| - 1] == st;
  }

  /**
   * The counters of one pass, and on convergence the Ritz values sorted by
   * `reorder` together with their vectors.
   */
  method Pass(c: Common, eps: real, st: RestartState, o: Observation)
    returns (st': RestartState, alpha: seq<real>, kSpace: seq<Vec>)
    requires Valid(c, st) && Observed(c, o)
    ensures st' == Restart(c, eps, st, o)
    ensures Valid(c, st') && st'.restartIter == st.restartIter + 1
    ensures st'.iter == st.iter + (c.nKr - st.numKeep)
    ensures st'.converged <==> st'.numConverged >= c.nConv
    ensures st'.converged ==> |alpha| == c.nKr && Reorder.SortedRange(c.reverse, alpha, 0, |alpha|)
    ensures st'.converged ==> |kSpace| == |o.kSpace| && kSpace[c.nKr..] == o.kSpace[c.nKr..]
    ensures st'.converged ==>
      multiset(Reorder.Pairs(alpha, kSpace, c.nKr)) == multiset(Reorder.Pairs(o.alpha, o.kSpace, c.nKr))
    ensures !st'.converged ==> alpha == o.alpha && kSpace == o.kSpace
  {
    st' := Restart(c, eps, st, o);
    if st'.converged {
      var sorted := Reorder.ReorderAll(c.reverse, o.alpha, o.kSpace);
      alpha, kSpace := sorted.0, sorted.1;
    } else {
      alpha, kSpace := o.alpha, o.kSpace;
    }
  }
}

=== FILE: vectors.dfy ===
/**
 * Real vectors: the idealisation of the solver's spinor fields and of the
 * BLAS kernels (axpy, ax, dot products, block caxpy) that act on them.
 * Doubles and complex numbers become `real`; a field becomes a `seq<real>`.
 */
module Vectors {

  type Vec = seq<real>

  function Abs(x: real): (r: real)
    ensures r >= 0.0
    ensures r == x || r == -x
  {
    if x < 0.0 then -x else x
  }

  function Max(a: real, b: real): (r: real)
    ensures r >= a && r >= b
    ensures r == a || r == b
  {
    if a >= b then a else b
  }

  /** An operator that maps every field to a field of the same dimension. */
  ghost predicate PreservesDim(A: Vec -> Vec)
  {
    forall x: Vec :: |A(x)| == |x|
  }

  /** The zero field of dimension `n` (blas::zero). */
  function Zero(n: nat): (z: Vec)
    ensures |z| == n
    ensures forall i :: 0 <= i < n ==> z[i] == 0.0
  {
    seq(n, _ => 0.0)
  }

  /** x scaled by a (blas::ax). */
  function Scale(a: real, x: Vec): (r: Vec)
    ensures |r| == |x|
    ensures forall i :: 0 <= i < |x| ==> r[i] == a * x[i]
  {
    seq(|x|, i requires 0 <= i < |x| => a * x[i])
  }

  /** y + a x (blas::axpy). */
  function Axpy(a: real, x: Vec, y: Vec): (r: Vec)
    requires |x| == |y|
    ensures |r| == |y|
    ensures forall i :: 0 <= i < |y| ==> r[i] == y[i] + a * x[i]
  {
    seq(|y|, i requires 0 <= i < |y| => y[i] + a * x[i])
  }

  function Add(x: Vec, y: Vec): (r: Vec)
    requires |x| == |y|
    ensures |r| == |x|
    ensures forall i :: 0 <= i < |x| ==> r[i] == x[i] + y[i]
  {
    seq(|x|, i requires 0 <= i < |x| => x[i] + y[i])
  }

  function Sub(x: Vec, y: Vec): (r: Vec)
    requires |x| == |y|
    ensures |r| == |x|
    ensures forall i :: 0 <= i < |x| ==> r[i] == x[i] - y[i]
  {
    seq(|x|, i requires 0 <= i < |x| => x[i] - y[i])
  }

  /** The inner product: the weighted sum over every component. */
  function Dot(x: Vec, y: Vec): real
    requires |x| == |y|
  {
    WeightedSum(x, y, |x|)
  }

  /** Every one of the first `n` vectors has dimension `d`. */
  predicate AllDim(vs: seq<Vec>, n: nat, d: nat)
  {
    n <= |vs| && forall i :: 0 <= i < n ==> |vs[i]| == d
  }

  /** Vectors `lo..hi-1` of `vs` are orthonormal (exact arithmetic). */
  ghost predicate Orthonormal(vs: seq<Vec>, lo: nat, hi: nat)
    requires hi <= |vs|
  {
    forall i, k :: lo <= i < hi && lo <= k < hi ==>
      |vs[i]| == |vs[k]| && Dot(vs[i], vs[k]) == if i == k then 1.0 else 0.0
  }

  /** The linear combination c[0] vs[0] + ... + c[n-1] vs[n-1] of dimension `d`. */
  function Combine(c: seq<real>, vs: seq<Vec>, n: nat, d: nat): (r: Vec)
    requires n <= |c| && AllDim(vs, n, d)
    ensures |r| == d
    decreases n
  {
    if n == 0 then Zero(d) else Axpy(c[n - 1], vs[n - 1], Combine(c, vs, n - 1, d))
  }

  /** The weighted sum c[0] t[0] + ... + c[n-1] t[n-1] of scalars. */
  function WeightedSum(c: seq<real>, t: seq<real>, n: nat): real
    requires n <= |c| && n <= |t|
    decreases n
  {
    if n == 0 then 0.0 else WeightedSum(c, t, n - 1) + c[n - 1] * t[n - 1]
  }

  /** The plain sum of the first `n` scalars. */
  function SumTo(s: seq<real>, n: nat): real
    requires n <= |s|
    decreases n
  {
    if n == 0 then 0.0 else SumTo(s, n - 1) + s[n - 1]
  }

  //--------------------------------------------------------------------------
  // Scalar steps. The solver does not reliably rewrite inside a product, so
  // every such rewrite and every ring identity the proofs below need is a
  // lemma of its own.
  //--------------------------------------------------------------------------

  lemma MulEq(a: real, p: real, q: real)
    requires p == q
    ensures a * p == a * q
  {
  }

  lemma Distribute(v: real, x: real, y: real)
    ensures v * (x + y) == v * x + v * y
  {
  }

  lemma DistributeSub(v: real, x: real, y: real)
    ensures v * (x - y) == v * x - v * y
  {
  }

  lemma ScaleRightStep(a: real, p: real, v: real, x: real)
    ensures a * p + v * (a * x) == a * (p + v * x)
  {
  }

  lemma ScaleLeftStep(a: real, p: real, x: real, v: real)
    ensures a * p + (a * x) * v == a * (p + x * v)
  {
  }

  lemma Commute(x: real, y: real)
    ensures x * y == y * x
  {
  }

  //--------------------------------------------------------------------------
  // Linearity and symmetry of the weighted sum, hence of the inner product
  //--------------------------------------------------------------------------

  lemma {:induction false} SumAddRight(v: Vec, x: Vec, y: Vec, n: nat)
    requires n <= |v| == |x| == |y|
    ensures WeightedSum(v, Add(x, y), n) == WeightedSum(v, x, n) + WeightedSum(v, y, n)
    decreases n
  {
    if n > 0 {
      SumAddRight(v, x, y, n - 1);
      MulEq(v[n - 1], Add(x, y)[n - 1], x[n - 1] + y[n - 1]);
      Distribute(v[n - 1], x[n - 1], y[n - 1]);
    }
  }

  lemma {:induction false} SumSubRight(v: Vec, x: Vec, y: Vec, n: nat)
    requires n <= |v| == |x| == |y|
    ensures WeightedSum(v, Sub(x, y), n) == WeightedSum(v, x, n) - WeightedSum(v, y, n)
    decreases n
  {
    if n > 0 {
      SumSubRight(v, x, y, n - 1);
      MulEq(v[n - 1], Sub(x, y)[n - 1], x[n - 1] - y[n - 1]);
      DistributeSub(v[n - 1], x[n - 1], y[n - 1]);
    }
  }

  lemma {:induction false} SumScaleRight(v: Vec, a: real, x: Vec, n: nat)
    requires n <= |v| == |x|
    ensures WeightedSum(v, Scale(a, x), n) == a * WeightedSum(v, x, n)
    decreases n
  {
    if n > 0 {
      SumScaleRight(v, a, x, n - 1);
      var p := WeightedSum(v, x, n - 1);
      MulEq(v[n - 1], Scale(a, x)[n - 1], a * x[n - 1]);
      MulEq(a, WeightedSum(v, x, n), p + v[n - 1] * x[n - 1]);
      ScaleRightStep(a, p, v[n - 1], x[n - 1]);
    }
  }

  lemma {:induction false} SumScaleLeft(a: real, x: Vec, v: Vec, n: nat)
    requires n <= |v| == |x|
    ensures WeightedSum(Scale(a, x), v, n) == a * WeightedSum(x, v, n)
    decreases n
  {
    if n > 0 {
      SumScaleLeft(a, x, v, n - 1);
      var p := WeightedSum(x, v, n - 1);
      MulEq(v[n - 1], Scale(a, x)[n - 1], a * x[n - 1]);
      Commute(Scale(a, x)[n - 1], v[n - 1]);
      Commute(a * x[n - 1], v[n - 1]);
      MulEq(a, WeightedSum(x, v, n), p + x[n - 1] * v[n - 1]);
      ScaleLeftStep(a, p, x[n - 1], v[n - 1]);
    }
  }

  lemma {:induction false} SumSymmetric(x: Vec, y: Vec, n: nat)
    requires n <= |x| == |y|
    ensures WeightedSum(x, y, n) == WeightedSum(y, x, n)
    decreases n
  {
    if n > 0 {
      SumSymmetric(x, y, n - 1);
      Commute(x[n - 1], y[n - 1]);
    }
  }

  lemma {:induction false} SumZeroRight(v: Vec, n: nat)
    requires n <= |v|
    ensures WeightedSum(v, Zero(|v|), n) == 0.0
    decreases n
  {
    if n > 0 {
      SumZeroRight(v, n - 1);
      MulEq(v[n - 1], Zero(|v|)[n - 1], 0.0);
    }
  }

  lemma DotAxpyRight(v: Vec, a: real, x: Vec, y: Vec)
    requires |v| == |x| == |y|
    ensures Dot(v, Axpy(a, x, y)) == a * Dot(v, x) + Dot(v, y)
  {
    assert Axpy(a, x, y) == Add(Scale(a, x), y);
    DotAddRight(v, Scale(a, x), y);
    DotScaleRight(v, a, x);
  }

  lemma DotAddRight(v: Vec, x: Vec, y: Vec)
    requires |v| == |x| == |y|
    ensures Dot(v, Add(x, y)) == Dot(v, x) + Dot(v, y)
  {
    SumAddRight(v, x, y, |v|);
  }

  lemma DotSubRight(v: Vec, x: Vec, y: Vec)
    requires |v| == |x| == |y|
    ensures Dot(v, Sub(x, y)) == Dot(v, x) - Dot(v, y)
  {
    SumSubRight(v, x, y, |v|);
  }

  lemma DotScaleRight(v: Vec, a: real, x: Vec)
    requires |v| == |x|
    ensures Dot(v, Scale(a, x)) == a * Dot(v, x)
  {
    SumScaleRight(v, a, x, |v|);
  }

  lemma DotScaleLeft(a: real, x: Vec, v: Vec)
    requires |v| == |x|
    ensures Dot(Scale(a, x), v) == a * Dot(x, v)
  {
    SumScaleLeft(a, x, v, |x|);
  }

  lemma DotSymmetric(x: Vec, y: Vec)
    requires |x| == |y|
    ensures Dot(x, y) == Dot(y, x)
  {
    SumSymmetric(x, y, |x|);
  }

  lemma DotZeroRight(v: Vec)
    ensures Dot(v, Zero(|v|)) == 0.0
  {
    SumZeroRight(v, |v|);
  }

  /** The inner product distributes over a linear combination. */
  lemma {:induction false} DotCombine(v: Vec, c: seq<real>, vs: seq<Vec>, n: nat, t: seq<real>)
    requires n <= |c| && AllDim(vs, n, |v|)
    requires n <= |t| && forall i :: 0 <= i < n ==> t[i] == Dot(v, vs[i])
    ensures Dot(v, Combine(c, vs, n, |v|)) == WeightedSum(c, t, n)
    decreases n
  {
    if n == 0 {
      DotZeroRight(v);
    } else {
      DotCombine(v, c, vs, n - 1, t);
      CombineStep(v, c, vs, n, t);
    }
  }

  lemma CombineStep(v: Vec, c: seq<real>, vs: seq<Vec>, n: nat, t: seq<real>)
    requires 0 < n <= |c| && AllDim(vs, n, |v|) && n <= |t| && t[n - 1] == Dot(v, vs[n - 1])
    requires Dot(v, Combine(c, vs, n - 1, |v|)) == WeightedSum(c, t, n - 1)
    ensures Dot(v, Combine(c, vs, n, |v|)) == WeightedSum(c, t, n)
  {
    DotAxpyRightAt(v, c[n - 1], vs[n - 1], Combine(c, vs, n - 1, |v|), t[n - 1]);
  }

  /** `DotAxpyRight` with <v, x> already known as tx. */
  lemma DotAxpyRightAt(v: Vec, a: real, x: Vec, y: Vec, tx: real)
    requires |v| == |x| == |y| && tx == Dot(v, x)
    ensures Dot(v, Axpy(a, x, y)) == Dot(v, y) + a * tx
  {
    DotAxpyRight(v, a, x, y);
    MulEq(a, tx, Dot(v, x));
  }

  /** Against an orthonormal family, the inner product picks one coefficient out. */
  lemma {:induction false} WeightedSumPick(c: seq<real>, t: seq<real>, n: nat, k: nat)
    requires n <= |c| && n <= |t|
    requires forall i :: 0 <= i < n ==> t[i] == if i == k then 1.0 else 0.0
    ensures WeightedSum(c, t, n) == if k < n then c[k] else 0.0
    decreases n
  {
    if n > 0 {
      WeightedSumPick(c, t, n - 1, k);
    }
  }

  /** A weighted sum with all weights zero vanishes. */
  lemma {:induction false} WeightedSumZero(c: seq<real>, t: seq<real>, n: nat)
    requires n <= |c| && n <= |t|
    requires forall i :: 0 <= i < n ==> t[i] == 0.0
    ensures WeightedSum(c, t, n) == 0.0
    decreases n
  {
    if n > 0 {
      WeightedSumZero(c, t, n - 1);
    }
  }

  /** A vector orthogonal to vs[0..n) is orthogonal to every combination of them. */
  lemma CombineOrthogonal(y: Vec, c: seq<real>, vs: seq<Vec>, n: nat)
    requires n <= |c| && AllDim(vs, n, |y|)
    requires forall k :: 0 <= k < n ==> Dot(vs[k], y) == 0.0
    ensures Dot(y, Combine(c, vs, n, |y|)) == 0.0
  {
    var t := seq(n, i requires 0 <= i < n => Dot(y, vs[i]));
    forall i | 0 <= i < n
      ensures t[i] == 0.0
    {
      DotSymmetric(vs[i], y);
    }
    DotCombine(y, c, vs, n, t);
    WeightedSumZero(c, t, n);
  }

  /** A combination of vs[0..n) lies in their span: it is orthogonal to whatever is orthogonal to all of them. */
  lemma CombineInSpan(c: seq<real>, vs: seq<Vec>, n: nat, d: nat)
    requires n <= |c| && AllDim(vs, n, d)
    ensures forall y :: |y| == d && (forall k :: 0 <= k < n ==> Dot(vs[k], y) == 0.0) ==> Dot(y, Combine(c, vs, n, d)) == 0.0
  {
    forall y | |y| == d && (forall k :: 0 <= k < n ==> Dot(vs[k], y) == 0.0)
      ensures Dot(y, Combine(c, vs, n, d)) == 0.0
    {
      CombineOrthogonal(y, c, vs, n);
    }
  }

  /** A combination with all coefficients zero is the zero vector. */
  lemma {:induction false} CombineZeroCoefficients(c: seq<real>, vs: seq<Vec>, n: nat, d: nat)
    requires n <= |c| && AllDim(vs, n, d)
    requires forall i :: 0 <= i < n ==> c[i] == 0.0
    ensures Combine(c, vs, n, d) == Zero(d)
    decreases n
  {
    if n > 0 {
      CombineZeroCoefficients(c, vs, n - 1, d);
      var r := Combine(c, vs, n, d);
      assert forall m :: 0 <= m < d ==> r[m] == 0.0;
    }
  }
}
